=== FILE: README.md ===
# Migraine tracker: a verified model of the risk-prediction pipeline

The tracker is a Django application in which each user keeps one `DailyLog` per
day: sleep, activity, stress, caffeine, hydration, alcohol, menstruation, a
weather snapshot, and whether a migraine happened, with its intensity and
duration. A small machine-learning layer turns those logs into a next-day
migraine risk. This project models that layer and the helpers around it in
Dafny, and proves what each step promises:

- **Dataset builder** (`Features`, `Dataset`, `Series`, `Frames`). The log
  query sorts rows by (user, date) and adds weekday and month. In-place loops
  add lag and delta columns within each user, and rolling columns over the
  lagged values. The rolling windows are not grouped by user (see below).
  Labels are shifted
  `LABEL_SHIFT_DAYS` records ahead, unlabelled rows are dropped, and the
  feature columns and the migraine-day severity subset are chosen.
- **Preprocessing layout** (`Preprocess`): which columns are one-hot encoded
  and which are scaled.
- **Trainers** (`TrainGlobal`, `TrainUser`):
  - the positional split over the rows of X. The global X is ordered by
    (user, date), so for the global trainers the split separates earlier
    users from later ones. Only for one user's data is it a split in time;
  - the outcomes and metrics records of the global occurrence and severity
    trainers;
  - the per-user eligibility gate and trainer;
  - the batch over all users.
- **Model storage** (`Storage`): the path layout, and save/load over a store
  of bundles.
- **Prediction** (`Predict`, `Explain`):
  - probability clipping;
  - the blend weight `n / (n + N0)` that trusts a personal model more as its
    history grows;
  - the global-only and blended predictions;
  - the linear explanation, whose contributions are ranked by `argsort` and
    cut to the top k.
- **Data entry and charts**:
  - the `DailyLog` model's validators, `clean()` and per-day uniqueness
    (`Models`);
  - the entry form's widgets and its future-date check (`Forms`);
  - the chart window helpers and the Prev/Next navigation of the dashboard
    script (`Charts`).

Code that changes state in place is modelled as Dafny classes and methods, each
proved against a function that specifies it. This covers:

- the DataFrame columns the builder assigns (`Frames.DataFrame`,
  `Features.AddGroupLagsAndRolls`, `Dataset.BuildDataset`);
- `DailyLog.clean()`;
- the form's widget loop;
- the chart configuration whose `start` the navigation rewrites;
- the batch loop over users.

The rest is functions and lemmas.

The library routines are parameters of the model and are not computed here:

- scikit-learn fitting, transforming and scoring;
- the binary64 products inside `int(n * 0.7)` and `int(n * 0.8)`;
- the models-directory setting;
- the saved files, modelled as a map from paths to bundles.

The rolling features are not grouped by user. The comment at
tracker/ml/features.py:100 and the `reset_index(level=0, ...)` on lines 103
and 106 are the idiom of a grouped rolling window. The code, however, calls
`.rolling(w)` on the already-shifted column, not on a groupby. A window near
the start of a user's block therefore also reads the last lagged rows of the
previous user. The model follows the code, and `Dataset.RollingCrossesUsers`
exhibits the effect. `Dataset.NoLeakage` still proves that look-back features
at a row depend only on earlier rows and on that row's user.

## Model

| member | source | states |
|---|---|---|
| Config.DefaultConfig | tracker/ml/config.py:4-24 | The default configuration has label shift 1, windows (3, 7), gate 30 days / 5 positives, retrain 10, N0 = 120, global retrain 100 and schema "v1". |
| Config.DefaultBlendDenominatorPositive | tracker/ml/config.py:18 | Under the default N0, the blend denominator n + N0 is positive for every row count. |
| Models.Weekday | tracker/ml/features.py:73 | The weekday of a valid date lies in 0..6 (Monday = 0). |
| Models.WeekdayOfKnownMonday | tracker/ml/features.py:73 | Calibration: 2024-01-01 gets weekday 0, as Python's date.weekday() gives. |
| Models.NextDayWeekday | tracker/ml/features.py:73 | The next calendar day is a valid date whose weekday is one later, with Sunday wrapping to Monday. |
| Models.InsertLog | tracker/models.py:90-94 | An insert succeeds iff no row has the same (user, date). It then appends the row, and it preserves per-(user, date) uniqueness. |
| Models.CleanFields | tracker/models.py:96-107 | clean() raises exactly on a migraine day that lacks intensity or duration, naming intensity first. Otherwise the result is consistent (non-migraine days carry no intensity, duration or meds) and migraine days pass through unchanged. |
| Models.CleanIdempotent | tracker/models.py:96-107 | Cleaning a cleaned record again changes nothing and raises nothing. |
| Models.DailyLog.constructor | tracker/models.py:28-84 | A new row carries the field defaults: zero counts, no migraine, blank text and no weather. |
| Models.DailyLog.ValidatorErrors | tracker/models.py:32-72 | There are no validator errors iff every Min/MaxValueValidator bound holds. Nullable intensity and duration are checked only when present. |
| Models.DailyLog.Clean | tracker/models.py:96-107 | In place: on error the named field is reported and the row is left as it was. Otherwise the migraine fields become the cleaned ones, and they are consistent. |
| Models.DailyLog.Record | tracker/ml/features.py:49-58 | The queried row carries the instance's user, date, occurrence flag, intensity and duration. |
| Text.NatToStringInjective | tracker/ml/storage.py:25 | Distinct natural numbers render as distinct decimal strings. |
| Text.IntToStringInjective | tracker/ml/storage.py:25 | str(user_id) is injective, including negatives. |
| Text.ZeroPad | tracker/forms.py:29 | The result is the decimal rendering of n preceded by just enough '0's to reach `width`, or the rendering alone when it is already that wide. |
| Text.SplitLength | tracker/static/tracker/js/main.js:145 | split yields one more part than there are separators. |
| Text.JoinSplit | tracker/static/tracker/js/main.js:145 | Joining the parts of a split gives back the string. |
| Text.SplitJoin | tracker/static/tracker/js/main.js:145 | Splitting a join of separator-free parts gives back the parts. |
| Series.Lag | tracker/ml/features.py:94 | A grouped shift(1) keeps the column's length. |
| Series.LagIsGroupedShift | tracker/ml/features.py:94 | On rows sorted by user, the lag at row i is the value of the nearest earlier row of the same user, or missing when there is none. |
| Series.PrevInGroup | tracker/ml/features.py:94 | The found row is earlier, has the same user, and has no same-user row between it and row i. "None" means no earlier row has that user. |
| Series.Lead | tracker/ml/features.py:130 | A grouped shift(-s) keeps the column's length. |
| Series.LeadPresentIff | tracker/ml/features.py:130 | The row s places later is the same user's iff the user's block extends past i + s. |
| Series.Delta | tracker/ml/features.py:98 | An element-wise difference keeps the length. |
| Series.RollingMeanWithin | tracker/ml/features.py:103 | A rolling mean with min_periods=1 stays within any bounds that every present value obeys. |
| Series.RollingSumOfFlags | tracker/ml/features.py:106 | A rolling sum of 0/1 flags over w rows lies in [0, w]. |
| Series.LagLocal | tracker/ml/features.py:94 | The lag at rows 0..i depends only on users 0..i and values 0..i-1. |
| Series.DeltaLocal | tracker/ml/features.py:98 | The delta at rows 0..i depends only on rows 0..i of its operands. |
| Series.RollingLocal | tracker/ml/features.py:100-106 | Trailing windows make rolling results at rows 0..i depend only on rows 0..i. |
| Series.Where | tracker/ml/features.py:139 | The kept positions are exactly the rows where the mask holds, strictly ascending. |
| Series.WherePrefix | tracker/ml/features.py:139 | A mask true on exactly the first m rows keeps rows 0..m-1. |
| Series.Select | tracker/ml/features.py:161 | Selecting by positions yields one element per position. |
| Frames.Set | tracker/ml/features.py:94 | Assigning df[c] changes column c to v and leaves every other column and key column alone. A new name is appended after the existing ones, and an existing name keeps its place. |
| Frames.SetWellFormed | tracker/ml/features.py:94 | Assignment keeps one cell per row and each column listed once. |
| Frames.DataFrame.SetColumn | tracker/ml/features.py:94 | In place: the frame's new value is the assignment applied to the old value. |
| Features.SortLogs | tracker/ml/features.py:67 | The query rows come back sorted by (user, date) and are a permutation of the input. |
| Features.SortedUsers | tracker/ml/features.py:67 | After sorting, the user column is non-decreasing, so each user's rows form one block. |
| Features.QueryLogs | tracker/ml/features.py:49-60 | Without a user, the query returns the whole table. With a user, every returned row is a stored row of that user, and every stored row of that user is returned. |
| Features.QueryLogsRows | tracker/ml/features.py:49-60 | A user's query holds each of that user's rows exactly as many times as the table stores it, and no other row. It is the table filtered to that user, in table order. |
| Features.QueryFrameSorted | tracker/ml/features.py:62-67 | The query frame's users are those of the sorted rows, grouped in blocks. |
| Features.FrameOfRowsColumns | tracker/ml/features.py:62-74 | Each selected column holds each row's value. weekday is date.weekday() and month is the date's month. |
| Features.CalendarNotQueried | tracker/ml/features.py:49-58 | weekday and month are not among the queried columns, so adding them appends two columns. |
| Features.WithLagsGet | tracker/ml/features.py:83-94 | After the lag loop, `<col>_lag1` is the grouped shift of its column, and every other column is unchanged. |
| Features.WithDeltasGet | tracker/ml/features.py:97-98 | After the delta loop, `<col>_delta1` is the column minus its lag, and every other column is unchanged. |
| Features.WithRollMeansGet | tracker/ml/features.py:102-103 | After one window's mean loop, `<col>_roll_mean_<w>` is the rolling mean of the lagged column, and every other column is unchanged. |
| Features.WithRollsGet | tracker/ml/features.py:101-106 | After the window loop, each mean and each `migraine_roll_sum_<w>` holds the last window's aggregate of the lagged raw column. |
| Features.LagsAndRollsGet | tracker/ml/features.py:79-108 | Every column of the extended frame is given by the raw columns alone: lag, delta, rolling mean or rolling sum of the lag, or unchanged. |
| Features.LagsAndRollsKeeps | tracker/ml/features.py:79-108 | The extension never removes a column. |
| Features.AddLags | tracker/ml/features.py:83-94 | In place: the lag loop leaves the frame equal to its functional specification. |
| Features.AddDeltas | tracker/ml/features.py:97-98 | In place: the delta loop leaves the frame equal to its functional specification. |
| Features.AddRollMeans | tracker/ml/features.py:102-103 | In place: one window's mean loop leaves the frame equal to its functional specification. |
| Features.AddRolls | tracker/ml/features.py:101-106 | In place: the nested window loop leaves the frame equal to its functional specification. |
| Features.AddGroupLagsAndRolls | tracker/ml/features.py:79-108 | In place: the whole routine leaves the frame equal to LagsAndRolls of the old frame. |
| Dataset.AddLabelsGet | tracker/ml/features.py:128-136 | y_occ, y_int and y_dur are the targets read s rows ahead within the user when s > 0, and the same-day targets otherwise. Every other column is untouched. |
| Dataset.KeptRows | tracker/ml/features.py:139 | dropna keeps exactly the rows whose y_occ is present, in order. |
| Dataset.FeatureCols | tracker/ml/features.py:143-154 | The feature columns are exactly the frame's columns whose name is outside the drop set. |
| Dataset.FeatureColsOrder | tracker/ml/features.py:154 | The feature columns keep the frame's column order. |
| Dataset.SeverityRows | tracker/ml/features.py:160 | The migraine mask selects, in order, exactly the rows with label 1 and both severity targets present. |
| Dataset.Finish | tracker/ml/features.py:156-172 | X and y_occ have one entry per kept row. The severity arrays agree in length, and every row has one cell per feature column. |
| Dataset.DatasetOf | tracker/ml/features.py:111-172 | The dataset's arrays are aligned, have no more rows than the query returned, and every row has one cell per feature column. |
| Dataset.BuildDataset | tracker/ml/features.py:111-172 | The imperative builder (in-place column assignment) returns exactly DatasetOf. |
| Dataset.EmptyFeaturesIff | tracker/ml/features.py:113-122 | The feature list is empty iff the query found no logs. An empty query gives the all-empty dataset. |
| Dataset.QueryColumn | tracker/ml/features.py:62-67 | A queried column of the frame is the sorted rows' values. |
| Dataset.LaggedQueryColumn | tracker/ml/features.py:94 | The grouped shift of a queried column is the previous sorted record's value, for the same user only. |
| Dataset.LagFeature | tracker/ml/features.py:94 | `<col>_lag1` holds the previous record's value when it belongs to the same user, and is missing on a user's first record. |
| Dataset.DeltaFeature | tracker/ml/features.py:98 | `<col>_delta1` is today's value minus the lagged value, and is missing if either is missing. |
| Dataset.RollMeanFeature | tracker/ml/features.py:103 | `<col>_roll_mean_<w>` is the rolling mean of the lagged column over w rows of the frame. |
| Dataset.RollSumFeature | tracker/ml/features.py:106 | `migraine_roll_sum_<w>` is the rolling sum of the lagged occurrence flag over w rows of the frame. |
| Dataset.LaggedLocal | tracker/ml/features.py:94 | The lagged column at rows 0..i depends only on rows before i and on row i's user. |
| Dataset.NoLeakage | tracker/ml/features.py:79-108 | Consider two queries whose sorted rows agree before i and on row i's user. They get identical lag and rolling features on rows 0..i, whatever row i and later rows hold. |
| Dataset.LabelledColumns | tracker/ml/features.py:128-136 | The label columns of the built frame are the sorted rows' targets, shifted as configured. |
| Dataset.KeptIff | tracker/ml/features.py:129-139 | A row is kept iff its label source row exists and belongs to the same user. |
| Dataset.LastRowsDropped | tracker/ml/features.py:129-139 | With s > 0, the dropped rows are exactly each user's last s rows. |
| Dataset.SameDayKeepsAll | tracker/ml/features.py:133-139 | With s <= 0, every row is kept, in order. |
| Dataset.LabelAlignment | tracker/ml/features.py:126-140 | The k-th training row's labels are the targets of the row s places later for the same user. y_occ is that row's 0/1 flag. |
| Dataset.SeveritySubset | tracker/ml/features.py:159-163 | Each severity row is a training row with the same features, label 1, and the present intensity and duration that y_intensity and y_duration carry. |
| Dataset.SeverityComplete | tracker/ml/features.py:160 | Every training row with label 1 and both severity targets present is in the severity subset. |
| Dataset.SeverityOrdered | tracker/ml/features.py:160-161 | The severity subset keeps the row order. |
| Dataset.SleepHoursFeature | tracker/ml/features.py:143-154 | sleep_hours is always a feature column of a non-empty dataset. |
| Dataset.SingleUserExample | tracker/ml/features.py:79-140 | One user, flags 0,0,1,0,0,0,1,0,0,0 and s = 1. Day 2 is labelled 1 (day 3's flag) and its lagged flag is day 1's 0. Day 3 is labelled 0 and its lagged flag is day 2's 0. Day 6 is labelled 1 and its 3-day roll sum is 1. |
| Dataset.OneUserKept | tracker/ml/features.py:129-139 | With s > 0, one user's n logs keep exactly the first n - s sorted rows, in order, and none when n <= s. |
| Dataset.UserLastRow | tracker/ml/features.py:111-172 | With s > 0, a user with at most s logs gets an empty X. Otherwise X has n - s rows, and its last row is the feature row of sorted log n - 1 - s. With s = 1 that is the second-latest log. |
| Dataset.LatestFeatureRow | tracker/ml/features.py:62-108 | A feature row exists iff the user has a log. It is the frame row of the user's last sorted log, which has the latest date. |
| Dataset.LabelsAreFlags | tracker/ml/features.py:130-136 | Every y_occ label is 0 or 1. |
| Dataset.RollingCrossesUsers | tracker/ml/features.py:103-106 | As written, the rolling window is not grouped: the first row of the second user gets a roll sum of 1 from the previous user's lagged rows. |
| Preprocess.Categorical | tracker/ml/preprocess.py:17 | The categorical list holds exactly the input's weekday and month columns. |
| Preprocess.Numeric | tracker/ml/preprocess.py:18 | The numeric list holds exactly the input's other columns. |
| Preprocess.NumericIsNonCategorical | tracker/ml/preprocess.py:18 | Filtering by "not in the categorical list" equals the independent non-categorical filter, in input order. |
| Preprocess.Partition | tracker/ml/preprocess.py:17-18 | The two lists are disjoint and cover the input. Each keeps the input order, and together they hold each column as often as the input does. |
| Preprocess.MakePreprocess | tracker/ml/preprocess.py:12-37 | The transformer has "num" (median imputation, scaling) over the numeric columns, then "cat" (most-frequent imputation, one-hot ignoring unknowns) over the categorical ones. Its remainder is dropped and names are not prefixed. |
| Preprocess.EveryColumnOnce | tracker/ml/preprocess.py:30-37 | Every feature column is routed to exactly one branch, so remainder="drop" discards none. |
| Estimators.Probabilities | tracker/ml/train_global.py:65 | predict_proba(X)[:, 1] gives one probability per row, from that row alone. |
| Estimators.Predictions | tracker/ml/train_global.py:114 | predict(X) gives one prediction per row, from that row alone. |
| Storage.PathsUnderBase | tracker/ml/storage.py:16-25 | Every bundle path lies under the base directory and ends in latest.joblib. |
| Storage.UserPathInjective | tracker/ml/storage.py:24-25 | Distinct users get distinct paths. |
| Storage.ScopesDistinct | tracker/ml/storage.py:16-25 | The global occurrence, global severity and per-user paths never coincide. |
| Storage.GetModelPaths | tracker/ml/storage.py:31-35 | The call raises RuntimeError iff ML_MODELS_DIR is unset, and otherwise uses it as the base. |
| Storage.SaveModel | tracker/ml/storage.py:38-40 | The save raises iff the setting is unset. Otherwise it adds the path and leaves other saved bundles as they were. |
| Storage.LoadModel | tracker/ml/storage.py:43-48 | A load succeeds iff model_exists holds for the path. |
| Storage.SaveThenLoad | tracker/ml/storage.py:38-48 | After a save, the path exists and loads the saved bundle. Every other path loads as before. |
| TrainGlobal.SplitCut | tracker/ml/train_global.py:28-30 | For n >= 5 the cut lies in [1, n-1], whatever binary64 rounding does. |
| TrainGlobal.TimeSplit | tracker/ml/train_global.py:24-31 | Below 5 rows, train = test = all rows. Otherwise train + test is the data in order, the training side has 1..n-1 rows, and labels are split at the same cut. |
| TrainGlobal.SplitSidesNonEmpty | tracker/ml/train_global.py:24-31 | Non-empty data never gives an empty training or test side. |
| TrainGlobal.OccurrenceReport | tracker/ml/train_global.py:68-80 | Counts are the dataset and side sizes. auc and auprc are null iff the test labels have one class, and the schema version and shift come from the config. |
| TrainGlobal.CalibratedFit | tracker/ml/train_global.py:59-62 | An exception of the first pipeline fit propagates. Otherwise the result is the calibration fit's. |
| TrainGlobal.OccurrenceTraining | tracker/ml/train_global.py:35-84 | Empty X returns "No data" with nothing saved. Otherwise a fit exception propagates with nothing saved. After a successful fit, an unset directory raises, and a set one always trains. Then the calibrated model is saved at the global occurrence path with these metrics and features. Every other saved bundle keeps its value, and a run that does not train saves nothing. |
| TrainGlobal.TrainGlobalOccurrence | tracker/ml/train_global.py:35-84 | With no logs at all, the answer is "No data". Only a trained run saves anything: its one new bundle is at the global occurrence path, and every other bundle keeps its value. |
| TrainGlobal.OneClassTrainingRaises | tracker/ml/train_global.py:59 | When the classifier refuses single-class labels and the training side has one class, training raises and saves nothing. |
| TrainGlobal.RareClassTrainingRaises | tracker/ml/train_global.py:61-62 | When two-fold calibration refuses a class with fewer than two examples and the training side has such a class, training raises and saves nothing. |
| TrainGlobal.SeverityReport | tracker/ml/train_global.py:116-121 | n_samples is the severity row count. The version and shift come from the config. |
| TrainGlobal.SeverityTraining | tracker/ml/train_global.py:87-125 | Empty severity data returns "No migraine-day severity data". Otherwise a fit exception propagates with nothing saved. After a successful fit, an unset directory raises, and a set one always trains. Then the regressor fitted on the intensity split is saved at the global severity path. Every other saved bundle keeps its value, and a run that does not train saves nothing. |
| TrainGlobal.TrainGlobalSeverity | tracker/ml/train_global.py:87-125 | With no logs at all, the answer is "No migraine-day severity data". Only a trained run saves anything: its one new bundle is at the global severity path, and every other bundle keeps its value. |
| TrainUser.TotalCountsPositives | tracker/ml/train_user.py:19 | On 0/1 labels, y_occ.sum() is the number of positive labels. |
| TrainUser.ShouldTrainUserModel | tracker/ml/train_user.py:17-20 | A qualifying user has at least USER_MIN_DAYS labelled rows. On 0/1 labels, a user qualifies iff there are at least USER_MIN_DAYS rows and at least USER_MIN_POSITIVES positive labels. |
| TrainUser.UserGate | tracker/ml/train_user.py:17-29 | On a built dataset, the gate passes iff the rows reach USER_MIN_DAYS and the positive labels reach USER_MIN_POSITIVES. |
| TrainUser.GateMonotone | tracker/ml/train_user.py:17-20 | Once a user qualifies, logging more non-negative labels keeps them qualified. |
| TrainUser.DefaultGate | tracker/ml/train_user.py:17-20 | Under the defaults, 29 rows or 4 positives decline, and 30 or 31 rows with 5 positives qualify. |
| TrainUser.UserCut | tracker/ml/train_user.py:38-39 | The per-user cut lies in [1, n], and below n when n >= 2. |
| TrainUser.UserReport | tracker/ml/train_user.py:63-74 | The report carries the user and side sizes. pos_rate_test, brier and logloss are null iff the test side is empty. |
| TrainUser.UserTraining | tracker/ml/train_user.py:23-79 | Empty X returns "No data for user" before the gate. A refused gate returns the decline with row and positive counts. After the gate, a fit exception propagates with nothing saved. After a successful fit, an unset directory raises, and a set one always trains. Then the pipeline fitted on the first cut rows is saved at the user's path, and the metrics report the cut as n_train. Every other saved bundle keeps its value, and a run that does not train saves nothing. |
| TrainUser.TrainUserOccurrence | tracker/ml/train_user.py:23-79 | A user without logs gets "No data for user". Only a trained run saves anything: its one new bundle is at that user's path with that user's metrics, and every other bundle keeps its value. |
| TrainUser.NoTrainingPositivesRaises | tracker/ml/train_user.py:39-60 | When the classifier refuses single-class labels and a qualifying user has no positive label in the training rows, training raises and saves nothing. |
| TrainUser.DefaultGateLeavesTestRows | tracker/ml/train_user.py:38-41 | Under the default gate, a trained user model always has a non-empty test side, so its test metrics are present. |
| TrainUser.UserOutcomeIgnoresStore | tracker/ml/train_user.py:23-79 | What a user's training returns or raises does not depend on bundles already saved. |
| TrainUser.UserTrainer | tracker/ml/train_user.py:87 | The per-user trainer of a batch is store-blind. |
| TrainUser.Step | tracker/ml/train_user.py:86-88 | After an exception nothing more happens. Otherwise each returned user adds exactly one result. |
| TrainUser.TrainUsers | tracker/ml/train_user.py:82-89 | A batch that returns holds one result per user. |
| TrainUser.RaisedPrefixEndsBatch | tracker/ml/train_user.py:86-88 | Once a prefix of users has raised, later users are never reached. |
| TrainUser.OneResultPerUser | tracker/ml/train_user.py:85-89 | In a returning batch, the i-th result is the i-th user's own training result. |
| TrainUser.BatchRaisesIffSomeUserRaises | tracker/ml/train_user.py:86-88 | The batch raises iff some user's training raises: there is no fault isolation. |
| TrainUser.TrainAllUsers | tracker/ml/train_user.py:82-89 | The imperative loop over users ends exactly as the batch function describes: results and store, or the first exception. |
| Predict.BlendWeight | tracker/ml/predict.py:14-17 | Raises ZeroDivisionError iff n + N0 = 0. Otherwise the weight is clamped into [0, 1]. |
| Predict.BlendWeightShare | tracker/ml/predict.py:16 | For positive N0, w·(n + N0) = n and w < 1. |
| Predict.BlendWeightAnchors | tracker/ml/predict.py:14-17 | The weight is 0 with no history and exactly 1/2 at n = N0. |
| Predict.BlendWeightIncreasing | tracker/ml/predict.py:14-17 | The weight strictly increases with the number of rows. |
| Predict.DefaultHalfWeight | tracker/ml/predict.py:16 | With the default N0, 120 rows give weight 1/2. |
| Predict.Clip | tracker/ml/predict.py:55 | The clipped probability lies in [1e-4, 1 - 1e-4], and equals the input when that is already inside. |
| Predict.LoadGlobalOccurrence | tracker/ml/predict.py:20-25 | The load raises iff the setting is unset. It returns None iff no global bundle is saved, and otherwise the saved bundle. |
| Predict.LoadUserOccurrence | tracker/ml/predict.py:28-34 | The same as the global loader, for the user's path. |
| Predict.SavedModelIsLoaded | tracker/ml/predict.py:20-34 | A bundle saved by a trainer is what the loader then returns. |
| Predict.MaybeExplain | tracker/ml/predict.py:60 | Without explain the result is None. With explain it is the explainer's result at top_k = 5. |
| Predict.Mix | tracker/ml/predict.py:76 | The blended probability lies between the user and global probabilities. |
| Predict.MixMoves | tracker/ml/predict.py:76 | A larger weight moves the blend strictly toward p_user. |
| Predict.PredictFrom | tracker/ml/predict.py:37-87 | An unset directory raises. A missing global model gives "Global model not trained yet" before the data is looked at, and empty X gives "No logs for user". No other refusal exists. |
| Predict.LastRow | tracker/ml/predict.py:52 | X.tail(1) is the final row of X: X is the rows before it followed by it. Which log that row belongs to is stated by Dataset.UserLastRow. |
| Predict.PredictNextDayRisk | tracker/ml/predict.py:37-87 | An unset directory raises. A missing global model gives "Global model not trained yet", and a user with no logs gets "No logs for user" once a global model exists. No other refusal exists. A scored answer has a global model, p_global within the clip bounds, and an explanation iff one was requested. |
| Predict.ScoredPrediction | tracker/ml/predict.py:52-55 | A successful prediction requires a global model and data. Its p_global is the clipped global probability of the last row, and the weight lies in [0, 1]. An explanation is present iff requested, and "global_only" is reported iff the user has no saved model. |
| Predict.GlobalOnlyPrediction | tracker/ml/predict.py:58-69 | Without a user model: p_user is None, p_final = p_global, the weight is 0, "global_only" is reported, and the global pipeline is explained. |
| Predict.BlendedPrediction | tracker/ml/predict.py:71-87 | With a user model, the result is reported as "blended" and the user pipeline is explained. p_user is the clipped user probability, w is the blend weight of the row count, and p_final = w·p_user + (1 - w)·p_global. |
| Predict.LongerHistoryLeansToUser | tracker/ml/predict.py:75-76 | Take two blended predictions for the same last feature row from datasets of different length. They report the same p_global and p_user, and the longer dataset's p_final lies strictly closer to p_user. |
| Predict.ScoreRow | tracker/ml/predict.py:49-87 | Without a row, the result is "No logs for user". A returned answer for a row is a prediction whose p_global is the clipped global probability of that row. |
| Predict.ScoresSecondLatestLog | tracker/ml/predict.py:37-52 | As written, with the defaults: a user with one log is told "No logs for user". With more logs, the scored row is the feature row of the second-latest log. |
| Predict.LatestScoresLatestLog | tracker/ml/predict.py:37-41 | The intended prediction (PredictLatest) never answers "No logs for user" to a user with a log, and its p_global is the clipped global probability of the latest log's feature row. |
| Explain.Unwrap | tracker/ml/explain.py:8-18 | A calibrated classifier with entries unwraps to its first entry's estimator. Anything else is returned as is. |
| Explain.Contributions | tracker/ml/explain.py:43-47 | Each contribution is the transformed value times its coefficient. |
| Explain.ArgSort | tracker/ml/explain.py:49 | argsort returns a permutation of 0..n-1 that orders the contributions ascending. |
| Explain.ArgSortCovers | tracker/ml/explain.py:49 | Every index appears in the argsort. |
| Explain.InsertSorted | tracker/ml/explain.py:49 | Inserting an index keeps the order sorted (the step the argsort is built from). |
| Explain.NegIdx | tracker/ml/explain.py:50 | idx_sorted[:k] is the first min(k, n) indices. |
| Explain.PosIdx | tracker/ml/explain.py:51 | idx_sorted[-k:][::-1] is the last min(k, n) indices reversed for k >= 1, and the whole order reversed for k = 0. Every entry comes from the order. |
| Explain.NegIdxSmallest | tracker/ml/explain.py:49-50 | Every selected negative index has a contribution no larger than any unselected one (up to ties). |
| Explain.PosIdxLargest | tracker/ml/explain.py:49-51 | Every selected positive index has a contribution no smaller than any unselected one (up to ties). |
| Explain.Pack | tracker/ml/explain.py:53-58 | pack yields at most one entry per index. |
| Explain.PackMembers | tracker/ml/explain.py:53-58 | pack keeps exactly the indices whose contribution exceeds 1e-12 in magnitude, each paired with its feature name. |
| Explain.PackAscending | tracker/ml/explain.py:53-58 | Packing ascending indices yields ascending contributions. |
| Explain.PackDescending | tracker/ml/explain.py:53-58 | Packing descending indices yields descending contributions. |
| Explain.NegativeList | tracker/ml/explain.py:50-58 | top_negative has at most k entries, in ascending contribution order. |
| Explain.PositiveList | tracker/ml/explain.py:51-58 | For k >= 1, top_positive has at most k entries, in descending contribution order. |
| Explain.ExplainLinearPrediction | tracker/ml/explain.py:21-63 | A model without named steps, or without coefficients, gets empty lists and the matching note. An explanation without a note comes from a linear pipeline whose transformed row, coefficients and feature names have equal lengths. |
| Explain.TopNegative | tracker/ml/explain.py:49-63 | For k >= 1: at most k entries, ascending, each above 1e-12 and named correctly. They come from the k smallest contributions, and every one of those k above the threshold is listed. |
| Explain.TopPositive | tracker/ml/explain.py:49-63 | For k >= 1: at most k entries, descending, each above 1e-12 and named correctly. They come from the k largest contributions, and every one of those k above the threshold is listed. |
| Explain.ZeroList | tracker/ml/explain.py:51 | With k = 0, every contribution above the threshold appears in the positive list. |
| Explain.TopKZero | tracker/ml/explain.py:50-51 | As written, top_k = 0 gives an empty negative list and a positive list that holds every contribution above the threshold. |
| Forms.EditableFieldsExclude | tracker/forms.py:10-21 | The form edits ten distinct fields, none of them the owner, the timestamp, the extra daily inputs or the weather snapshot. |
| Forms.IsoFormat | tracker/forms.py:29 | The ISO date is the zero-padded year, month and day joined by '-', at least ten characters long. |
| Forms.IsoFormatSplits | tracker/forms.py:29 | An ISO date splits at '-' into its zero-padded year, month and day. |
| Forms.CleanDate | tracker/forms.py:43-47 | A date is refused with "You cannot log a future date." iff it is after today. Otherwise it is returned unchanged. |
| Forms.CleanDateBoundary | tracker/forms.py:43-47 | Today and every earlier date are accepted. The day after today is refused. |
| Forms.FormWidgets | tracker/forms.py:10-26 | One widget per editable field, and the checkbox is had_migraine's alone. |
| Forms.FormAttrsShape | tracker/forms.py:22-41 | The date widget is a date input capped at today's ISO date, and notes have rows=3. had_migraine alone gets "form-check-input"; every other widget gets the input class. |
| Forms.DailyLogForm.constructor | tracker/forms.py:27-41 | Construction yields the ten fields and their widgets. Each widget carries the attrs that Meta.widgets and __init__ set, as FormAttrs lists them. |
| Forms.DailyLogForm.StyleWidgets | tracker/forms.py:31-41 | In place: each widget's attrs gain the class for its kind, and nothing else changes. |
| Charts.FmtLabelOfIsoDate | tracker/static/tracker/js/main.js:143-148 | An ISO date label shows as "DD.MM". |
| Charts.FmtLabel | tracker/static/tracker/js/main.js:143-148 | A missing label shows as "", one with fewer than two '-' is shown unchanged, and a non-empty label never shows as "". |
| Charts.SliceIndex | tracker/static/tracker/js/main.js:152 | Slice indices resolve as JavaScript does: negative counts from the end, then clamped into [0, len]. |
| Charts.Slice | tracker/static/tracker/js/main.js:152 | A slice holds only elements of the array. It is never longer than the array, and for non-negative indices never longer than end - begin. |
| Charts.SliceWindow | tracker/static/tracker/js/main.js:150-153 | A missing array gives no points. Each point of a window comes from the array, and with a non-negative start and size there are at most `size` of them. |
| Charts.SliceWindowStretch | tracker/static/tracker/js/main.js:150-153 | For a non-negative start, the window is the stretch at start of at most `size` elements. It is exactly `size` when that fits. |
| Charts.ClampStart | tracker/static/tracker/js/main.js:155-158 | The start is 0 when everything fits. Otherwise it lies in [0, len - size], an in-range start is kept, and out-of-range starts go to the nearer end. |
| Charts.ClampStartIdempotent | tracker/static/tracker/js/main.js:155-158 | Clamping twice is clamping once. |
| Charts.GetWindowShape | tracker/static/tracker/js/main.js:160-168 | Labels that fit are shown whole from 0. Otherwise exactly `size` consecutive labels are shown from a start in range, and the data is cut at the same start. |
| Charts.GetWindow | tracker/static/tracker/js/main.js:160-168 | The start is 0 when the labels fit. Otherwise it lies in [0, len - size]. For a non-negative size, neither labels nor data exceed `size` points. Every shown value comes from the series data. |
| Charts.SomePresent | tracker/static/tracker/js/main.js:180 | The scan is true iff some element is neither null nor undefined. |
| Charts.HasAnyData | tracker/static/tracker/js/main.js:179-181 | A series has data iff it exists and holds a non-null value. |
| Charts.UpdateSingleChart | tracker/static/tracker/js/main.js:170-177 | In place: the chart shows the window and the configuration's start becomes the clamped start. Without both objects, nothing changes. |
| Charts.Navigate | tracker/static/tracker/js/main.js:118-123 | In place: Prev or Next moves the start by one window, and the chart then shows the clamped window at it. |
| Charts.NavigationRoundTrip | tracker/static/tracker/js/main.js:118-123 | Next then Prev returns to a clamped start when a further window fits. Prev at the first window and Next at the last leave it in place. |
| Charts.NanStartShowsFirstWindow | tracker/static/tracker/js/main.js:118-123 | A missing or NaN start, moved by a click, still shows the first window. |

## Left out

- The scikit-learn numerics are parameters of the model (`Estimators.Library`, `Fitted.proba`, `Transform.apply`). These cover SGD fitting, probability calibration, imputation, scaling, one-hot encoding, and the AUC, AUPRC, Brier, log-loss and MAE scores. Floats are modelled as mathematical reals.
- `int(n * 0.7)` and `int(n * 0.8)` are given as a binary64 oracle, assumed to be the exact floor or one below it for every n. Binary64 rounding keeps that bound for row counts below 2^50. Beyond that, rounding is not modelled.
- train_global_occurrence fits `pipe` once before calibration, and that fit is overwritten. It is modelled only for the exception it may raise (TrainGlobal.CalibratedFit). `p_train` is computed but never used, and it is not modelled.
- The exceptions of the library fits are described only by TrainGlobal's and TrainUser's lemma hypotheses (`RejectsOneClass`, `RejectsRareClass`). Other failures, such as non-finite inputs, are an unspecified `Raised` outcome of the fit parameter.
- TrainUser.TrainAllUsers: one user's raising fit aborts the whole batch, as the loop has no try/except (TrainUser.BatchRaisesIffSomeUserRaises). The partial results are then lost.
- The Django ORM query and the pandas DataFrame construction are not modelled. The log table is a sequence of row values. Booleans read as 0/1 and NULL reads as a missing cell.
- The following I/O is not modelled:
  - `ensure_parent` / `mkdir`;
  - the joblib encoding of the saved file;
  - filesystem errors other than a missing file;
  - `Path` normalisation. A path is the sequence of its components.
- The `lru_cache` on the two loaders is not modelled. Each call reads the current store. In the running process a cached None or a stale bundle is never invalidated after retraining.
- Inference never checks the feature columns or the schema version of a saved bundle. None is modelled.
- `np.argsort` is modelled as a stable sort. numpy leaves the order of ties unspecified, so the selection lemmas are stated up to ties: every chosen contribution is no larger (or no smaller) than every unchosen one.
- Explain.ExplainLinearPrediction: any length mismatch between the transformed row and the coefficients, or between the row and the feature names, is modelled as the raised broadcasting error. numpy broadcasting of length-1 arrays and a longer name list are not modelled.
- Charts.Navigate: `cfg.size` is taken to be an integer. A missing or NaN start stays NaN through `-=` and `+=`. A non-numeric size is not modelled.
- The other parts of the dashboard script are not modelled: DOM toggles, toasts, Chart.js construction and `chart.update()`, and the weather-group navigation.
- Forms.DailyLogForm.constructor: the widget kinds of fields without an explicit widget are the ModelForm defaults for their model field types. Django's own widget classes are not part of this model.
- Forms.DailyLogForm.constructor: `attrs` holds only what Meta.widgets and __init__ set. Django's field and widget classes add more when the form is built, and these are not modelled: step="any" on the NumberInputs of sleep_hours and migraine_duration_hours (FloatFields, tracker/models.py:32 and :69), maxlength="255" on meds_taken (tracker/models.py:73), and the Textarea's default cols="40" on notes.
- Config.Window: a rolling window below 1 makes pandas raise. The window type excludes it, so that error is not modelled.
- Views, URL routing, the admin registration, the setup scripts and the OpenWeather client are not part of this model.

## Findings

| source | as written | input that shows it | evidently intended | confidence | as-written member | corrected member |
|---|---|---|---|---|---|---|
| tracker/ml/predict.py:38-52 | The docstring promises a prediction from the latest log. But X.tail(1) is the feature row of the second-latest log: the latest log has no next-day label, so it is dropped from X. | A user with exactly one log is told "No logs for user". With two or more logs, the latest log's features are never scored. | Score the feature row of the user's latest log. | not executed | Predict.ScoresSecondLatestLog | Predict.LatestScoresLatestLog |

=== FILE: charts.dfy ===
/**
 * The chart-window helpers of tracker/static/tracker/js/main.js: a series is
 * shown a window of `size` points at a time, the window start is clamped into
 * range, Prev/Next move it by one window, and the clamped start is written
 * back into the series configuration.
 */
module Charts {
  import opened Wrappers
  import opened Text
  import opened Series
  import opened Models
  import opened Forms

  // ---------------------------------------------------------------- labels

  /**
   * fmtLabel(isoDate): "" for a missing or empty string; the input itself
   * when it has fewer than three '-'-separated parts; else "DD.MM" from the
   * third and second parts.
   */
  function FmtLabel(isoDate: Option<string>): (r: string)
    ensures isoDate.None? ==> r == ""
    ensures isoDate.Some? && Count(isoDate.value, '-') < 2 ==> r == isoDate.value
    ensures isoDate.Some? && isoDate.value != "" ==> r != ""
  {
    if isoDate.None? || isoDate.value == "" then ""
    else
      var parts := Split(isoDate.value, '-');
      SplitLength(isoDate.value, '-');
      if |parts| < 3 then isoDate.value else parts[2] + "." + parts[1]
  }

  /** An ISO date is shown as its zero-padded day and month. */
  lemma FmtLabelOfIsoDate(d: Date)
    requires ValidDate(d)
    ensures FmtLabel(Some(IsoFormat(d))) == ZeroPad(d.day, 2) + "." + ZeroPad(d.month, 2)
  {
    IsoFormatSplits(d);
  }

  // ---------------------------------------------------------------- slicing

  function Max(a: int, b: int): int {
    if a >= b then a else b
  }

  function Min(a: int, b: int): int {
    if a <= b then a else b
  }

  /** How Array.prototype.slice resolves a relative index: negative counts from the end, then clamp into [0, len]. */
  function SliceIndex(i: int, len: nat): (k: nat)
    ensures k <= len
    ensures 0 <= i <= len ==> k == i
    ensures i > len ==> k == len
    ensures i < 0 ==> k == Max(len + i, 0)
  {
    if i < 0 then Max(len + i, 0) else Min(i, len)
  }

  /** arr.slice(begin, end): the elements from the resolved begin up to the resolved end, or none if the end comes first. */
  function Slice<T>(arr: seq<T>, begin: int, end: int): (r: seq<T>)
    ensures |r| <= |arr|
    ensures forall v :: v in r ==> v in arr
    ensures 0 <= begin && 0 <= end ==> |r| <= Max(end - begin, 0)
  {
    var b := SliceIndex(begin, |arr|);
    var e := SliceIndex(end, |arr|);
    if b <= e then arr[b..e] else []
  }

  /** sliceWindow(arr, start, size): [] for a missing array, else arr.slice(start, start + size). */
  function SliceWindow<T>(arr: Option<seq<T>>, start: int, size: int): (r: seq<T>)
    ensures arr.None? ==> r == []
    ensures 0 <= start && 0 <= size ==> |r| <= size
    ensures forall v :: v in r ==> arr.Some? && v in arr.value
  {
    if arr.None? then [] else Slice(arr.value, start, start + size)
  }

  /**
   * For a non-negative start and size the window is the stretch of at most
   * `size` elements at `start`, cut short at the end of the array.
   */
  lemma SliceWindowStretch<T>(arr: seq<T>, start: nat, size: nat)
    ensures SliceWindow(Some(arr), start, size) == arr[Min(start, |arr|)..Min(start + size, |arr|)]
    ensures |SliceWindow(Some(arr), start, size)| <= size
    ensures start + size <= |arr| ==> |SliceWindow(Some(arr), start, size)| == size
  {
  }

  /** clampStart(start, size, len): 0 when everything fits, else start pulled into [0, len - size]. */
  function ClampStart(start: int, size: int, len: nat): (r: int)
    ensures len <= size ==> r == 0
    ensures len > size ==> 0 <= r <= len - size
    ensures len > size && 0 <= start <= len - size ==> r == start
    ensures len > size && start < 0 ==> r == 0
    ensures len > size && start > len - size ==> r == len - size
  {
    if len <= size then 0 else Max(0, Min(start, len - size))
  }

  /** Clamping a clamped start changes nothing. */
  lemma ClampStartIdempotent(start: int, size: int, len: nat)
    ensures ClampStart(ClampStart(start, size, len), size, len) == ClampStart(start, size, len)
  {
  }

  // ---------------------------------------------------------------- windows

  /** What getWindow returns: the visible labels and data and the start they were cut at. */
  datatype Window = Window(labels: seq<string>, data: seq<Cell>, start: int)

  /** (cfg.labels || []).length */
  function LabelCount(labels: Option<seq<string>>): nat {
    if labels.None? then 0 else |labels.value|
  }

  /** cfg.start || 0: a missing, NaN or zero start reads as 0. */
  function StartOrZero(start: Option<int>): int {
    if start.None? then 0 else start.value
  }

  /** getWindow(cfg): both series cut with the same clamped start, which is returned too. */
  function GetWindow(start: Option<int>, size: int, labels: Option<seq<string>>, data: Option<seq<Cell>>): (w: Window)
    ensures LabelCount(labels) <= size ==> w.start == 0
    ensures LabelCount(labels) > size ==> 0 <= w.start <= LabelCount(labels) - size
    ensures 0 <= size ==> |w.labels| <= size && |w.data| <= size
    ensures forall v :: v in w.data ==> data.Some? && v in data.value
  {
    var s := ClampStart(StartOrZero(start), size, LabelCount(labels));
    Window(SliceWindow(labels, s, size), SliceWindow(data, s, size), s)
  }

  /**
   * The window's labels: all of them when they fit in one window; otherwise
   * exactly `size` consecutive labels beginning at the returned start, which
   * lies in [0, len - size]. The data is cut at the same start.
   */
  lemma GetWindowShape(start: Option<int>, size: int, labels: seq<string>, data: Option<seq<Cell>>)
    ensures var w := GetWindow(start, size, Some(labels), data);
      && (|labels| <= size ==> w.start == 0 && w.labels == labels)
      && (|labels| > size ==> 0 <= w.start <= |labels| - size)
      && (|labels| > size && size >= 0 ==> w.labels == labels[w.start..w.start + size])
      && w.data == SliceWindow(data, w.start, size)
  {
    var w := GetWindow(start, size, Some(labels), data);
    if |labels| <= size {
      assert labels[0..|labels|] == labels;
    }
  }

  // ---------------------------------------------------------------- data presence

  /** arr.some(v => v !== null && v !== undefined), written as the scan it is. */
  function SomePresent(arr: seq<Cell>): (r: bool)
    ensures r <==> exists i :: 0 <= i < |arr| && arr[i].Some?
  {
    if arr == [] then false
    else if arr[0].Some? then true
    else
      var rest := SomePresent(arr[1..]);
      assert forall i :: 1 <= i < |arr| ==> arr[i] == arr[1..][i - 1];
      rest
  }

  /** hasAnyData(arr): the array exists, is non-empty and holds a non-null value. */
  function HasAnyData(arr: Option<seq<Cell>>): (r: bool)
    ensures r <==> arr.Some? && exists v :: v in arr.value && v.Some?
  {
    arr.Some? && |arr.value| > 0 && SomePresent(arr.value)
  }

  // ---------------------------------------------------------------- navigation

  /**
   * A chart's series configuration, whose start the Prev/Next handler moves:
   * `start` is None when it is missing or not a number (NaN), which
   * `cfg.start || 0` reads as 0; the labels and the data may be missing.
   */
  class SeriesConfig {
    var start: Option<int>
    var size: int
    var labels: Option<seq<string>>
    var data: Option<seq<Cell>>

    constructor (start: Option<int>, size: int, labels: Option<seq<string>>, data: Option<seq<Cell>>)
      ensures this.start == start && this.size == size && this.labels == labels && this.data == data
    {
      this.start := start;
      this.size := size;
      this.labels := labels;
      this.data := data;
    }
  }

  /** The points a Chart.js line chart currently draws (chart.data.labels and datasets[0].data). */
  class Chart {
    var labels: seq<string>
    var data: seq<Cell>

    constructor ()
      ensures labels == [] && data == []
    {
      labels := [];
      data := [];
    }
  }

  /** cfg.start -= cfg.size or cfg.start += cfg.size; a missing or NaN start stays NaN. */
  function Moved(start: Option<int>, size: int, prev: bool): Option<int> {
    if start.None? then None else if prev then Some(start.value - size) else Some(start.value + size)
  }

  /** The start that a click leaves in the configuration. */
  function StartAfterClick(start: Option<int>, size: int, len: nat, prev: bool): int {
    ClampStart(StartOrZero(Moved(start, size, prev)), size, len)
  }

  /** updateSingleChart(chart, cfg): redraw the window and write its clamped start back; nothing happens without both. */
  method UpdateSingleChart(chart: Chart?, cfg: SeriesConfig?)
    modifies chart, cfg
    ensures chart != null && cfg != null ==>
      var w := old(GetWindow(cfg.start, cfg.size, cfg.labels, cfg.data));
      && cfg.start == Some(w.start)
      && chart.labels == w.labels && chart.data == w.data
    ensures cfg != null ==> cfg.size == old(cfg.size) && cfg.labels == old(cfg.labels) && cfg.data == old(cfg.data)
    ensures chart == null || cfg == null ==> (chart != null ==> unchanged(chart)) && (cfg != null ==> unchanged(cfg))
  {
    if chart == null || cfg == null {
      return;
    }
    var w := GetWindow(cfg.start, cfg.size, cfg.labels, cfg.data);
    cfg.start := Some(w.start);
    chart.labels := w.labels;
    chart.data := w.data;
  }

  /** The Prev/Next click handler for one chart: move the start by one window, then redraw. */
  method Navigate(chart: Chart?, cfg: SeriesConfig?, prev: bool)
    modifies chart, cfg
    ensures chart != null && cfg != null ==>
      && cfg.start == Some(StartAfterClick(old(cfg.start), old(cfg.size), LabelCount(old(cfg.labels)), prev))
      && chart.labels == SliceWindow(old(cfg.labels), cfg.start.value, old(cfg.size))
      && chart.data == SliceWindow(old(cfg.data), cfg.start.value, old(cfg.size))
    ensures cfg != null ==> cfg.size == old(cfg.size) && cfg.labels == old(cfg.labels) && cfg.data == old(cfg.data)
    ensures chart == null || cfg == null ==> (chart != null ==> unchanged(chart)) && (cfg != null ==> unchanged(cfg))
  {
    if cfg == null || chart == null {
      return;
    }
    cfg.start := Moved(cfg.start, cfg.size, prev);
    UpdateSingleChart(chart, cfg);
  }

  /**
   * From a clamped start, Next then Prev returns to it as long as one more
   * full window fits after it; Prev at the first window and Next at the last
   * one leave the start where it is.
   */
  lemma {:induction false} NavigationRoundTrip(s: int, size: int, len: nat)
    requires 0 < size < len && 0 <= s <= len - size
    ensures s + size <= len - size ==> StartAfterClick(Some(StartAfterClick(Some(s), size, len, false)), size, len, true) == s
    ensures s == 0 ==> StartAfterClick(Some(s), size, len, true) == 0
    ensures s == len - size ==> StartAfterClick(Some(s), size, len, false) == s
  {
    if s + size <= len - size {
      assert StartAfterClick(Some(s), size, len, false) == s + size;
    }
  }

  /** A click on a series whose start is missing or NaN shows the first window. */
  lemma NanStartShowsFirstWindow(size: int, len: nat, prev: bool)
    ensures StartAfterClick(None, size, len, prev) == 0
  {
  }
}

=== FILE: config.dfy ===
/**
 * The frozen MLConfig record of tracker/ml/config.py. A datatype value is
 * immutable, which is what `@dataclass(frozen=True)` promises.
 */
module Config {

  /** A rolling-window length; pandas refuses windows below 1 when min_periods is 1. */
  type Window = w: int | w >= 1 witness 1

  datatype MLConfig = MLConfig(
    labelShiftDays: int,        // predict the label this many records ahead
    rollWindows: seq<Window>,   // trailing window lengths for rolling features
    userMinDays: int,           // eligibility gate: minimum labelled rows
    userMinPositives: int,      // eligibility gate: minimum positive labels
    userRetrainNewLogs: int,
    blendN0: int,               // trust-curve constant of the blend weight
    globalMinNewLogs: int,
    featureSchemaVersion: string)

  /** MLConfig() with every field at its declared default. */
  function DefaultConfig(): (cfg: MLConfig)
    ensures cfg.labelShiftDays == 1 && cfg.rollWindows == [3, 7]
    ensures cfg.userMinDays == 30 && cfg.userMinPositives == 5 && cfg.userRetrainNewLogs == 10
    ensures cfg.blendN0 == 120 && cfg.globalMinNewLogs == 100
    ensures cfg.featureSchemaVersion == "v1"
  {
    MLConfig(1, [3, 7], 30, 5, 10, 120, 100, "v1")
  }

  /** The default trust constant keeps the blend denominator n + N0 positive for every row count n. */
  lemma {:induction false} DefaultBlendDenominatorPositive(n: nat)
    ensures n + DefaultConfig().blendN0 > 0
  {
    var cfg := DefaultConfig();
    assert cfg.blendN0 == 120;
  }
}

=== FILE: dataset.dfy ===
/**
 * build_dataset of tracker/ml/features.py: labels shifted within each user,
 * rows without a label dropped, the feature columns chosen, and the
 * migraine-day subset for the severity model carved out.
 */
module Dataset {
  import opened Wrappers
  import opened Config
  import opened Models
  import opened Series
  import opened Frames
  import opened Features

  const YOcc: ColName := Col("y_occ")
  const YInt: ColName := Col("y_int")
  const YDur: ColName := Col("y_dur")

  /** The names build_dataset never uses as features. */
  const DropNames: set<string> := {"user_id", "date", "meds_taken", TargetOcc, TargetInt, TargetDur, "y_occ", "y_int", "y_dur"}

  /**
   * The label columns: with a positive shift s, each target read s rows later
   * within the same user (g[col].shift(-s)); otherwise the same-day targets.
   */
  function AddLabels(f: Frame, shift: int): (r: Frame)
    ensures r.users == f.users && r.dates == f.dates && r.meds == f.meds
  {
    var occ := Get(f, Col(TargetOcc));
    var inten := Get(f, Col(TargetInt));
    var dur := Get(f, Col(TargetDur));
    if shift > 0 then
      Set(Set(Set(f, YOcc, Lead(f.users, occ, shift)), YInt, Lead(f.users, inten, shift)), YDur, Lead(f.users, dur, shift))
    else
      Set(Set(Set(f, YOcc, occ), YInt, inten), YDur, dur)
  }

  /** What the three label columns hold. */
  lemma {:induction false} AddLabelsGet(f: Frame, shift: int)
    ensures Get(AddLabels(f, shift), YOcc) == if shift > 0 then Lead(f.users, Get(f, Col(TargetOcc)), shift) else Get(f, Col(TargetOcc))
    ensures Get(AddLabels(f, shift), YInt) == if shift > 0 then Lead(f.users, Get(f, Col(TargetInt)), shift) else Get(f, Col(TargetInt))
    ensures Get(AddLabels(f, shift), YDur) == if shift > 0 then Lead(f.users, Get(f, Col(TargetDur)), shift) else Get(f, Col(TargetDur))
    ensures forall c :: c != YOcc && c != YInt && c != YDur ==> Get(AddLabels(f, shift), c) == Get(f, c)
  {
    assert "y_occ" != "y_int" && "y_occ" != "y_dur" && "y_int" != "y_dur" by {
      assert "y_occ"[2] != "y_int"[2] && "y_occ"[2] != "y_dur"[2] && "y_int"[2] != "y_dur"[2];
    }
  }

  /** dropna(subset=["y_occ"]): the rows whose label is present, in order. */
  function KeptRows(f: Frame): (kept: seq<nat>)
    ensures forall k :: 0 <= k < |kept| ==> kept[k] < |f.users| && Get(f, YOcc)[kept[k]].Some?
    ensures forall k, l :: 0 <= k < l < |kept| ==> kept[k] < kept[l]
    ensures forall i {:trigger i in kept} :: 0 <= i < |f.users| && Get(f, YOcc)[i].Some? ==> i in kept
  {
    var y := Get(f, YOcc);
    Where(seq(|f.users|, i requires 0 <= i < |f.users| => y[i].Some?))
  }

  /** [c for c in df.columns if c not in drop_cols]: the columns outside the drop set, in frame order. */
  function FeatureCols(cols: seq<ColName>): (fc: seq<ColName>)
    ensures forall c :: c in fc <==> c in cols && Render(c) !in DropNames
    ensures |fc| <= |cols|
  {
    var keep := seq(|cols|, j requires 0 <= j < |cols| => Render(cols[j]) !in DropNames);
    var idx := Where(keep);
    var fc := Select(cols, idx);
    assert forall c :: c in cols && Render(c) !in DropNames ==> c in fc by {
      forall c | c in cols && Render(c) !in DropNames ensures c in fc {
        var j :| 0 <= j < |cols| && cols[j] == c;
        assert keep[j] && j in idx;
        var k :| 0 <= k < |idx| && idx[k] == j;
        assert fc[k] == c;
      }
    }
    fc
  }

  /** Order preservation: the feature columns are the frame's columns with the dropped ones taken out. */
  lemma {:induction false} FeatureColsOrder(cols: seq<ColName>, a: nat, b: nat)
    requires a < b < |FeatureCols(cols)|
    ensures exists j1, j2 :: 0 <= j1 < j2 < |cols| && cols[j1] == FeatureCols(cols)[a] && cols[j2] == FeatureCols(cols)[b]
  {
    var keep := seq(|cols|, j requires 0 <= j < |cols| => Render(cols[j]) !in DropNames);
    var idx := Where(keep);
    assert FeatureCols(cols) == Select(cols, idx);
    assert idx[a] < idx[b];
  }

  /** The cells of the given rows in the given columns, row by row. */
  function Rows(f: Frame, fc: seq<ColName>, idx: seq<nat>): (rows: seq<seq<Cell>>)
    requires forall k :: 0 <= k < |idx| ==> idx[k] < |f.users|
    ensures |rows| == |idx|
    ensures forall k :: 0 <= k < |idx| ==> |rows[k]| == |fc|
  {
    seq(|idx|, k requires 0 <= k < |idx| => seq(|fc|, j requires 0 <= j < |fc| => Get(f, fc[j])[idx[k]]))
  }

  /** astype(int) on a float: truncation toward zero. */
  function Truncate(x: real): int {
    if x >= 0.0 then x.Floor else -((-x).Floor)
  }

  datatype BuiltDataset = BuiltDataset(
    x: seq<seq<Cell>>,              // X: one row of feature cells per labelled row
    yOcc: seq<int>,                 // y_occ
    xMigraineDays: seq<seq<Cell>>,  // X_migraine_days
    yIntensity: seq<real>,
    yDuration: seq<real>,
    featureColumns: seq<string>)
  {
    /** DataFrame.empty for X: no rows or no columns. */
    predicate XEmpty() {
      |x| == 0 || |featureColumns| == 0
    }

    /** DataFrame.empty for X_migraine_days, which has X's columns. */
    predicate SeverityEmpty() {
      |xMigraineDays| == 0 || |featureColumns| == 0
    }
  }

  const EmptyDataset: BuiltDataset := BuiltDataset([], [], [], [], [], [])

  /** The rows of the migraine mask: label 1 and both severity targets present. */
  function SeverityRows(yOcc: seq<int>, yInt: seq<Cell>, yDur: seq<Cell>): (sev: seq<nat>)
    requires |yInt| == |yOcc| && |yDur| == |yOcc|
    ensures forall j :: 0 <= j < |sev| ==> sev[j] < |yOcc| && yOcc[sev[j]] == 1 && yInt[sev[j]].Some? && yDur[sev[j]].Some?
    ensures forall j, l :: 0 <= j < l < |sev| ==> sev[j] < sev[l]
    ensures forall k {:trigger k in sev} :: 0 <= k < |yOcc| && yOcc[k] == 1 && yInt[k].Some? && yDur[k].Some? ==> k in sev
  {
    Where(seq(|yOcc|, k requires 0 <= k < |yOcc| => yOcc[k] == 1 && yInt[k].Some? && yDur[k].Some?))
  }

  /** The labelled frame's y_occ column at the kept rows, as integers. */
  function Labels(f: Frame): (y: seq<int>)
    ensures |y| == |KeptRows(f)|
  {
    var kept := KeptRows(f);
    var yo := Get(f, YOcc);
    seq(|kept|, k requires 0 <= k < |kept| => Truncate(yo[kept[k]].value))
  }

  /** A label column at the kept rows. */
  function Targets(f: Frame, c: ColName): (t: seq<Cell>)
    ensures |t| == |KeptRows(f)|
  {
    Select(Get(f, c), KeptRows(f))
  }

  /** mask = (y_occ == 1) & y_int.notna() & y_dur.notna(), as positions among the kept rows. */
  function SevIdx(f: Frame): (sev: seq<nat>)
    ensures forall j :: 0 <= j < |sev| ==> sev[j] < |KeptRows(f)|
  {
    SeverityRows(Labels(f), Targets(f, YInt), Targets(f, YDur))
  }

  /** The frame rows of the severity subset. */
  function SevRows(f: Frame): (rows: seq<nat>)
    ensures |rows| == |SevIdx(f)|
    ensures forall j :: 0 <= j < |rows| ==> rows[j] < |f.users|
  {
    Select(KeptRows(f), SevIdx(f))
  }

  /** A severity target at the severity rows, as floats. */
  function SevValues(f: Frame, c: ColName): (v: seq<real>)
    requires c == YInt || c == YDur
    ensures |v| == |SevIdx(f)|
  {
    var t := Targets(f, c);
    var sev := SevIdx(f);
    seq(|sev|, j requires 0 <= j < |sev| => t[sev[j]].value)
  }

  /** Everything build_dataset does after the labels are attached. */
  function Finish(f: Frame): (ds: BuiltDataset)
    ensures |ds.x| == |ds.yOcc| == |KeptRows(f)|
    ensures |ds.xMigraineDays| == |ds.yIntensity| == |ds.yDuration|
    ensures |ds.featureColumns| == |FeatureCols(f.cols)|
    ensures forall k :: 0 <= k < |ds.x| ==> |ds.x[k]| == |ds.featureColumns|
    ensures forall k :: 0 <= k < |ds.xMigraineDays| ==> |ds.xMigraineDays[k]| == |ds.featureColumns|
  {
    var fc := FeatureCols(f.cols);
    BuiltDataset(
      Rows(f, fc, KeptRows(f)),
      Labels(f),
      Rows(f, fc, SevRows(f)),
      SevValues(f, YInt),
      SevValues(f, YDur),
      RenderAll(fc))
  }

  /** The columns' names as pandas sees them. */
  function RenderAll(cols: seq<ColName>): (names: seq<string>)
    ensures |names| == |cols|
    ensures forall j :: 0 <= j < |cols| ==> names[j] == Render(cols[j])
  {
    seq(|cols|, j requires 0 <= j < |cols| => Render(cols[j]))
  }

  lemma {:induction false} QueryLogsValid(table: seq<LogRecord>, userId: Option<int>)
    requires AllValidDates(table)
    ensures AllValidDates(QueryLogs(table, userId))
  {
    var logs := QueryLogs(table, userId);
    forall k | 0 <= k < |logs| ensures ValidDate(logs[k].date) {
      var i :| 0 <= i < |table| && table[i] == logs[k];
    }
  }

  /** The frame build_dataset has once the labels are attached (for a non-empty query). */
  function LabelledFrame(logs: seq<LogRecord>, cfg: MLConfig): (f: Frame)
    requires AllValidDates(logs)
    ensures |f.users| == |logs|
  {
    AddLabels(LagsAndRolls(QueryFrame(logs), cfg), cfg.labelShiftDays)
  }

  /** build_dataset(user_id, cfg) over the stored table. */
  function DatasetOf(table: seq<LogRecord>, userId: Option<int>, cfg: MLConfig): (ds: BuiltDataset)
    requires AllValidDates(table)
    ensures |ds.x| == |ds.yOcc| && |ds.xMigraineDays| == |ds.yIntensity| == |ds.yDuration|
    ensures |ds.x| <= |QueryLogs(table, userId)|
    ensures forall k :: 0 <= k < |ds.x| ==> |ds.x[k]| == |ds.featureColumns|
    ensures forall k :: 0 <= k < |ds.xMigraineDays| ==> |ds.xMigraineDays[k]| == |ds.featureColumns|
  {
    var logs := QueryLogs(table, userId);
    if |logs| == 0 then EmptyDataset
    else
      QueryLogsValid(table, userId);
      Finish(LabelledFrame(logs, cfg))
  }

  /**
   * build_dataset step by step: query, extend the frame in place,
   * assign the three label columns, then select rows and columns.
   */
  method BuildDataset(table: seq<LogRecord>, userId: Option<int>, cfg: MLConfig) returns (ds: BuiltDataset)
    requires AllValidDates(table)
    ensures ds == DatasetOf(table, userId, cfg)
  {
    var logs := QueryLogs(table, userId);
    if |logs| == 0 {
      return EmptyDataset;
    }
    QueryLogsValid(table, userId);
    var df := new DataFrame.FromFrame(QueryFrame(logs));
    AddGroupLagsAndRolls(df, cfg);
    var extended := df.Value();
    var occ, inten, dur := df.Column(Col(TargetOcc)), df.Column(Col(TargetInt)), df.Column(Col(TargetDur));
    var s := cfg.labelShiftDays;
    if s > 0 {
      df.SetColumn(YOcc, Lead(df.users, occ, s));
      df.SetColumn(YInt, Lead(df.users, inten, s));
      df.SetColumn(YDur, Lead(df.users, dur, s));
    } else {
      df.SetColumn(YOcc, occ);
      df.SetColumn(YInt, inten);
      df.SetColumn(YDur, dur);
    }
    assert df.Value() == AddLabels(extended, s);
    ds := Finish(df.Value());
  }

  // ---------------------------------------------------------------- what the columns hold, row by row

  /** A raw column lagged by one record within each user, read straight off the sorted rows. */
  function Lagged(rows: seq<LogRecord>, col: string): (r: seq<Cell>)
    ensures |r| == |rows|
  {
    seq(|rows|, i requires 0 <= i < |rows| => if 0 < i && rows[i - 1].user == rows[i].user then CellOf(rows[i - 1], col) else None)
  }

  lemma {:induction false} QueryFrameIsFrameOfRows(logs: seq<LogRecord>)
    requires AllValidDates(logs)
    ensures AllValidDates(SortLogs(logs))
    ensures "weekday" !in QueryNames && "month" !in QueryNames
    ensures QueryFrame(logs) == FrameOfRows(SortLogs(logs), QueryNames)
  {
    SortedValid(logs);
    CalendarNotQueried();
  }

  /** A selected column of the query frame holds the sorted rows' values. */
  lemma {:induction false} QueryColumn(logs: seq<LogRecord>, col: string)
    requires AllValidDates(logs) && col in QueryNames
    ensures Get(QueryFrame(logs), Col(col)) == ColumnOf(SortLogs(logs), col)
  {
    QueryFrameIsFrameOfRows(logs);
    FrameOfRowsColumn(SortLogs(logs), QueryNames, col);
  }

  /** The grouped shift(1) over the rows' own columns is Lagged. */
  lemma {:induction false} LagOfRows(rows: seq<LogRecord>, col: string)
    ensures Lag(UsersOf(rows), ColumnOf(rows, col)) == Lagged(rows, col)
  {
    var users, c := UsersOf(rows), ColumnOf(rows, col);
    forall i | 0 <= i < |rows| ensures Lag(users, c)[i] == Lagged(rows, col)[i] {
      if 0 < i {
        assert users[i - 1] == rows[i - 1].user && c[i - 1] == CellOf(rows[i - 1], col);
      }
    }
  }

  /** Grouped shift(1) of a selected column is the previous sorted record's value when it is the same user's. */
  lemma {:induction false} LaggedQueryColumn(logs: seq<LogRecord>, col: string)
    requires AllValidDates(logs) && col in QueryNames
    ensures Lag(QueryFrame(logs).users, Get(QueryFrame(logs), Col(col))) == Lagged(SortLogs(logs), col)
  {
    QueryColumn(logs, col);
    QueryFrameSorted(logs);
    LagOfRows(SortLogs(logs), col);
  }

  lemma LagColQueried(b: string)
    requires b in LagCols
    ensures b in QueryNames
  {
  }

  lemma RollColQueried(b: string)
    requires b in RollCols
    ensures b in QueryNames
  {
  }

  lemma DeltaColLagged(b: string)
    requires b in DeltaCols
    ensures b in LagCols && b in QueryNames
  {
  }

  /** `<col>_lag1` at a row holds the previous record's value when that record is the same user's, and is missing on a user's first record. */
  lemma {:induction false} LagFeature(logs: seq<LogRecord>, cfg: MLConfig, col: string)
    requires AllValidDates(logs) && col in LagCols
    ensures Get(LagsAndRolls(QueryFrame(logs), cfg), Lag1(col)) == Lagged(SortLogs(logs), col)
  {
    LagColQueried(col);
    LagsAndRollsGet(QueryFrame(logs), cfg, Lag1(col));
    LaggedQueryColumn(logs, col);
  }

  /** The delta column of any frame whose raw and lagged columns are known. */
  lemma {:induction false} DeltaOfLagged(f: Frame, cfg: MLConfig, col: string, raw: seq<Cell>, lagged: seq<Cell>)
    requires col in DeltaCols
    requires raw == Get(f, Col(col)) && lagged == Lag(f.users, raw)
    ensures Get(LagsAndRolls(f, cfg), Delta1(col)) == Delta(raw, lagged)
  {
    LagsAndRollsGet(f, cfg, Delta1(col));
  }

  /** `<col>_delta1` is today's value minus the lagged one, row by row, missing when either is missing. */
  lemma {:induction false} DeltaFeature(logs: seq<LogRecord>, cfg: MLConfig, col: string)
    requires AllValidDates(logs) && col in DeltaCols
    ensures Get(LagsAndRolls(QueryFrame(logs), cfg), Delta1(col)) == Delta(ColumnOf(SortLogs(logs), col), Lagged(SortLogs(logs), col))
  {
    DeltaColLagged(col);
    LaggedQueryColumn(logs, col);
    QueryColumn(logs, col);
    DeltaOfLagged(QueryFrame(logs), cfg, col, ColumnOf(SortLogs(logs), col), Lagged(SortLogs(logs), col));
  }

  /** The rolling columns of any frame whose lagged columns are known. */
  lemma {:induction false} RollingOfLagged(f: Frame, cfg: MLConfig, w: Window, col: string, lagged: seq<Cell>, occLagged: seq<Cell>)
    requires w in cfg.rollWindows
    requires lagged == Lag(f.users, Get(f, Col(col))) && occLagged == Lag(f.users, Get(f, Col(TargetOcc)))
    ensures col in RollCols ==> Get(LagsAndRolls(f, cfg), RollMean(col, w)) == RollingMean(lagged, w)
    ensures Get(LagsAndRolls(f, cfg), RollSum(w)) == RollingSum(occLagged, w)
  {
    LagsAndRollsGet(f, cfg, RollMean(col, w));
    LagsAndRollsGet(f, cfg, RollSum(w));
  }

  /** `<col>_roll_mean_<w>` averages the lagged column over the trailing window of w rows of the whole frame. */
  lemma {:induction false} RollMeanFeature(logs: seq<LogRecord>, cfg: MLConfig, w: Window, col: string)
    requires AllValidDates(logs) && w in cfg.rollWindows && col in RollCols
    ensures Get(LagsAndRolls(QueryFrame(logs), cfg), RollMean(col, w)) == RollingMean(Lagged(SortLogs(logs), col), w)
  {
    RollColQueried(col);
    LaggedQueryColumn(logs, col);
    LaggedQueryColumn(logs, TargetOcc);
    RollingOfLagged(QueryFrame(logs), cfg, w, col, Lagged(SortLogs(logs), col), Lagged(SortLogs(logs), TargetOcc));
  }

  /** `migraine_roll_sum_<w>` sums the lagged occurrence flag over the trailing window of w rows of the whole frame. */
  lemma {:induction false} RollSumFeature(logs: seq<LogRecord>, cfg: MLConfig, w: Window)
    requires AllValidDates(logs) && w in cfg.rollWindows
    ensures Get(LagsAndRolls(QueryFrame(logs), cfg), RollSum(w)) == RollingSum(Lagged(SortLogs(logs), TargetOcc), w)
  {
    LaggedQueryColumn(logs, TargetOcc);
    RollingOfLagged(QueryFrame(logs), cfg, w, TargetOcc, Lagged(SortLogs(logs), TargetOcc), Lagged(SortLogs(logs), TargetOcc));
  }

  /** The columns that look back: the lags and the rolling aggregates. */
  predicate LookBack(cfg: MLConfig, c: ColName) {
    (c.Lag1? && c.base in LagCols)
    || (c.RollMean? && c.base in RollCols && c.window in cfg.rollWindows)
    || (c.RollSum? && c.window in cfg.rollWindows)
  }

  lemma {:induction false} LaggedLocal(r1: seq<LogRecord>, r2: seq<LogRecord>, col: string, i: nat)
    requires i < |r1| && i < |r2| && r1[..i] == r2[..i] && r1[i].user == r2[i].user
    ensures Lagged(r1, col)[..i + 1] == Lagged(r2, col)[..i + 1]
  {
    forall j | 0 <= j <= i ensures Lagged(r1, col)[j] == Lagged(r2, col)[j] {
      if 0 < j {
        assert r1[j - 1] == r1[..i][j - 1] && r2[j - 1] == r2[..i][j - 1];
        if j < i {
          assert r1[j] == r1[..i][j] && r2[j] == r2[..i][j];
        }
      }
    }
  }

  /**
   * No leakage: a lag or rolling feature at row i is fixed by the sorted rows
   * before i and the user of row i. Two queries whose sorted rows agree up to
   * row i (exclusive) and on row i's user get the same look-back features on
   * rows 0..i, whatever row i itself and the later rows hold.
   */
  lemma {:induction false} NoLeakage(logs1: seq<LogRecord>, logs2: seq<LogRecord>, cfg: MLConfig, c: ColName, i: nat)
    requires AllValidDates(logs1) && AllValidDates(logs2)
    requires i < |logs1| && i < |logs2|
    requires SortLogs(logs1)[..i] == SortLogs(logs2)[..i] && SortLogs(logs1)[i].user == SortLogs(logs2)[i].user
    requires LookBack(cfg, c)
    ensures Get(LagsAndRolls(QueryFrame(logs1), cfg), c)[..i + 1] == Get(LagsAndRolls(QueryFrame(logs2), cfg), c)[..i + 1]
  {
    var r1 := SortLogs(logs1);
    var r2 := SortLogs(logs2);
    match c {
      case Lag1(b) =>
        LagFeature(logs1, cfg, b);
        LagFeature(logs2, cfg, b);
        LaggedLocal(r1, r2, b, i);
      case RollMean(b, w) =>
        RollMeanFeature(logs1, cfg, w, b);
        RollMeanFeature(logs2, cfg, w, b);
        LaggedLocal(r1, r2, b, i);
        RollingLocal(Lagged(r1, b), Lagged(r2, b), w, i);
      case RollSum(w) =>
        RollSumFeature(logs1, cfg, w);
        RollSumFeature(logs2, cfg, w);
        LaggedLocal(r1, r2, TargetOcc, i);
        RollingLocal(Lagged(r1, TargetOcc), Lagged(r2, TargetOcc), w, i);
    }
  }

  // ---------------------------------------------------------------- labels and dropped rows

  /**
   * A target column of the sorted rows as a label: read s rows later within
   * the same user when s > 0, on the same row otherwise.
   */
  function LabelColumn(rows: seq<LogRecord>, name: string, s: int): (col: seq<Cell>)
    ensures |col| == |rows|
  {
    if s > 0 then Lead(UsersOf(rows), ColumnOf(rows, name), s) else ColumnOf(rows, name)
  }

  /** The label columns of any frame whose users and target columns are known. */
  lemma {:induction false} LabelsOfFrame(f: Frame, cfg: MLConfig, users: seq<int>, occ: seq<Cell>, inten: seq<Cell>, dur: seq<Cell>)
    requires users == f.users
    requires occ == Get(f, Col(TargetOcc)) && inten == Get(f, Col(TargetInt)) && dur == Get(f, Col(TargetDur))
    ensures var g := AddLabels(LagsAndRolls(f, cfg), cfg.labelShiftDays); var s := cfg.labelShiftDays;
      && Get(g, YOcc) == (if s > 0 then Lead(users, occ, s) else occ)
      && Get(g, YInt) == (if s > 0 then Lead(users, inten, s) else inten)
      && Get(g, YDur) == (if s > 0 then Lead(users, dur, s) else dur)
  {
    var h := LagsAndRolls(f, cfg);
    AddLabelsGet(h, cfg.labelShiftDays);
    LagsAndRollsGet(f, cfg, Col(TargetOcc));
    LagsAndRollsGet(f, cfg, Col(TargetInt));
    LagsAndRollsGet(f, cfg, Col(TargetDur));
  }

  /** y_occ, y_int and y_dur of the labelled frame are the targets of the sorted rows, shifted as configured. */
  lemma {:induction false} LabelledColumns(logs: seq<LogRecord>, cfg: MLConfig)
    requires AllValidDates(logs)
    ensures var f := LabelledFrame(logs, cfg); var rows := SortLogs(logs); var s := cfg.labelShiftDays;
      && Get(f, YOcc) == LabelColumn(rows, TargetOcc, s)
      && Get(f, YInt) == LabelColumn(rows, TargetInt, s)
      && Get(f, YDur) == LabelColumn(rows, TargetDur, s)
  {
    var rows := SortLogs(logs);
    QueryFrameSorted(logs);
    QueryColumn(logs, TargetOcc);
    QueryColumn(logs, TargetInt);
    QueryColumn(logs, TargetDur);
    LabelsOfFrame(QueryFrame(logs), cfg, UsersOf(rows), ColumnOf(rows, TargetOcc), ColumnOf(rows, TargetInt), ColumnOf(rows, TargetDur));
  }

  /** The facts about a labelled frame that the lemmas below use: one row per sorted row, and its label columns. */
  ghost predicate LabelledFrom(f: Frame, rows: seq<LogRecord>, s: int) {
    && |f.users| == |rows|
    && Get(f, YOcc) == LabelColumn(rows, TargetOcc, s)
    && Get(f, YInt) == LabelColumn(rows, TargetInt, s)
    && Get(f, YDur) == LabelColumn(rows, TargetDur, s)
  }

  lemma {:induction false} LabelledFrameFrom(logs: seq<LogRecord>, cfg: MLConfig)
    requires AllValidDates(logs)
    ensures LabelledFrom(LabelledFrame(logs, cfg), SortLogs(logs), cfg.labelShiftDays)
  {
    LabelledColumns(logs, cfg);
  }

  /** The row a label is read from: s rows later for s > 0, the same row otherwise. */
  function Source(i: nat, s: int): nat {
    if s > 0 then i + s else i
  }

  /** The row's label is defined exactly when its source row exists and is the same user's. */
  predicate Labelled(rows: seq<LogRecord>, s: int, i: nat)
    requires i < |rows|
  {
    Source(i, s) < |rows| && rows[Source(i, s)].user == rows[i].user
  }

  lemma {:induction false} LabelCells(f: Frame, rows: seq<LogRecord>, s: int, i: nat)
    requires LabelledFrom(f, rows, s) && i < |rows|
    ensures Labelled(rows, s, i) ==>
      && Get(f, YOcc)[i] == Some(FlagOf(rows[Source(i, s)].hadMigraine))
      && Get(f, YInt)[i] == IntCell(rows[Source(i, s)].intensity)
      && Get(f, YDur)[i] == rows[Source(i, s)].durationHours
    ensures !Labelled(rows, s, i) ==> Get(f, YOcc)[i].None?
  {
    var j := Source(i, s);
    if j < |rows| {
      assert ColumnOf(rows, TargetOcc)[j] == Some(FlagOf(rows[j].hadMigraine));
      assert ColumnOf(rows, TargetInt)[j] == IntCell(rows[j].intensity);
      assert ColumnOf(rows, TargetDur)[j] == rows[j].durationHours;
      assert UsersOf(rows)[j] == rows[j].user && UsersOf(rows)[i] == rows[i].user;
    } else {
      assert s > 0 && !(i + s < |rows|);
    }
  }

  lemma {:induction false} KeptIffLabelled(f: Frame, rows: seq<LogRecord>, s: int, i: nat)
    requires LabelledFrom(f, rows, s) && i < |rows|
    ensures i in KeptRows(f) <==> Labelled(rows, s, i)
  {
    LabelCells(f, rows, s, i);
    var kept := KeptRows(f);
    if i in kept {
      var k :| 0 <= k < |kept| && kept[k] == i;
    }
  }

  /**
   * dropna(subset=["y_occ"]) keeps row i exactly when the label is defined:
   * always for same-day labels, and for s > 0 when the row s places later
   * exists and belongs to the same user.
   */
  lemma {:induction false} KeptIff(logs: seq<LogRecord>, cfg: MLConfig, i: nat)
    requires AllValidDates(logs) && i < |logs|
    ensures i in KeptRows(LabelledFrame(logs, cfg)) <==> Labelled(SortLogs(logs), cfg.labelShiftDays, i)
  {
    LabelledFrameFrom(logs, cfg);
    KeptIffLabelled(LabelledFrame(logs, cfg), SortLogs(logs), cfg.labelShiftDays, i);
  }

  /** On rows sorted by user, a shifted label is undefined exactly on the user's last s rows. */
  lemma {:induction false} UnlabelledAtEnd(rows: seq<LogRecord>, s: int, i: nat)
    requires SortedGroups(UsersOf(rows)) && i < |rows| && s > 0
    ensures !Labelled(rows, s, i) <==> GroupEnd(UsersOf(rows), i, i + 1) <= i + s
  {
    var users := UsersOf(rows);
    LeadPresentIff(users, i, s);
    if i + s < |rows| {
      assert users[i + s] == rows[i + s].user && users[i] == rows[i].user;
    }
  }

  /** With s > 0, the rows dropped for lack of a label are exactly each user's last s rows. */
  lemma {:induction false} LastRowsDropped(logs: seq<LogRecord>, cfg: MLConfig, i: nat)
    requires AllValidDates(logs) && i < |logs| && cfg.labelShiftDays > 0
    ensures i !in KeptRows(LabelledFrame(logs, cfg)) <==> GroupEnd(UsersOf(SortLogs(logs)), i, i + 1) <= i + cfg.labelShiftDays
  {
    KeptIff(logs, cfg, i);
    SortedUsers(SortLogs(logs));
    UnlabelledAtEnd(SortLogs(logs), cfg.labelShiftDays, i);
  }

  lemma {:induction false} KeepAllOf(f: Frame, rows: seq<LogRecord>, s: int)
    requires LabelledFrom(f, rows, s) && s <= 0
    ensures |KeptRows(f)| == |rows|
    ensures forall k :: 0 <= k < |rows| ==> KeptRows(f)[k] == k
  {
    var y := Get(f, YOcc);
    var keep := seq(|f.users|, i requires 0 <= i < |f.users| => y[i].Some?);
    forall i | 0 <= i < |keep| ensures keep[i] {
      assert y[i] == ColumnOf(rows, TargetOcc)[i];
    }
    WherePrefix(keep, |keep|);
  }

  /** With same-day labels (s <= 0) no row is dropped: the kept rows are all rows, in order. */
  lemma {:induction false} SameDayKeepsAll(logs: seq<LogRecord>, cfg: MLConfig)
    requires AllValidDates(logs) && cfg.labelShiftDays <= 0
    ensures |KeptRows(LabelledFrame(logs, cfg))| == |logs|
    ensures forall k :: 0 <= k < |logs| ==> KeptRows(LabelledFrame(logs, cfg))[k] == k
  {
    LabelledFrameFrom(logs, cfg);
    KeepAllOf(LabelledFrame(logs, cfg), SortLogs(logs), cfg.labelShiftDays);
  }

  lemma {:induction false} AlignmentOf(f: Frame, rows: seq<LogRecord>, s: int, k: nat)
    requires LabelledFrom(f, rows, s) && k < |KeptRows(f)|
    ensures var i := KeptRows(f)[k]; var j := Source(i, s);
      && j < |rows| && rows[j].user == rows[i].user
      && Labels(f)[k] == (if rows[j].hadMigraine then 1 else 0)
      && Get(f, YInt)[i] == IntCell(rows[j].intensity)
      && Get(f, YDur)[i] == rows[j].durationHours
  {
    var i := KeptRows(f)[k];
    assert i in KeptRows(f);
    KeptIffLabelled(f, rows, s, i);
    LabelCells(f, rows, s, i);
  }

  /**
   * Label alignment: the k-th training row is sorted row i = kept[k]; its
   * labels are the targets of row i + s (row i for same-day labels), which
   * exists and belongs to the same user; y_occ is that row's 0/1 flag.
   */
  lemma {:induction false} LabelAlignment(logs: seq<LogRecord>, cfg: MLConfig, k: nat)
    requires AllValidDates(logs) && k < |KeptRows(LabelledFrame(logs, cfg))|
    ensures var f := LabelledFrame(logs, cfg); var rows := SortLogs(logs);
      var i := KeptRows(f)[k]; var j := Source(i, cfg.labelShiftDays);
      && j < |rows| && rows[j].user == rows[i].user
      && Finish(f).yOcc[k] == (if rows[j].hadMigraine then 1 else 0)
      && Get(f, YInt)[i] == IntCell(rows[j].intensity)
      && Get(f, YDur)[i] == rows[j].durationHours
  {
    LabelledFrameFrom(logs, cfg);
    AlignmentOf(LabelledFrame(logs, cfg), SortLogs(logs), cfg.labelShiftDays, k);
  }

  // ---------------------------------------------------------------- one user's rows

  /** The feature cells of frame row i, in feature-column order: the row X would hold for it. */
  function FeatureRow(f: Frame, i: nat): (row: seq<Cell>)
    requires i < |f.users|
    ensures |row| == |FeatureCols(f.cols)|
  {
    var fc := FeatureCols(f.cols);
    seq(|fc|, j requires 0 <= j < |fc| => Get(f, fc[j])[i])
  }

  /** Sorting one user's rows keeps them that user's, and puts the latest date last. */
  lemma {:induction false} OneUserSorted(logs: seq<LogRecord>, u: int)
    requires forall k :: 0 <= k < |logs| ==> logs[k].user == u
    ensures forall k :: 0 <= k < |logs| ==> SortLogs(logs)[k].user == u
    ensures forall k :: 0 <= k < |logs| ==> DateLe(SortLogs(logs)[k].date, SortLogs(logs)[|logs| - 1].date)
  {
    var rows := SortLogs(logs);
    forall k | 0 <= k < |logs| ensures rows[k].user == u {
      assert rows[k] in multiset(logs);
      var j :| 0 <= j < |logs| && logs[j] == rows[k];
    }
    forall k | 0 <= k < |logs| ensures DateLe(rows[k].date, rows[|logs| - 1].date) {
      if k < |logs| - 1 {
        assert KeyLe(rows[k], rows[|logs| - 1]);
      }
    }
  }

  lemma {:induction false} KeptPrefixOf(f: Frame, rows: seq<LogRecord>, s: int, u: int)
    requires LabelledFrom(f, rows, s) && s > 0
    requires forall k :: 0 <= k < |rows| ==> rows[k].user == u
    ensures |KeptRows(f)| == (if |rows| > s then |rows| - s else 0)
    ensures forall k :: 0 <= k < |KeptRows(f)| ==> KeptRows(f)[k] == k
  {
    var m := if |rows| > s then |rows| - s else 0;
    var y := Get(f, YOcc);
    var keep := seq(|f.users|, i requires 0 <= i < |f.users| => y[i].Some?);
    forall i | 0 <= i < |keep| ensures keep[i] <==> i < m {
      LabelCells(f, rows, s, i);
    }
    WherePrefix(keep, m);
  }

  /**
   * With a label shift s > 0, the labelled rows of one user's n logs are the
   * first n - s sorted rows, in order (none when n <= s).
   */
  lemma {:induction false} OneUserKept(logs: seq<LogRecord>, u: int, cfg: MLConfig)
    requires AllValidDates(logs) && cfg.labelShiftDays > 0
    requires forall k :: 0 <= k < |logs| ==> logs[k].user == u
    ensures var kept := KeptRows(LabelledFrame(logs, cfg));
      && |kept| == (if |logs| > cfg.labelShiftDays then |logs| - cfg.labelShiftDays else 0)
      && forall k :: 0 <= k < |kept| ==> kept[k] == k
  {
    OneUserSorted(logs, u);
    LabelledFrameFrom(logs, cfg);
    KeptPrefixOf(LabelledFrame(logs, cfg), SortLogs(logs), cfg.labelShiftDays, u);
  }

  /**
   * build_dataset for one user with a label shift s > 0: each of the user's
   * last s logs is dropped, so X holds the feature rows of the first n - s
   * sorted logs and its last row is that of sorted log n - 1 - s (with the
   * default s = 1, the second-latest log, whose label is the latest log's
   * flag). A user with at most s logs gets an empty X.
   */
  lemma {:induction false} UserLastRow(table: seq<LogRecord>, u: int, cfg: MLConfig)
    requires AllValidDates(table) && cfg.labelShiftDays > 0
    ensures AllValidDates(QueryLogs(table, Some(u)))
    ensures var logs := QueryLogs(table, Some(u)); var ds := DatasetOf(table, Some(u), cfg); var s := cfg.labelShiftDays;
      && (|logs| <= s ==> ds.XEmpty())
      && (|logs| > s ==> |ds.x| == |logs| - s && ds.x[|ds.x| - 1] == FeatureRow(LabelledFrame(logs, cfg), |logs| - 1 - s))
  {
    DatasetOfQuery(table, Some(u), cfg);
    UserLastRowOf(QueryLogs(table, Some(u)), DatasetOf(table, Some(u), cfg), u, cfg);
  }

  /** UserLastRow for a given one-user log list and the dataset built from it. */
  lemma {:induction false} UserLastRowOf(logs: seq<LogRecord>, ds: BuiltDataset, u: int, cfg: MLConfig)
    requires AllValidDates(logs) && cfg.labelShiftDays > 0
    requires forall k :: 0 <= k < |logs| ==> logs[k].user == u
    requires logs == [] ==> ds == EmptyDataset
    requires logs != [] ==> ds == Finish(LabelledFrame(logs, cfg))
    ensures var s := cfg.labelShiftDays;
      && (|logs| <= s ==> ds.XEmpty())
      && (|logs| > s ==> |ds.x| == |logs| - s && ds.x[|ds.x| - 1] == FeatureRow(LabelledFrame(logs, cfg), |logs| - 1 - s))
  {
    var s := cfg.labelShiftDays;
    if |logs| > 0 {
      var f := LabelledFrame(logs, cfg);
      OneUserLastRow(logs, u, cfg);
      assert ds.x == Finish(f).x;
      if |logs| > s {
        assert |ds.x| - 1 == |logs| - s - 1;
        assert ds.x[|logs| - s - 1] == FeatureRow(f, |logs| - s - 1);
      } else {
        assert |ds.x| == 0;
      }
    }
  }

  /** DatasetOf unfolded: the empty dataset for an empty query, else Finish of the labelled frame. */
  lemma {:induction false} DatasetOfQuery(table: seq<LogRecord>, userId: Option<int>, cfg: MLConfig)
    requires AllValidDates(table)
    ensures AllValidDates(QueryLogs(table, userId))
    ensures QueryLogs(table, userId) == [] ==> DatasetOf(table, userId, cfg) == EmptyDataset
    ensures QueryLogs(table, userId) != [] ==> DatasetOf(table, userId, cfg) == Finish(LabelledFrame(QueryLogs(table, userId), cfg))
  {
    QueryLogsValid(table, userId);
  }

  lemma {:induction false} OneUserLastRow(logs: seq<LogRecord>, u: int, cfg: MLConfig)
    requires AllValidDates(logs) && cfg.labelShiftDays > 0 && |logs| > 0
    requires forall k :: 0 <= k < |logs| ==> logs[k].user == u
    ensures var f := LabelledFrame(logs, cfg); var n := |logs|; var s := cfg.labelShiftDays;
      && (n <= s ==> |Finish(f).x| == 0)
      && (n > s ==> |Finish(f).x| == n - s && Finish(f).x[n - s - 1] == FeatureRow(f, n - s - 1))
  {
    var f := LabelledFrame(logs, cfg);
    OneUserKept(logs, u, cfg);
    LastKeptRow(f, |logs|, cfg.labelShiftDays);
  }

  /** When the kept rows are 0..n-s-1, X has n - s rows and its last is the feature row of frame row n - s - 1. */
  lemma {:induction false} LastKeptRow(f: Frame, n: nat, s: nat)
    requires |KeptRows(f)| == (if n > s then n - s else 0)
    requires forall k :: 0 <= k < |KeptRows(f)| ==> KeptRows(f)[k] == k
    ensures n <= s ==> |Finish(f).x| == 0
    ensures n > s ==> |Finish(f).x| == n - s && Finish(f).x[n - s - 1] == FeatureRow(f, n - s - 1)
  {
    if n > s {
      var fc := FeatureCols(f.cols);
      assert Finish(f).x == Rows(f, fc, KeptRows(f));
    }
  }

  /**
   * The feature row of the user's latest log: the last sorted row of the
   * query frame before rows without a label are dropped; None when the user
   * has no logs.
   */
  function LatestFeatureRow(table: seq<LogRecord>, u: int, cfg: MLConfig): (r: Option<seq<Cell>>)
    requires AllValidDates(table)
    ensures r.Some? <==> QueryLogs(table, Some(u)) != []
    ensures r.Some? ==>
      var logs := QueryLogs(table, Some(u)); var rows := SortLogs(logs); var n := |logs|;
      && AllValidDates(logs)
      && rows[n - 1].user == u
      && (forall k :: 0 <= k < n ==> DateLe(rows[k].date, rows[n - 1].date))
      && r.value == FeatureRow(LabelledFrame(logs, cfg), n - 1)
  {
    var logs := QueryLogs(table, Some(u));
    if logs == [] then None
    else
      QueryLogsValid(table, Some(u));
      OneUserSorted(logs, u);
      Some(FeatureRow(LabelledFrame(logs, cfg), |logs| - 1))
  }

  /** Every y_occ label build_dataset returns is a 0/1 flag. */
  lemma {:induction false} LabelsAreFlags(table: seq<LogRecord>, userId: Option<int>, cfg: MLConfig)
    requires AllValidDates(table)
    ensures var y := DatasetOf(table, userId, cfg).yOcc; forall k :: 0 <= k < |y| ==> y[k] == 0 || y[k] == 1
  {
    DatasetOfQuery(table, userId, cfg);
    var logs := QueryLogs(table, userId);
    if logs != [] {
      var f := LabelledFrame(logs, cfg);
      forall k | 0 <= k < |Finish(f).yOcc| ensures Finish(f).yOcc[k] == 0 || Finish(f).yOcc[k] == 1 {
        LabelAlignment(logs, cfg, k);
      }
    }
  }

  // ---------------------------------------------------------------- the severity subset

  /**
   * X_migraine_days = X[mask]: the j-th severity row is training row
   * k = SevIdx(f)[j], with the same feature cells, y_occ = 1, and present
   * intensity and duration that y_intensity and y_duration carry.
   */
  lemma {:induction false} SeveritySubset(f: Frame, j: nat)
    requires j < |Finish(f).xMigraineDays|
    ensures var ds := Finish(f); var k := SevIdx(f)[j];
      && k < |ds.x| && ds.xMigraineDays[j] == ds.x[k]
      && ds.yOcc[k] == 1
      && Targets(f, YInt)[k] == Some(ds.yIntensity[j])
      && Targets(f, YDur)[k] == Some(ds.yDuration[j])
  {
    var ds := Finish(f);
    var fc := FeatureCols(f.cols);
    var k := SevIdx(f)[j];
    assert SevRows(f)[j] == KeptRows(f)[k];
    assert ds.xMigraineDays[j] == ds.x[k];
  }

  /** Every training row with y_occ = 1 and both severity targets present is in the severity subset, and the subset keeps row order. */
  lemma {:induction false} SeverityComplete(f: Frame, k: nat)
    requires k < |Finish(f).yOcc| && Finish(f).yOcc[k] == 1
    requires Targets(f, YInt)[k].Some? && Targets(f, YDur)[k].Some?
    ensures k in SevIdx(f)
  {
    assert Labels(f)[k] == 1;
  }

  /** The severity subset keeps the order of the training rows. */
  lemma {:induction false} SeverityOrdered(f: Frame, a: nat, b: nat)
    requires a < b < |SevIdx(f)|
    ensures SevIdx(f)[a] < SevIdx(f)[b] && SevRows(f)[a] < SevRows(f)[b]
  {
    var sev := SevIdx(f);
    assert sev[a] < sev[b];
    assert KeptRows(f)[sev[a]] < KeptRows(f)[sev[b]];
  }

  // ---------------------------------------------------------------- an empty query

  /** Attaching the labels keeps every column already there. */
  lemma {:induction false} AddLabelsKeeps(f: Frame, shift: int, c: ColName)
    requires c in f.cols
    ensures c in AddLabels(f, shift).cols
  {
  }

  lemma {:induction false} SleepHoursKept(logs: seq<LogRecord>, cfg: MLConfig)
    requires AllValidDates(logs)
    ensures Col("sleep_hours") in LabelledFrame(logs, cfg).cols
  {
    var c := Col("sleep_hours");
    assert c in QueryFrame(logs).cols by {
      QueryFrameIsFrameOfRows(logs);
      assert Cols(QueryNames)[0] == c;
    }
    LagsAndRollsKeeps(QueryFrame(logs), cfg, c);
    AddLabelsKeeps(LagsAndRolls(QueryFrame(logs), cfg), cfg.labelShiftDays, c);
  }

  lemma {:induction false} SleepHoursFeature(f: Frame)
    requires Col("sleep_hours") in f.cols
    ensures "sleep_hours" in Finish(f).featureColumns
  {
    var c := Col("sleep_hours");
    assert Render(c) !in DropNames;
    var fc := FeatureCols(f.cols);
    assert c in fc;
    var j :| 0 <= j < |fc| && fc[j] == c;
    assert Finish(f).featureColumns[j] == "sleep_hours";
  }

  /**
   * The feature list is empty exactly when the query found no logs: an empty
   * query short-circuits to the empty dataset, and any non-empty one keeps
   * sleep_hours among the features.
   */
  lemma {:induction false} EmptyFeaturesIff(table: seq<LogRecord>, userId: Option<int>, cfg: MLConfig)
    requires AllValidDates(table)
    ensures DatasetOf(table, userId, cfg).featureColumns == [] <==> QueryLogs(table, userId) == []
    ensures QueryLogs(table, userId) == [] ==> DatasetOf(table, userId, cfg) == EmptyDataset
  {
    var logs := QueryLogs(table, userId);
    if logs != [] {
      QueryLogsValid(table, userId);
      SleepHoursKept(logs, cfg);
      SleepHoursFeature(LabelledFrame(logs, cfg));
    }
  }

  // ---------------------------------------------------------------- worked examples

  /**
   * One user with migraines on days 3 and 7 (flags 0,0,1,0,0,0,1,0,0,0) and a
   * one-day label shift: on day 6 the 3-day roll sum sees the day-3 migraine
   * through the lag (days 3..5 lagged are days 2..4 raw), and the label is
   * day 7's flag; day 3 itself is labelled with day 4's 0, and its lagged
   * flag is day 2's 0; day 2 is labelled with day 3's 1, and its lagged flag
   * is day 1's 0.
   */
  lemma {:induction false} SingleUserExample()
    ensures var users := [5, 5, 5, 5, 5, 5, 5, 5, 5, 5];
      var flags := [Some(0.0), Some(0.0), Some(1.0), Some(0.0), Some(0.0), Some(0.0), Some(1.0), Some(0.0), Some(0.0), Some(0.0)];
      && RollingSum(Lag(users, flags), 3)[5] == Some(1.0) && Lead(users, flags, 1)[5] == Some(1.0)
      && Lead(users, flags, 1)[2] == Some(0.0) && Lag(users, flags)[2] == Some(0.0)
      && Lead(users, flags, 1)[1] == Some(1.0) && Lag(users, flags)[1] == Some(0.0)
  {
    var users := [5, 5, 5, 5, 5, 5, 5, 5, 5, 5];
    var flags := [Some(0.0), Some(0.0), Some(1.0), Some(0.0), Some(0.0), Some(0.0), Some(1.0), Some(0.0), Some(0.0), Some(0.0)];
    var lagged := Lag(users, flags);
    assert lagged[3] == Some(1.0) && lagged[4] == Some(0.0) && lagged[5] == Some(0.0);
    var window := lagged[3..6];
    assert window == [Some(1.0), Some(0.0), Some(0.0)];
    assert Present(window) == [1.0, 0.0, 0.0] by {
      var w1, w2 := window[1..], window[2..];
      assert w1 == [Some(0.0), Some(0.0)] && w2 == [Some(0.0)] && w1[1..] == w2 && w2[1..] == [];
      assert Present(w2) == [0.0] + Present([]);
      assert Present(w1) == [0.0] + Present(w2);
      assert Present(window) == [1.0] + Present(w1);
    }
    assert Sum([1.0, 0.0, 0.0]) == 1.0 by {
      assert [1.0, 0.0, 0.0][1..] == [0.0, 0.0];
      assert [0.0, 0.0][1..] == [0.0];
    }
  }

  /**
   * The roll is not grouped by user: in a two-user frame, the first row of
   * user 2 (whose own lag is missing) still gets a roll sum of 1 from user 1's
   * lagged rows.
   */
  lemma {:induction false} RollingCrossesUsers()
    ensures var users := [1, 1, 2];
      var flags := [Some(1.0), Some(1.0), Some(0.0)];
      Lag(users, flags)[2].None? && RollingSum(Lag(users, flags), 3)[2] == Some(1.0)
  {
    var users := [1, 1, 2];
    var flags := [Some(1.0), Some(1.0), Some(0.0)];
    var lagged := Lag(users, flags);
    assert lagged == [None, Some(1.0), None];
    assert lagged[0..3] == lagged;
    assert Present(lagged) == [1.0] by {
      var l1, l2 := lagged[1..], lagged[2..];
      assert l1 == [Some(1.0), None] && l2 == [None] && l1[1..] == l2 && l2[1..] == [];
      assert Present(l2) == Present([]);
      assert Present(l1) == [1.0] + Present(l2);
      assert Present(lagged) == Present(l1);
    }
    assert Sum([1.0]) == 1.0 by {
      assert [1.0][1..] == [];
    }
  }
}

=== FILE: estimators.dfy ===
/**
 * The scikit-learn objects the training and prediction code handles, seen only
 * through the attributes that code reads, and the library routines it calls
 * (fitting, scoring) as given functions. Also the bundle the trainers save.
 */
module Estimators {
  import opened Wrappers
  import opened Series
  import opened Preprocess

  /** One row of X: a feature cell per feature column. */
  type Row = seq<Cell>

  /** A fitted ColumnTransformer: transform(row) in the transformed space, and get_feature_names_out(). */
  datatype Transform = Transform(apply: Row -> seq<real>, featureNames: seq<string>)

  /** named_steps of a fitted Pipeline: its "preprocess" step and the coef_ of its "model" step, when that exists. */
  datatype NamedSteps = NamedSteps(preprocess: Transform, coef: Option<seq<real>>)

  /**
   * A fitted estimator. `calibrated` is calibrated_classifiers_ (each entry's
   * .estimator) when the object has that attribute, `steps` its named_steps when
   * it has those.
   */
  datatype Fitted = Fitted(
    proba: Row -> real,               // predict_proba(row)[:, 1]
    predict: Row -> real,             // predict(row)
    calibrated: Option<seq<Fitted>>,
    steps: Option<NamedSteps>)

  /** predict_proba(rows)[:, 1], row by row. */
  function Probabilities(f: Fitted, rows: seq<Row>): (p: seq<real>)
    ensures |p| == |rows|
    ensures forall i :: 0 <= i < |rows| ==> p[i] == f.proba(rows[i])
  {
    seq(|rows|, i requires 0 <= i < |rows| => f.proba(rows[i]))
  }

  /** predict(rows), row by row. */
  function Predictions(f: Fitted, rows: seq<Row>): (p: seq<real>)
    ensures |p| == |rows|
    ensures forall i :: 0 <= i < |rows| ==> p[i] == f.predict(rows[i])
  {
    seq(|rows|, i requires 0 <= i < |rows| => f.predict(rows[i]))
  }

  /**
   * The library routines, whose numerics are outside this model. Each fit takes
   * the make_preprocess transformer and the training rows and labels, and
   * either returns the fitted object or raises (scikit-learn's ValueError).
   */
  datatype Library = Library(
    fitGlobalPipeline: (ColumnTransformer, seq<Row>, seq<int>) -> Outcome<Fitted>,  // pipe.fit of the SGDClassifier pipeline
    calibrateGlobal: (ColumnTransformer, seq<Row>, seq<int>) -> Outcome<Fitted>,    // CalibratedClassifierCV(pipe, sigmoid, cv=2).fit
    fitGlobalSeverity: (ColumnTransformer, seq<Row>, seq<real>) -> Outcome<Fitted>, // SGDRegressor(huber) pipeline
    fitUserOccurrence: (ColumnTransformer, seq<Row>, seq<int>) -> Outcome<Fitted>,  // SGDClassifier pipeline
    rocAuc: (seq<int>, seq<real>) -> real,
    averagePrecision: (seq<int>, seq<real>) -> real,
    brier: (seq<int>, seq<real>) -> real,
    logLoss: (seq<int>, seq<real>) -> real,
    meanAbsoluteError: (seq<real>, seq<real>) -> real)

  /** len(np.unique(ys)) > 1 */
  predicate BothClasses(ys: seq<int>) {
    exists i, j :: 0 <= i < |ys| && 0 <= j < |ys| && ys[i] != ys[j]
  }

  /** A classifier fit raises when the labels hold a single class (SGDClassifier needs two). */
  ghost predicate RejectsOneClass(fit: (ColumnTransformer, seq<Row>, seq<int>) -> Outcome<Fitted>) {
    forall t, x, y :: !BothClasses(y) ==> fit(t, x, y).Raised?
  }

  /** A two-fold calibration raises when some class has fewer than two examples. */
  ghost predicate RejectsRareClass(fit: (ColumnTransformer, seq<Row>, seq<int>) -> Outcome<Fitted>) {
    forall t, x, y, i :: 0 <= i < |y| && multiset(y)[y[i]] < 2 ==> fit(t, x, y).Raised?
  }

  /**
   * The metrics dictionaries of the three trainers; None is a JSON null. The
   * per-user pos_rate_test, brier and logloss may be null, so they carry their own names.
   */
  datatype Metrics =
    | OccurrenceMetrics(
        nSamples: int, nTrain: int, nTest: int,
        posRateTrain: real, posRateTest: real,
        auc: Option<real>, auprc: Option<real>, brier: real, logloss: real,
        featureSchemaVersion: string, labelShiftDays: int)
    | SeverityMetrics(
        nSamples: int, maeIntensity: real,
        featureSchemaVersion: string, labelShiftDays: int)
    | UserMetrics(
        userId: int, nSamples: int, nTrain: int, nTest: int,
        posRateTrain: real, testPosRate: Option<real>, testBrier: Option<real>, testLogloss: Option<real>,
        featureSchemaVersion: string, labelShiftDays: int)

  /** The saved dictionary {"pipeline", "metrics", "feature_columns"}. */
  datatype Bundle = Bundle(pipeline: Fitted, metrics: Metrics, featureColumns: seq<string>)
}

=== FILE: explain.dfy ===
/**
 * tracker/ml/explain.py: the per-feature contributions x * w of a linear
 * model in its transformed space, and the choice of the k most negative and
 * k most positive of them, after unwrapping a calibration wrapper.
 */
module Explain {
  import opened Wrappers
  import opened Estimators

  /**
   * _unwrap_pipeline: the first calibrated classifier's base estimator when
   * calibrated_classifiers_ exists and is non-empty, else the object itself.
   */
  function Unwrap(m: Fitted): (p: Fitted)
    ensures m.calibrated.Some? && |m.calibrated.value| > 0 ==> p == m.calibrated.value[0]
    ensures !(m.calibrated.Some? && |m.calibrated.value| > 0) ==> p == m
  {
    if m.calibrated.Some? && |m.calibrated.value| > 0 then m.calibrated.value[0] else m
  }

  // ---------------------------------------------------------------- contributions

  /** contrib = arr * coefs, elementwise. */
  function Contributions(x: seq<real>, w: seq<real>): (c: seq<real>)
    requires |x| == |w|
    ensures |c| == |x|
    ensures forall i :: 0 <= i < |c| ==> c[i] == x[i] * w[i]
  {
    seq(|x|, i requires 0 <= i < |x| => x[i] * w[i])
  }

  // ---------------------------------------------------------------- argsort

  /** Every entry of `order` is an index below n. */
  predicate IndicesBelow(order: seq<nat>, n: nat) {
    forall k :: 0 <= k < |order| ==> order[k] < n
  }

  /** `order` lists indices of `c` by non-decreasing value. */
  predicate SortedBy(c: seq<real>, order: seq<nat>)
    requires IndicesBelow(order, |c|)
  {
    forall p, q :: 0 <= p < q < |order| ==> c[order[p]] <= c[order[q]]
  }

  /** 0, 1, ..., n - 1 */
  function Range(n: nat): (r: seq<nat>)
    ensures |r| == n
    ensures forall i :: 0 <= i < n ==> r[i] == i
  {
    seq(n, i => i)
  }

  /** Inserts index i after every index whose value is at most c[i]. */
  function Insert(c: seq<real>, order: seq<nat>, i: nat): (r: seq<nat>)
    requires i < |c| && IndicesBelow(order, |c|)
    ensures IndicesBelow(r, |c|)
    ensures multiset(r) == multiset(order) + multiset{i}
  {
    if order == [] then [i]
    else if c[order[0]] <= c[i] then
      assert order == [order[0]] + order[1..];
      [order[0]] + Insert(c, order[1..], i)
    else
      [i] + order
  }

  /** Insertion keeps a sorted index list sorted. */
  lemma {:induction false} InsertSorted(c: seq<real>, order: seq<nat>, i: nat)
    requires i < |c| && IndicesBelow(order, |c|) && SortedBy(c, order)
    ensures SortedBy(c, Insert(c, order, i))
  {
    if order != [] && c[order[0]] <= c[i] {
      var rest := Insert(c, order[1..], i);
      InsertSorted(c, order[1..], i);
      assert forall k :: 0 <= k < |order[1..]| ==> c[order[0]] <= c[order[1..][k]] by {
        forall k | 0 <= k < |order[1..]| ensures c[order[0]] <= c[order[1..][k]] {
          assert order[1..][k] == order[k + 1];
        }
      }
      InsertLowerBound(c, order[1..], i, c[order[0]]);
      var r := [order[0]] + rest;
      forall p, q | 0 <= p < q < |r| ensures c[r[p]] <= c[r[q]] {
        if p == 0 {
          assert r[q] in rest;
        } else {
          assert r[p] == rest[p - 1] && r[q] == rest[q - 1];
        }
      }
    }
  }

  /** A lower bound on the values of a list and of c[i] bounds the list with i inserted. */
  lemma InsertLowerBound(c: seq<real>, order: seq<nat>, i: nat, lo: real)
    requires i < |c| && IndicesBelow(order, |c|)
    requires lo <= c[i] && forall k :: 0 <= k < |order| ==> lo <= c[order[k]]
    ensures forall x :: x in Insert(c, order, i) ==> lo <= c[x]
  {
    var r := Insert(c, order, i);
    forall x | x in r ensures lo <= c[x] {
      assert x in multiset(r);
      if x != i {
        assert x in multiset(order);
        var q :| 0 <= q < |order| && order[q] == x;
      }
    }
  }

  /** The first n indices of c, sorted by value (ties in index order). */
  function SortPrefix(c: seq<real>, n: nat): (order: seq<nat>)
    requires n <= |c|
    ensures IndicesBelow(order, |c|) && SortedBy(c, order)
    ensures multiset(order) == multiset(Range(n))
  {
    if n == 0 then []
    else
      assert Range(n) == Range(n - 1) + [n - 1];
      InsertSorted(c, SortPrefix(c, n - 1), n - 1);
      Insert(c, SortPrefix(c, n - 1), n - 1)
  }

  /** np.argsort(contrib): a permutation of the indices that lists values in non-decreasing order. */
  function ArgSort(c: seq<real>): (order: seq<nat>)
    ensures IndicesBelow(order, |c|) && SortedBy(c, order)
    ensures multiset(order) == multiset(Range(|c|))
    ensures |order| == |c|
  {
    var order := SortPrefix(c, |c|);
    assert |order| == |multiset(order)| == |multiset(Range(|c|))| == |c|;
    order
  }

  /** Every index of c has a place in its argsort. */
  lemma ArgSortCovers(c: seq<real>, j: nat)
    requires j < |c|
    ensures j in ArgSort(c)
  {
    assert Range(|c|)[j] == j;
    assert j in multiset(Range(|c|));
  }

  // ---------------------------------------------------------------- top-k selection

  function Min(a: nat, b: nat): nat {
    if a <= b then a else b
  }

  function Reverse(s: seq<nat>): (r: seq<nat>)
    ensures |r| == |s|
    ensures forall k :: 0 <= k < |s| ==> r[k] == s[|s| - 1 - k]
  {
    seq(|s|, k requires 0 <= k < |s| => s[|s| - 1 - k])
  }

  /** idx_sorted[:top_k] */
  function NegIdx(order: seq<nat>, k: nat): (r: seq<nat>)
    ensures r == order[..Min(k, |order|)]
  {
    order[..Min(k, |order|)]
  }

  /** idx_sorted[-top_k:][::-1]; note that -0 is 0, so top_k = 0 takes the whole array. */
  function PosIdx(order: seq<nat>, k: nat): (r: seq<nat>)
    ensures k >= 1 ==> r == Reverse(order[|order| - Min(k, |order|)..])
    ensures k == 0 ==> r == Reverse(order)
    ensures forall j :: 0 <= j < |r| ==> r[j] in order
  {
    if k == 0 then Reverse(order) else Reverse(order[|order| - Min(k, |order|)..])
  }

  /** The indices idx_sorted[:k] hold values no larger than any index left out. */
  lemma {:induction false} NegIdxSmallest(c: seq<real>, k: nat, i: nat, j: nat)
    requires i in NegIdx(ArgSort(c), k)
    requires j < |c| && j !in NegIdx(ArgSort(c), k)
    ensures i < |c| && c[i] <= c[j]
  {
    var order := ArgSort(c);
    var m := Min(k, |order|);
    ArgSortCovers(c, j);
    var p :| 0 <= p < m && order[p] == i;
    var q :| 0 <= q < |order| && order[q] == j;
    assert forall t :: 0 <= t < m ==> order[t] in order[..m];
  }

  lemma ReverseSameMembers(s: seq<nat>)
    ensures forall x :: x in Reverse(s) <==> x in s
  {
    forall x | x in s ensures x in Reverse(s) {
      var t :| 0 <= t < |s| && s[t] == x;
      assert Reverse(s)[|s| - 1 - t] == x;
    }
  }

  /** For k >= 1, the indices of idx_sorted[-k:] hold values no smaller than any index left out. */
  lemma {:induction false} PosIdxLargest(c: seq<real>, k: nat, i: nat, j: nat)
    requires k >= 1
    requires i in PosIdx(ArgSort(c), k)
    requires j < |c| && j !in PosIdx(ArgSort(c), k)
    ensures i < |c| && c[j] <= c[i]
  {
    var order := ArgSort(c);
    var lo := |order| - Min(k, |order|);
    var tail := order[lo..];
    ReverseSameMembers(tail);
    ArgSortCovers(c, j);
    var p :| 0 <= p < |tail| && tail[p] == i;
    assert order[lo + p] == i;
    var q :| 0 <= q < |order| && order[q] == j;
    forall t | lo <= t < |order| ensures order[t] in tail {
      assert tail[t - lo] == order[t];
    }
  }

  // ---------------------------------------------------------------- packing

  /** Entries with |contribution| at or below this are dropped. */
  const Threshold: real := 0.000000000001

  function Abs(x: real): real {
    if x < 0.0 then -x else x
  }

  /** {"feature": name, "contribution": value} */
  datatype Contribution = Contribution(feature: string, contribution: real)

  /**
   * pack(idxs): the named contribution of each index in turn, skipping those
   * whose absolute contribution is at most the threshold.
   */
  function Pack(idxs: seq<nat>, names: seq<string>, c: seq<real>): (r: seq<Contribution>)
    requires IndicesBelow(idxs, |c|) && |names| == |c|
    ensures |r| <= |idxs|
  {
    if idxs == [] then []
    else
      var i := idxs[0];
      var rest := Pack(idxs[1..], names, c);
      if Abs(c[i]) > Threshold then [Contribution(names[i], c[i])] + rest else rest
  }

  /**
   * What pack keeps: only entries above the threshold, each the name and the
   * contribution of one of the indices, and every index above the threshold.
   */
  lemma {:induction false} PackMembers(idxs: seq<nat>, names: seq<string>, c: seq<real>)
    requires IndicesBelow(idxs, |c|) && |names| == |c|
    ensures forall x :: x in Pack(idxs, names, c) ==> Abs(x.contribution) > Threshold
    ensures forall x :: x in Pack(idxs, names, c) ==> exists i :: i in idxs && x == Contribution(names[i], c[i])
    ensures forall i :: i in idxs && Abs(c[i]) > Threshold ==> Contribution(names[i], c[i]) in Pack(idxs, names, c)
  {
    if idxs != [] {
      PackMembers(idxs[1..], names, c);
      assert forall j :: j in idxs[1..] ==> j in idxs;
      assert forall j :: j in idxs ==> j == idxs[0] || j in idxs[1..];
    }
  }

  /** The values at a run of indices are ascending (descending). */
  predicate AscendingAt(c: seq<real>, idxs: seq<nat>)
    requires IndicesBelow(idxs, |c|)
  {
    forall p, q :: 0 <= p < q < |idxs| ==> c[idxs[p]] <= c[idxs[q]]
  }

  predicate DescendingAt(c: seq<real>, idxs: seq<nat>)
    requires IndicesBelow(idxs, |c|)
  {
    forall p, q :: 0 <= p < q < |idxs| ==> c[idxs[p]] >= c[idxs[q]]
  }

  /** A list of named contributions in ascending (descending) order of contribution. */
  predicate Ascending(r: seq<Contribution>) {
    forall p, q :: 0 <= p < q < |r| ==> r[p].contribution <= r[q].contribution
  }

  predicate Descending(r: seq<Contribution>) {
    forall p, q :: 0 <= p < q < |r| ==> r[p].contribution >= r[q].contribution
  }

  /** Every kept contribution is one of the values at the indices, so shares any bound on them. */
  lemma {:induction false} PackBounds(idxs: seq<nat>, names: seq<string>, c: seq<real>, lo: real, hi: real)
    requires IndicesBelow(idxs, |c|) && |names| == |c|
    ensures (forall q :: 0 <= q < |idxs| ==> lo <= c[idxs[q]]) ==> forall x :: x in Pack(idxs, names, c) ==> lo <= x.contribution
    ensures (forall q :: 0 <= q < |idxs| ==> c[idxs[q]] <= hi) ==> forall x :: x in Pack(idxs, names, c) ==> x.contribution <= hi
  {
    if idxs != [] {
      PackBounds(idxs[1..], names, c, lo, hi);
      assert forall q :: 0 <= q < |idxs[1..]| ==> idxs[1..][q] == idxs[q + 1];
    }
  }

  /** Packing keeps the order of the indices it keeps, so an ascending run stays ascending. */
  lemma {:induction false} PackAscending(idxs: seq<nat>, names: seq<string>, c: seq<real>)
    requires IndicesBelow(idxs, |c|) && |names| == |c|
    requires AscendingAt(c, idxs)
    ensures Ascending(Pack(idxs, names, c))
  {
    if idxs != [] {
      var rest := Pack(idxs[1..], names, c);
      PackAscending(idxs[1..], names, c);
      if Abs(c[idxs[0]]) > Threshold {
        PackBounds(idxs[1..], names, c, c[idxs[0]], 0.0);
        var r := [Contribution(names[idxs[0]], c[idxs[0]])] + rest;
        forall p, q | 0 <= p < q < |r| ensures r[p].contribution <= r[q].contribution {
          if p == 0 {
            assert r[q] in rest;
          } else {
            assert r[p] == rest[p - 1] && r[q] == rest[q - 1];
          }
        }
      }
    }
  }

  /** Packing keeps the order of the indices it keeps, so a descending run stays descending. */
  lemma {:induction false} PackDescending(idxs: seq<nat>, names: seq<string>, c: seq<real>)
    requires IndicesBelow(idxs, |c|) && |names| == |c|
    requires DescendingAt(c, idxs)
    ensures Descending(Pack(idxs, names, c))
  {
    if idxs != [] {
      var rest := Pack(idxs[1..], names, c);
      PackDescending(idxs[1..], names, c);
      if Abs(c[idxs[0]]) > Threshold {
        PackBounds(idxs[1..], names, c, 0.0, c[idxs[0]]);
        var r := [Contribution(names[idxs[0]], c[idxs[0]])] + rest;
        forall p, q | 0 <= p < q < |r| ensures r[p].contribution >= r[q].contribution {
          if p == 0 {
            assert r[q] in rest;
          } else {
            assert r[p] == rest[p - 1] && r[q] == rest[q - 1];
          }
        }
      }
    }
  }

  /** top_negative before naming: at most k entries, ascending. */
  lemma NegativeList(c: seq<real>, names: seq<string>, k: nat)
    requires |names| == |c|
    ensures |Pack(NegIdx(ArgSort(c), k), names, c)| <= k
    ensures Ascending(Pack(NegIdx(ArgSort(c), k), names, c))
  {
    PackAscending(NegIdx(ArgSort(c), k), names, c);
  }

  /** top_positive before naming, for k >= 1: at most k entries, descending. */
  lemma PositiveList(c: seq<real>, names: seq<string>, k: nat)
    requires |names| == |c| && k >= 1
    ensures |Pack(PosIdx(ArgSort(c), k), names, c)| <= k
    ensures Descending(Pack(PosIdx(ArgSort(c), k), names, c))
  {
    var order := ArgSort(c);
    var pos := PosIdx(order, k);
    var tail := order[|order| - Min(k, |order|)..];
    forall p, q | 0 <= p < q < |pos| ensures c[pos[p]] >= c[pos[q]] {
      assert pos[p] == tail[|tail| - 1 - p] == order[|order| - 1 - p];
      assert pos[q] == tail[|tail| - 1 - q] == order[|order| - 1 - q];
    }
    PackDescending(pos, names, c);
  }

  // ---------------------------------------------------------------- explain_linear_prediction

  const NoStepsNote: string := "Explanation unavailable for this model type."
  const NoCoefNote: string := "Model has no linear coefficients."

  /** {"top_positive", "top_negative"} and, on the two early returns, "note". */
  datatype Explanation = Explanation(topPositive: seq<Contribution>, topNegative: seq<Contribution>, note: Option<string>)

  /**
   * explain_linear_prediction(model, X_row, top_k). A transformed row, a
   * coefficient vector and a name list of different lengths cannot be
   * combined elementwise and raise.
   */
  function ExplainLinearPrediction(m: Fitted, row: Row, k: nat): (r: Outcome<Explanation>)
    ensures Unwrap(m).steps.None? ==> r == Returned(Explanation([], [], Some(NoStepsNote)))
    ensures Unwrap(m).steps.Some? && Unwrap(m).steps.value.coef.None? ==> r == Returned(Explanation([], [], Some(NoCoefNote)))
    ensures r.Returned? && r.value.note.None? ==> Unwrap(m).steps.Some? && Unwrap(m).steps.value.coef.Some?
    ensures r.Returned? && r.value.note.None? ==>
      var steps := Unwrap(m).steps.value;
      |steps.preprocess.apply(row)| == |steps.coef.value| == |steps.preprocess.featureNames|
  {
    var pipe := Unwrap(m);
    match pipe.steps
    case None => Returned(Explanation([], [], Some(NoStepsNote)))
    case Some(steps) =>
      var xt := steps.preprocess.apply(row);
      var names := steps.preprocess.featureNames;
      match steps.coef
      case None => Returned(Explanation([], [], Some(NoCoefNote)))
      case Some(w) =>
        if |xt| != |w| || |names| != |xt| then Raised("operands could not be broadcast together")
        else
          var c := Contributions(xt, w);
          var order := ArgSort(c);
          Returned(Explanation(Pack(PosIdx(order, k), names, c), Pack(NegIdx(order, k), names, c), None))
  }

  /** The contributions the explanation of `m` at `row` ranks, when it gets that far. */
  function RankedContributions(m: Fitted, row: Row): (c: seq<real>)
    requires Unwrap(m).steps.Some? && Unwrap(m).steps.value.coef.Some?
    requires |Unwrap(m).steps.value.preprocess.apply(row)| == |Unwrap(m).steps.value.coef.value|
  {
    Contributions(Unwrap(m).steps.value.preprocess.apply(row), Unwrap(m).steps.value.coef.value)
  }

  /**
   * A full explanation with k >= 1, top_negative side: at most k entries, all
   * above the threshold, ascending, each pairing a feature's name with that
   * feature's contribution and drawn from the k smallest contributions; and
   * every one of those k whose magnitude passes the threshold is listed.
   */
  lemma TopNegative(m: Fitted, row: Row, k: nat)
    requires k >= 1
    requires ExplainLinearPrediction(m, row, k).Returned? && ExplainLinearPrediction(m, row, k).value.note.None?
    ensures var e := ExplainLinearPrediction(m, row, k).value;
      var names := Unwrap(m).steps.value.preprocess.featureNames;
      var c := RankedContributions(m, row);
      && |names| == |c|
      && |e.topNegative| <= k && Ascending(e.topNegative)
      && (forall x :: x in e.topNegative ==> Abs(x.contribution) > Threshold)
      && (forall x :: x in e.topNegative ==> exists i :: i in NegIdx(ArgSort(c), k) && x == Contribution(names[i], c[i]))
      && (forall i :: i in NegIdx(ArgSort(c), k) && Abs(c[i]) > Threshold ==> Contribution(names[i], c[i]) in e.topNegative)
  {
    var c := RankedContributions(m, row);
    var names := Unwrap(m).steps.value.preprocess.featureNames;
    NegativeList(c, names, k);
    PackMembers(NegIdx(ArgSort(c), k), names, c);
  }

  /**
   * A full explanation with k >= 1, top_positive side: at most k entries, all
   * above the threshold, descending, each pairing a feature's name with that
   * feature's contribution and drawn from the k largest contributions; and
   * every one of those k whose magnitude passes the threshold is listed.
   */
  lemma TopPositive(m: Fitted, row: Row, k: nat)
    requires k >= 1
    requires ExplainLinearPrediction(m, row, k).Returned? && ExplainLinearPrediction(m, row, k).value.note.None?
    ensures var e := ExplainLinearPrediction(m, row, k).value;
      var names := Unwrap(m).steps.value.preprocess.featureNames;
      var c := RankedContributions(m, row);
      && |names| == |c|
      && |e.topPositive| <= k && Descending(e.topPositive)
      && (forall x :: x in e.topPositive ==> Abs(x.contribution) > Threshold)
      && (forall x :: x in e.topPositive ==> exists i :: i in PosIdx(ArgSort(c), k) && x == Contribution(names[i], c[i]))
      && (forall i :: i in PosIdx(ArgSort(c), k) && Abs(c[i]) > Threshold ==> Contribution(names[i], c[i]) in e.topPositive)
  {
    var c := RankedContributions(m, row);
    var names := Unwrap(m).steps.value.preprocess.featureNames;
    PositiveList(c, names, k);
    PackMembers(PosIdx(ArgSort(c), k), names, c);
  }

  /** With top_k = 0, every index of c above the threshold is packed from idx_sorted[-0:]. */
  lemma ZeroList(c: seq<real>, names: seq<string>, j: nat)
    requires |names| == |c| && j < |c| && Abs(c[j]) > Threshold
    ensures Contribution(names[j], c[j]) in Pack(PosIdx(ArgSort(c), 0), names, c)
  {
    var order := ArgSort(c);
    ArgSortCovers(c, j);
    ReverseSameMembers(order);
    assert j in PosIdx(order, 0);
    PackMembers(PosIdx(order, 0), names, c);
  }

  /** With top_k = 0 nothing is negative and every contribution above the threshold is listed as positive. */
  lemma TopKZero(m: Fitted, row: Row, j: nat)
    requires ExplainLinearPrediction(m, row, 0).Returned? && ExplainLinearPrediction(m, row, 0).value.note.None?
    ensures var e := ExplainLinearPrediction(m, row, 0).value;
      var names := Unwrap(m).steps.value.preprocess.featureNames;
      var c := RankedContributions(m, row);
      && e.topNegative == []
      && (j < |c| && Abs(c[j]) > Threshold ==> Contribution(names[j], c[j]) in e.topPositive)
  {
    var c := RankedContributions(m, row);
    if j < |c| && Abs(c[j]) > Threshold {
      ZeroList(c, Unwrap(m).steps.value.preprocess.featureNames, j);
    }
  }
}

=== FILE: features.dfy ===
/**
 * The dataset builder of tracker/ml/features.py: the log query's row order and
 * calendar columns, the per-user lag, delta and rolling columns, the shifted
 * labels, the feature-column choice and the severity subset.
 */
module Features {
  import opened Wrappers
  import opened Config
  import opened Text
  import opened Models
  import opened Series
  import opened Frames

  // ---------------------------------------------------------------- the log query

  /** sort_values(["user_id", "date"]): rows compare by user, then by date. */
  predicate KeyLe(a: LogRecord, b: LogRecord) {
    a.user < b.user || (a.user == b.user && DateLe(a.date, b.date))
  }

  predicate SortedByKey(s: seq<LogRecord>) {
    forall i, j :: 0 <= i < j < |s| ==> KeyLe(s[i], s[j])
  }

  /** Totality of the key order: of two rows, one sorts no later than the other. */
  lemma KeyLeTotal(a: LogRecord, b: LogRecord)
    ensures KeyLe(a, b) || KeyLe(b, a)
  {
  }

  function InsertByKey(x: LogRecord, s: seq<LogRecord>): (r: seq<LogRecord>)
    requires SortedByKey(s)
    ensures SortedByKey(r)
    ensures multiset(r) == multiset(s) + multiset{x}
    ensures |r| == |s| + 1
  {
    if s == [] then [x]
    else if KeyLe(x, s[0]) then [x] + s
    else
      var t := InsertByKey(x, s[1..]);
      KeyLeTotal(x, s[0]);
      InsertAfterHead(x, s, t);
      [s[0]] + t
  }

  lemma {:induction false} InsertAfterHead(x: LogRecord, s: seq<LogRecord>, t: seq<LogRecord>)
    requires s != [] && SortedByKey(s) && SortedByKey(t) && KeyLe(s[0], x)
    requires multiset(t) == multiset(s[1..]) + multiset{x}
    ensures SortedByKey([s[0]] + t)
    ensures multiset([s[0]] + t) == multiset(s) + multiset{x}
  {
    assert s == [s[0]] + s[1..];
    forall j | 0 <= j < |t| ensures KeyLe(s[0], t[j]) {
      assert t[j] in multiset(t);
      if t[j] != x {
        assert t[j] in multiset(s[1..]);
        var k :| 0 <= k < |s[1..]| && s[1..][k] == t[j];
        assert s[k + 1] == t[j];
      }
    }
    var r := [s[0]] + t;
    forall a, b | 0 <= a < b < |r| ensures KeyLe(r[a], r[b]) {
      if a > 0 {
        assert r[a] == t[a - 1] && r[b] == t[b - 1];
      }
    }
  }

  /** The query's rows ordered by (user, date) ascending. */
  function SortLogs(s: seq<LogRecord>): (r: seq<LogRecord>)
    ensures SortedByKey(r)
    ensures multiset(r) == multiset(s)
    ensures |r| == |s|
  {
    if s == [] then []
    else
      assert s == [s[0]] + s[1..];
      InsertByKey(s[0], SortLogs(s[1..]))
  }

  /** The user_id column of the rows. */
  function UsersOf(rows: seq<LogRecord>): (users: seq<int>)
    ensures |users| == |rows|
  {
    seq(|rows|, i requires 0 <= i < |rows| => rows[i].user)
  }

  /** The sorted rows keep every user's rows together, as one block. */
  lemma {:induction false} SortedUsers(rows: seq<LogRecord>)
    requires SortedByKey(rows)
    ensures SortedGroups(UsersOf(rows))
  {
    var users := UsersOf(rows);
    forall i, j | 0 <= i <= j < |users| ensures users[i] <= users[j] {
      if i < j {
        assert KeyLe(rows[i], rows[j]);
      }
    }
  }

  predicate AllValidDates(logs: seq<LogRecord>) {
    forall i :: 0 <= i < |logs| ==> ValidDate(logs[i].date)
  }

  /** The rows of `table` that belong to user u, in table order. */
  function RowsOf(table: seq<LogRecord>, u: int): (r: seq<LogRecord>)
    ensures |r| <= |table|
  {
    if table == [] then []
    else
      var n := |table| - 1;
      RowsOf(table[..n], u) + (if table[n].user == u then [table[n]] else [])
  }

  /** RowsOf holds each of u's rows as often as the table does, and no other row. */
  lemma {:induction false} RowsOfCount(table: seq<LogRecord>, u: int)
    ensures forall row :: multiset(RowsOf(table, u))[row] == if row.user == u then multiset(table)[row] else 0
  {
    if table != [] {
      var n := |table| - 1;
      RowsOfCount(table[..n], u);
      assert table == table[..n] + [table[n]];
    }
  }

  /** Selecting the rows a user filter keeps, over the first m rows, is RowsOf of those rows. */
  lemma {:induction false} SelectUserRows(table: seq<LogRecord>, u: int, m: nat)
    requires m <= |table|
    ensures var keep := seq(m, i requires 0 <= i < m => table[i].user == u);
      Select(table, Where(keep)) == RowsOf(table[..m], u)
  {
    var keep := seq(m, i requires 0 <= i < m => table[i].user == u);
    if m > 0 {
      var front := seq(m - 1, i requires 0 <= i < m - 1 => table[i].user == u);
      assert keep[..m - 1] == front;
      SelectUserRows(table, u, m - 1);
      assert table[..m][..m - 1] == table[..m - 1];
      var idx := Where(keep);
      var fidx := Where(front);
      assert idx == fidx + (if keep[m - 1] then [m - 1] else []);
      assert Select(table, idx) == Select(table, fidx) + (if table[m - 1].user == u then [table[m - 1]] else []);
    }
  }

  /**
   * DailyLog.objects.values(...).filter(user_id=...) when a user is given,
   * else every row (QueryLogsRows: each of the user's rows as often as it is
   * stored, in table order).
   */
  function QueryLogs(table: seq<LogRecord>, userId: Option<int>): (logs: seq<LogRecord>)
    ensures userId.None? ==> logs == table
    ensures userId.Some? ==> forall k :: 0 <= k < |logs| ==> logs[k] in table && logs[k].user == userId.value
    ensures userId.Some? ==> forall i :: 0 <= i < |table| && table[i].user == userId.value ==> table[i] in logs
  {
    match userId
    case None => table
    case Some(u) =>
      var keep := seq(|table|, i requires 0 <= i < |table| => table[i].user == u);
      SelectUserRows(table, u, |table|);
      assert table[..|table|] == table;
      RowsOfMembers(table, u);
      Select(table, Where(keep))
  }

  /**
   * A user's query holds exactly that user's rows, each as many times as the
   * table stores it and no other row, in the table's order.
   */
  lemma {:induction false} QueryLogsRows(table: seq<LogRecord>, u: int)
    ensures forall r :: multiset(QueryLogs(table, Some(u)))[r] == if r.user == u then multiset(table)[r] else 0
    ensures QueryLogs(table, Some(u)) == RowsOf(table, u)
  {
    SelectUserRows(table, u, |table|);
    assert table[..|table|] == table;
    RowsOfCount(table, u);
  }

  /** RowsOf keeps exactly the stored rows of user u. */
  lemma {:induction false} RowsOfMembers(table: seq<LogRecord>, u: int)
    ensures forall k :: 0 <= k < |RowsOf(table, u)| ==> RowsOf(table, u)[k] in table && RowsOf(table, u)[k].user == u
    ensures forall i :: 0 <= i < |table| && table[i].user == u ==> table[i] in RowsOf(table, u)
  {
    var r := RowsOf(table, u);
    RowsOfCount(table, u);
    forall k | 0 <= k < |r| ensures r[k] in table && r[k].user == u {
      assert r[k] in multiset(r);
    }
    forall i | 0 <= i < |table| && table[i].user == u ensures table[i] in r {
      assert table[i] in multiset(table);
      assert multiset(r)[table[i]] > 0;
    }
  }

  function FlagOf(b: bool): real {
    if b then 1.0 else 0.0
  }

  function IntCell(v: Option<int>): Cell {
    match v
    case Some(x) => Some(x as real)
    case None => None
  }

  /** The value a selected column holds for one stored row (booleans read as 0/1, NULL as missing). */
  function CellOf(r: LogRecord, name: string): Cell {
    if name == "sleep_hours" then Some(r.sleepHours)
    else if name == "physical_activity_minutes" then Some(r.activityMinutes as real)
    else if name == "physical_activity_difficulty" then Some(r.activityDifficulty as real)
    else if name == "stress_level" then Some(r.stressLevel as real)
    else if name == "caffeine_mg" then Some(r.caffeineMg as real)
    else if name == "heavy_meals" then Some(r.heavyMeals as real)
    else if name == "hydration_liters" then Some(r.hydrationLiters)
    else if name == "alcohol_consumption" then Some(r.alcohol as real)
    else if name == "weather_temp_c" then r.tempC
    else if name == "weather_humidity" then IntCell(r.humidity)
    else if name == "weather_pressure_hpa" then IntCell(r.pressureHpa)
    else if name == "menstruation" then Some(FlagOf(r.menstruation))
    else if name == TargetOcc then Some(FlagOf(r.hadMigraine))
    else if name == TargetInt then IntCell(r.intensity)
    else if name == TargetDur then r.durationHours
    else None
  }

  /** Literal column names, in order. */
  function Cols(names: seq<string>): (cs: seq<ColName>)
    ensures |cs| == |names|
    ensures forall k :: 0 <= k < |names| ==> cs[k] == Col(names[k])
  {
    if names == [] then [] else [Col(names[0])] + Cols(names[1..])
  }

  /** The selected columns of the given rows, keyed by column. */
  function BaseData(rows: seq<LogRecord>, names: seq<string>): (data: map<ColName, seq<Cell>>)
    ensures forall c :: c in data <==> c.Col? && c.name in names
    ensures forall name :: name in names ==> data[Col(name)] == ColumnOf(rows, name)
  {
    if names == [] then map[]
    else
      var last := names[|names| - 1];
      assert names == names[..|names| - 1] + [last];
      BaseData(rows, names[..|names| - 1])[Col(last) := ColumnOf(rows, last)]
  }

  function ColumnOf(rows: seq<LogRecord>, name: string): (col: seq<Cell>)
    ensures |col| == |rows|
  {
    seq(|rows|, i requires 0 <= i < |rows| => CellOf(rows[i], name))
  }

  /**
   * _query_logs for a non-empty query: the selected rows sorted by (user, date),
   * followed by the weekday and month of each row's date.
   */
  function QueryFrame(logs: seq<LogRecord>): (f: Frame)
    requires AllValidDates(logs)
    ensures |f.users| == |logs|
  {
    var rows := SortLogs(logs);
    SortedValid(logs);
    CalendarNotQueried();
    FrameOfRows(rows, QueryNames)
  }

  lemma {:induction false} SortedValid(logs: seq<LogRecord>)
    requires AllValidDates(logs)
    ensures AllValidDates(SortLogs(logs))
  {
    var rows := SortLogs(logs);
    forall i | 0 <= i < |rows| ensures ValidDate(rows[i].date) {
      assert rows[i] in multiset(logs);
    }
  }

  /** The key columns of the rows and their selected columns, before the calendar columns are added. */
  function BaseFrame(rows: seq<LogRecord>, names: seq<string>): (f: Frame)
    ensures |f.users| == |rows| && |f.dates| == |rows| && |f.meds| == |rows|
    ensures f.cols == Cols(names) && f.data == BaseData(rows, names) && f.users == UsersOf(rows)
    ensures forall i :: 0 <= i < |rows| ==> f.dates[i] == rows[i].date && f.meds[i] == rows[i].medsTaken
  {
    Frame(
      UsersOf(rows),
      seq(|rows|, i requires 0 <= i < |rows| => rows[i].date),
      seq(|rows|, i requires 0 <= i < |rows| => rows[i].medsTaken),
      Cols(names),
      BaseData(rows, names))
  }

  /** The frame of rows already in query order: the selected columns, then weekday and month. */
  function FrameOfRows(rows: seq<LogRecord>, names: seq<string>): (f: Frame)
    requires AllValidDates(rows)
    requires "weekday" !in names && "month" !in names
    ensures |f.users| == |rows| && |f.dates| == |rows| && |f.meds| == |rows|
    ensures f.cols == Cols(names) + [Col("weekday"), Col("month")]
    ensures f.users == UsersOf(rows)
  {
    CalendarColsFresh(names);
    Set(Set(BaseFrame(rows, names), Col("weekday"), WeekdayColumn(rows)), Col("month"), MonthColumn(rows))
  }

  /** df["date"].dt.weekday: Monday is 0. */
  function WeekdayColumn(rows: seq<LogRecord>): (col: seq<Cell>)
    requires AllValidDates(rows)
    ensures |col| == |rows|
  {
    seq(|rows|, i requires 0 <= i < |rows| => Some(Weekday(rows[i].date) as real))
  }

  /** df["date"].dt.month. */
  function MonthColumn(rows: seq<LogRecord>): (col: seq<Cell>)
    ensures |col| == |rows|
  {
    seq(|rows|, i requires 0 <= i < |rows| => Some(rows[i].date.month as real))
  }

  lemma {:induction false} CalendarColsFresh(names: seq<string>)
    requires "weekday" !in names && "month" !in names
    ensures Col("weekday") !in Cols(names)
    ensures Col("month") !in Cols(names) + [Col("weekday")]
  {
    var cs := Cols(names);
    forall k | 0 <= k < |cs| ensures cs[k] != Col("weekday") && cs[k] != Col("month") {
      assert cs[k] == Col(names[k]);
      assert names[k] in names;
    }
    assert "month"[0] != "weekday"[0];
  }

  lemma CalendarNotQueried()
    ensures "weekday" !in QueryNames && "month" !in QueryNames
  {
  }

  /** Each selected column holds the rows' values in row order; weekday is date.weekday() and month the date's month. */
  lemma {:induction false} FrameOfRowsColumns(rows: seq<LogRecord>, names: seq<string>, i: nat)
    requires AllValidDates(rows) && i < |rows|
    requires "weekday" !in names && "month" !in names
    ensures forall name :: name in names ==> Get(FrameOfRows(rows, names), Col(name))[i] == CellOf(rows[i], name)
    ensures Get(FrameOfRows(rows, names), Col("weekday"))[i] == Some(Weekday(rows[i].date) as real)
    ensures Get(FrameOfRows(rows, names), Col("month"))[i] == Some(rows[i].date.month as real)
  {
    var f := FrameOfRows(rows, names);
    forall name | name in names ensures Get(f, Col(name))[i] == CellOf(rows[i], name) {
      assert Col(name) != Col("weekday") && Col(name) != Col("month");
      assert Get(f, Col(name)) == ColumnOf(rows, name);
    }
  }

  /** A selected column, whole: the rows' values in row order. */
  lemma {:induction false} FrameOfRowsColumn(rows: seq<LogRecord>, names: seq<string>, name: string)
    requires AllValidDates(rows) && name in names
    requires "weekday" !in names && "month" !in names
    ensures Get(FrameOfRows(rows, names), Col(name)) == ColumnOf(rows, name)
  {
    assert Col(name) != Col("weekday") && Col(name) != Col("month");
  }

  /** The query frame's rows are sorted by user, so each user's rows form one block. */
  lemma {:induction false} QueryFrameSorted(logs: seq<LogRecord>)
    requires AllValidDates(logs)
    ensures QueryFrame(logs).users == UsersOf(SortLogs(logs))
    ensures SortedGroups(QueryFrame(logs).users)
  {
    SortedValid(logs);
    CalendarNotQueried();
    SortedUsers(SortLogs(logs));
  }

  // ---------------------------------------------------------------- lags, deltas and rolling columns

  /** The columns given a one-row lag, in assignment order. */
  const LagCols: seq<string> := [
    TargetOcc, "sleep_hours", "stress_level", "caffeine_mg", "hydration_liters",
    "alcohol_consumption", "weather_pressure_hpa", "weather_temp_c", "weather_humidity"]
  /** The weather columns given a day-over-day difference. */
  const DeltaCols: seq<string> := ["weather_pressure_hpa", "weather_temp_c", "weather_humidity"]
  /** The columns given a trailing rolling mean, for every window. */
  const RollCols: seq<string> := [
    "sleep_hours", "stress_level", "caffeine_mg", "hydration_liters", "alcohol_consumption", "heavy_meals"]

  /** df[f"{col}_lag1"] = g[col].shift(1) for each col in turn. */
  function WithLags(f: Frame, names: seq<string>): (r: Frame)
    ensures r.users == f.users && r.dates == f.dates && r.meds == f.meds
    decreases |names|
  {
    if names == [] then f
    else
      var g := WithLags(f, names[..|names| - 1]);
      var col := names[|names| - 1];
      Set(g, Lag1(col), Lag(g.users, Get(g, Col(col))))
  }

  /** df[f"{col}_delta1"] = df[col] - df[f"{col}_lag1"] for each col in turn. */
  function WithDeltas(f: Frame, names: seq<string>): (r: Frame)
    ensures r.users == f.users && r.dates == f.dates && r.meds == f.meds
    decreases |names|
  {
    if names == [] then f
    else
      var g := WithDeltas(f, names[..|names| - 1]);
      var col := names[|names| - 1];
      Set(g, Delta1(col), Delta(Get(g, Col(col)), Get(g, Lag1(col))))
  }

  /** df[f"{col}_roll_mean_{w}"] = g[col].shift(1).rolling(w, min_periods=1).mean() for each col in turn. */
  function WithRollMeans(f: Frame, w: Window, names: seq<string>): (r: Frame)
    ensures r.users == f.users && r.dates == f.dates && r.meds == f.meds
    decreases |names|
  {
    if names == [] then f
    else
      var g := WithRollMeans(f, w, names[..|names| - 1]);
      var col := names[|names| - 1];
      Set(g, RollMean(col, w), RollingMean(Lag(g.users, Get(g, Col(col))), w))
  }

  /** For each window: the rolling means, then df[f"migraine_roll_sum_{w}"] over the lagged occurrence flag. */
  function WithRolls(f: Frame, windows: seq<Window>, names: seq<string>): (r: Frame)
    ensures r.users == f.users && r.dates == f.dates && r.meds == f.meds
    decreases |windows|
  {
    if windows == [] then f
    else
      var w := windows[|windows| - 1];
      var g := WithRollMeans(WithRolls(f, windows[..|windows| - 1], names), w, names);
      Set(g, RollSum(w), RollingSum(Lag(g.users, Get(g, Col(TargetOcc))), w))
  }

  /** _add_group_lags_and_rolls as a function of the frame it extends. */
  function LagsAndRolls(f: Frame, cfg: MLConfig): (r: Frame)
    ensures r.users == f.users && r.dates == f.dates && r.meds == f.meds
  {
    WithRolls(WithDeltas(WithLags(f, LagCols), DeltaCols), cfg.rollWindows, RollCols)
  }

  /**
   * What every column of the extended frame holds, stated column by column
   * from the raw columns alone: a lag is the grouped shift of its raw column, a
   * delta the raw column minus that lag, a rolling mean or sum aggregates the
   * lagged raw column, and every other column is left as it was.
   */
  function DerivedColumn(f: Frame, cfg: MLConfig, c: ColName): seq<Cell> {
    match c
    case Lag1(b) =>
      if b in LagCols then Lag(f.users, Get(f, Col(b))) else Get(f, c)
    case Delta1(b) =>
      if b in DeltaCols then Delta(Get(f, Col(b)), Lag(f.users, Get(f, Col(b)))) else Get(f, c)
    case RollMean(b, w) =>
      if b in RollCols && w in cfg.rollWindows then RollingMean(Lag(f.users, Get(f, Col(b))), w) else Get(f, c)
    case RollSum(w) =>
      if w in cfg.rollWindows then RollingSum(Lag(f.users, Get(f, Col(TargetOcc))), w) else Get(f, c)
    case Col(_) => Get(f, c)
  }

  lemma {:induction false} WithLagsGet(f: Frame, names: seq<string>, c: ColName)
    ensures Get(WithLags(f, names), c) ==
      if c.Lag1? && c.base in names then Lag(f.users, Get(f, Col(c.base))) else Get(f, c)
    decreases |names|
  {
    if names != [] {
      var init := names[..|names| - 1];
      var col := names[|names| - 1];
      assert names == init + [col];
      WithLagsGet(f, init, c);
      WithLagsGet(f, init, Col(col));
    }
  }

  lemma {:induction false} WithDeltasGet(f: Frame, names: seq<string>, c: ColName)
    ensures Get(WithDeltas(f, names), c) ==
      if c.Delta1? && c.base in names then Delta(Get(f, Col(c.base)), Get(f, Lag1(c.base))) else Get(f, c)
    decreases |names|
  {
    if names != [] {
      var init := names[..|names| - 1];
      var col := names[|names| - 1];
      assert names == init + [col];
      WithDeltasGet(f, init, c);
      WithDeltasGet(f, init, Col(col));
      WithDeltasGet(f, init, Lag1(col));
    }
  }

  lemma {:induction false} WithRollMeansGet(f: Frame, w: Window, names: seq<string>, c: ColName)
    ensures Get(WithRollMeans(f, w, names), c) ==
      if c.RollMean? && c.window == w && c.base in names then RollingMean(Lag(f.users, Get(f, Col(c.base))), w) else Get(f, c)
    decreases |names|
  {
    if names != [] {
      var init := names[..|names| - 1];
      var col := names[|names| - 1];
      assert names == init + [col];
      WithRollMeansGet(f, w, init, c);
      WithRollMeansGet(f, w, init, Col(col));
    }
  }

  /** One window's worth of rolling columns, read back: the new means and sum, every other column unchanged. */
  lemma {:induction false} RollStepGet(h: Frame, w: Window, names: seq<string>, c: ColName)
    ensures var g := WithRollMeans(h, w, names);
      Get(Set(g, RollSum(w), RollingSum(Lag(g.users, Get(g, Col(TargetOcc))), w)), c) ==
        if c.RollMean? && c.base in names && c.window == w then RollingMean(Lag(h.users, Get(h, Col(c.base))), w)
        else if c == RollSum(w) then RollingSum(Lag(h.users, Get(h, Col(TargetOcc))), w)
        else Get(h, c)
  {
    var g := WithRollMeans(h, w, names);
    WithRollMeansGet(h, w, names, c);
    WithRollMeansGet(h, w, names, Col(TargetOcc));
  }

  lemma {:induction false} WithRollsGet(f: Frame, windows: seq<Window>, names: seq<string>, c: ColName)
    ensures Get(WithRolls(f, windows, names), c) ==
      if c.RollMean? && c.base in names && c.window in windows then RollingMean(Lag(f.users, Get(f, Col(c.base))), c.window)
      else if c.RollSum? && c.window in windows then RollingSum(Lag(f.users, Get(f, Col(TargetOcc))), c.window)
      else Get(f, c)
    decreases |windows|
  {
    if windows != [] {
      var init := windows[..|windows| - 1];
      var w := windows[|windows| - 1];
      assert windows == init + [w];
      var h := WithRolls(f, init, names);
      RollStepGet(h, w, names, c);
      WithRollsGet(f, init, names, c);
      WithRollsGet(f, init, names, Col(TargetOcc));
      if c.RollMean? {
        WithRollsGet(f, init, names, Col(c.base));
      }
    }
  }

  /** Every column of _add_group_lags_and_rolls' result is the column DerivedColumn describes. */
  lemma {:induction false} LagsAndRollsGet(f: Frame, cfg: MLConfig, c: ColName)
    ensures Get(LagsAndRolls(f, cfg), c) == DerivedColumn(f, cfg, c)
  {
    match c {
      case Col(_) => LagsAndRollsGetUnrolled(f, cfg, c);
      case Lag1(_) => LagsAndRollsGetUnrolled(f, cfg, c);
      case Delta1(_) => LagsAndRollsGetDelta(f, cfg, c);
      case RollMean(_, _) => LagsAndRollsGetMean(f, cfg, c);
      case RollSum(_) => LagsAndRollsGetSum(f, cfg, c);
    }
  }

  lemma {:induction false} LagsAndRollsGetUnrolled(f: Frame, cfg: MLConfig, c: ColName)
    requires c.Col? || c.Lag1?
    ensures Get(LagsAndRolls(f, cfg), c) == DerivedColumn(f, cfg, c)
  {
    var l := WithLags(f, LagCols);
    var d := WithDeltas(l, DeltaCols);
    WithRollsGet(d, cfg.rollWindows, RollCols, c);
    WithDeltasGet(l, DeltaCols, c);
    WithLagsGet(f, LagCols, c);
  }

  lemma {:induction false} LagsAndRollsGetDelta(f: Frame, cfg: MLConfig, c: ColName)
    requires c.Delta1?
    ensures Get(LagsAndRolls(f, cfg), c) == DerivedColumn(f, cfg, c)
  {
    var l := WithLags(f, LagCols);
    var d := WithDeltas(l, DeltaCols);
    WithRollsGet(d, cfg.rollWindows, RollCols, c);
    WithDeltasGet(l, DeltaCols, c);
    WithLagsGet(f, LagCols, c);
    WithLagsGet(f, LagCols, Col(c.base));
    WithLagsGet(f, LagCols, Lag1(c.base));
  }

  lemma {:induction false} LagsAndRollsGetMean(f: Frame, cfg: MLConfig, c: ColName)
    requires c.RollMean?
    ensures Get(LagsAndRolls(f, cfg), c) == DerivedColumn(f, cfg, c)
  {
    var l := WithLags(f, LagCols);
    var d := WithDeltas(l, DeltaCols);
    assert Get(d, Col(c.base)) == Get(f, Col(c.base)) by {
      WithDeltasGet(l, DeltaCols, Col(c.base));
      WithLagsGet(f, LagCols, Col(c.base));
    }
    assert Get(d, c) == Get(f, c) by {
      WithDeltasGet(l, DeltaCols, c);
      WithLagsGet(f, LagCols, c);
    }
    WithRollsGet(d, cfg.rollWindows, RollCols, c);
  }

  lemma {:induction false} LagsAndRollsGetSum(f: Frame, cfg: MLConfig, c: ColName)
    requires c.RollSum?
    ensures Get(LagsAndRolls(f, cfg), c) == DerivedColumn(f, cfg, c)
  {
    var l := WithLags(f, LagCols);
    var d := WithDeltas(l, DeltaCols);
    assert Get(d, Col(TargetOcc)) == Get(f, Col(TargetOcc)) by {
      WithDeltasGet(l, DeltaCols, Col(TargetOcc));
      WithLagsGet(f, LagCols, Col(TargetOcc));
    }
    assert Get(d, c) == Get(f, c) by {
      WithDeltasGet(l, DeltaCols, c);
      WithLagsGet(f, LagCols, c);
    }
    WithRollsGet(d, cfg.rollWindows, RollCols, c);
  }

  // ---------------------------------------------------------------- columns are only ever added

  lemma {:induction false} WithLagsKeeps(f: Frame, names: seq<string>, c: ColName)
    requires c in f.cols
    ensures c in WithLags(f, names).cols
    decreases |names|
  {
    if names != [] {
      WithLagsKeeps(f, names[..|names| - 1], c);
    }
  }

  lemma {:induction false} WithDeltasKeeps(f: Frame, names: seq<string>, c: ColName)
    requires c in f.cols
    ensures c in WithDeltas(f, names).cols
    decreases |names|
  {
    if names != [] {
      WithDeltasKeeps(f, names[..|names| - 1], c);
    }
  }

  lemma {:induction false} WithRollMeansKeeps(f: Frame, w: Window, names: seq<string>, c: ColName)
    requires c in f.cols
    ensures c in WithRollMeans(f, w, names).cols
    decreases |names|
  {
    if names != [] {
      WithRollMeansKeeps(f, w, names[..|names| - 1], c);
    }
  }

  lemma {:induction false} WithRollsKeeps(f: Frame, windows: seq<Window>, names: seq<string>, c: ColName)
    requires c in f.cols
    ensures c in WithRolls(f, windows, names).cols
    decreases |windows|
  {
    if windows != [] {
      var w := windows[|windows| - 1];
      var h := WithRolls(f, windows[..|windows| - 1], names);
      WithRollsKeeps(f, windows[..|windows| - 1], names, c);
      WithRollMeansKeeps(h, w, names, c);
    }
  }

  /** _add_group_lags_and_rolls only adds or overwrites columns: every column of the input is still there. */
  lemma {:induction false} LagsAndRollsKeeps(f: Frame, cfg: MLConfig, c: ColName)
    requires c in f.cols
    ensures c in LagsAndRolls(f, cfg).cols
  {
    WithLagsKeeps(f, LagCols, c);
    WithDeltasKeeps(WithLags(f, LagCols), DeltaCols, c);
    WithRollsKeeps(WithDeltas(WithLags(f, LagCols), DeltaCols), cfg.rollWindows, RollCols, c);
  }

  /** The lag loop: df[f"{col}_lag1"] = g[col].shift(1) for each name. */
  method AddLags(df: DataFrame, names: seq<string>)
    modifies df
    ensures df.Value() == WithLags(old(df.Value()), names)
  {
    ghost var f0 := df.Value();
    for i := 0 to |names|
      invariant df.Value() == WithLags(f0, names[..i])
    {
      var col := names[i];
      df.SetColumn(Lag1(col), Lag(df.users, df.Column(Col(col))));
      assert names[..i + 1][..i] == names[..i];
    }
    assert names[..|names|] == names;
  }

  /** The delta loop: df[f"{col}_delta1"] = df[col] - df[f"{col}_lag1"] for each name. */
  method AddDeltas(df: DataFrame, names: seq<string>)
    modifies df
    ensures df.Value() == WithDeltas(old(df.Value()), names)
  {
    ghost var f0 := df.Value();
    for i := 0 to |names|
      invariant df.Value() == WithDeltas(f0, names[..i])
    {
      var col := names[i];
      df.SetColumn(Delta1(col), Delta(df.Column(Col(col)), df.Column(Lag1(col))));
      assert names[..i + 1][..i] == names[..i];
    }
    assert names[..|names|] == names;
  }

  /** The inner rolling loop for one window: the rolling mean of each lagged column. */
  method AddRollMeans(df: DataFrame, w: Window, names: seq<string>)
    modifies df
    ensures df.Value() == WithRollMeans(old(df.Value()), w, names)
  {
    ghost var f0 := df.Value();
    for k := 0 to |names|
      invariant df.Value() == WithRollMeans(f0, w, names[..k])
    {
      var col := names[k];
      df.SetColumn(RollMean(col, w), RollingMean(Lag(df.users, df.Column(Col(col))), w));
      assert names[..k + 1][..k] == names[..k];
    }
    assert names[..|names|] == names;
  }

  /** The outer rolling loop: for each window, the rolling means and then the migraine rolling sum. */
  method AddRolls(df: DataFrame, windows: seq<Window>, names: seq<string>)
    modifies df
    ensures df.Value() == WithRolls(old(df.Value()), windows, names)
  {
    ghost var f0 := df.Value();
    for j := 0 to |windows|
      invariant df.Value() == WithRolls(f0, windows[..j], names)
    {
      var w := windows[j];
      AddRollMeans(df, w, names);
      df.SetColumn(RollSum(w), RollingSum(Lag(df.users, df.Column(Col(TargetOcc))), w));
      assert windows[..j + 1][..j] == windows[..j];
    }
    assert windows[..|windows|] == windows;
  }

  /**
   * _add_group_lags_and_rolls: assigns the lag, delta and rolling columns into
   * the frame in place: the lags, then the deltas, then per window the rolling means and the roll sum.
   */
  method AddGroupLagsAndRolls(df: DataFrame, cfg: MLConfig)
    modifies df
    ensures df.Value() == LagsAndRolls(old(df.Value()), cfg)
  {
    AddLags(df, LagCols);
    AddDeltas(df, DeltaCols);
    AddRolls(df, cfg.rollWindows, RollCols);
  }
}

=== FILE: forms.dfy ===
/**
 * DailyLogForm of tracker/forms.py: the ten editable fields with the widgets
 * Django picks for them, the date widget's "max" set to today's ISO date, the
 * CSS class every widget receives, and the check that refuses future dates.
 */
module Forms {
  import opened Wrappers
  import opened Text
  import opened Models

  /** Meta.fields: the only DailyLog fields the form reads from a request. */
  const EditableFields: seq<string> := [
    "date", "sleep_hours", "physical_activity_minutes", "stress_level", "caffeine_mg",
    "had_migraine", "migraine_intensity", "migraine_duration_hours", "meds_taken", "notes"]

  /** The other DailyLog fields: the owner, the timestamp, the extra daily inputs and the weather snapshot. */
  const OtherFields: seq<string> := [
    "user", "created_at", "menstruation", "physical_activity_difficulty", "heavy_meals",
    "hydration_liters", "alcohol_consumption", "weather_temp_c", "weather_humidity",
    "weather_pressure_hpa", "weather_wind_speed", "weather_cloudiness", "weather_description"]

  /** Ten distinct editable fields, none of which is one a request must not set. */
  lemma EditableFieldsExclude()
    ensures |EditableFields| == 10
    ensures forall i, j :: 0 <= i < j < |EditableFields| ==> EditableFields[i] != EditableFields[j]
    ensures forall f :: f in OtherFields ==> f !in EditableFields
  {
  }

  // ---------------------------------------------------------------- dates

  /** date.isoformat(): YYYY-MM-DD. */
  function IsoFormat(d: Date): (s: string)
    requires ValidDate(d)
    ensures s == ZeroPad(d.year, 4) + "-" + ZeroPad(d.month, 2) + "-" + ZeroPad(d.day, 2)
    ensures |s| >= 10
  {
    var parts := IsoParts(d);
    assert Join(parts[1..], '-') == parts[1] + "-" + parts[2] by {
      assert parts[1..][1..] == [parts[2]];
    }
    assert |parts[0]| >= 4 && |parts[1]| >= 2 && |parts[2]| >= 2;
    Join(parts, '-')
  }

  function IsoParts(d: Date): (parts: seq<string>)
    requires ValidDate(d)
    ensures parts == [ZeroPad(d.year, 4), ZeroPad(d.month, 2), ZeroPad(d.day, 2)]
    ensures forall k :: 0 <= k < 3 ==> '-' !in parts[k]
  {
    var y, m, dd := ZeroPad(d.year, 4), ZeroPad(d.month, 2), ZeroPad(d.day, 2);
    DigitsHaveNoDash(y);
    DigitsHaveNoDash(m);
    DigitsHaveNoDash(dd);
    [y, m, dd]
  }

  lemma DigitsHaveNoDash(s: string)
    requires forall i :: 0 <= i < |s| ==> IsDigit(s[i])
    ensures '-' !in s
  {
  }

  /** An ISO date splits at '-' into its zero-padded year, month and day. */
  lemma IsoFormatSplits(d: Date)
    requires ValidDate(d)
    ensures Split(IsoFormat(d), '-') == [ZeroPad(d.year, 4), ZeroPad(d.month, 2), ZeroPad(d.day, 2)]
  {
    SplitJoin(IsoParts(d), '-');
  }

  const FutureDateMessage: string := "You cannot log a future date."

  /** clean_date: a date after today is refused; any other comes back unchanged. */
  function CleanDate(d: Date, today: Date): (r: Outcome<Date>)
    ensures r.Raised? <==> !DateLe(d, today)
    ensures r.Raised? ==> r.message == FutureDateMessage
    ensures r.Returned? ==> r.value == d
  {
    if !DateLe(d, today) then Raised(FutureDateMessage) else Returned(d)
  }

  /** Today itself is accepted, and so is every earlier date; the day after today is not. */
  lemma CleanDateBoundary(today: Date, d: Date)
    ensures CleanDate(today, today) == Returned(today)
    ensures DateLe(d, today) ==> CleanDate(d, today) == Returned(d)
    ensures CleanDate(Date(today.year, today.month, today.day + 1), today).Raised?
  {
  }

  // ---------------------------------------------------------------- widgets

  /** The widget classes the form's fields end up with. */
  datatype WidgetKind = DateInput | NumberInput | CheckboxInput | TextInput | Textarea

  /**
   * Meta.widgets for date and notes; otherwise the ModelForm default for the
   * model field: BooleanField gives a checkbox, CharField a text input, and
   * the integer and float fields a number input.
   */
  function DefaultWidget(field: string): WidgetKind {
    if field == "date" then DateInput
    else if field == "notes" then Textarea
    else if field == "had_migraine" then CheckboxInput
    else if field == "meds_taken" then TextInput
    else NumberInput
  }

  /** The attrs Meta.widgets gives: type="date" for the date, rows=3 for the notes. */
  function InitialAttrs(field: string): map<string, string> {
    if field == "date" then map["type" := "date"]
    else if field == "notes" then map["rows" := "3"]
    else map[]
  }

  const CheckboxClass: string := "form-check-input"
  const InputClass: string := "form-control form-control-sm log-input"

  function WidgetClass(kind: WidgetKind): string {
    if kind == CheckboxInput then CheckboxClass else InputClass
  }

  /** The widget of every editable field, in field order. */
  function FormWidgets(): (kinds: seq<WidgetKind>)
    ensures |kinds| == |EditableFields|
    ensures forall i :: 0 <= i < |kinds| ==> (kinds[i] == CheckboxInput <==> EditableFields[i] == "had_migraine")
  {
    seq(|EditableFields|, i requires 0 <= i < |EditableFields| => DefaultWidget(EditableFields[i]))
  }

  /**
   * The attrs of every widget that Meta.widgets and __init__ set, in field
   * order. The attrs Django's own field classes add on top of these are
   * not part of this map.
   */
  function FormAttrs(today: Date): (attrs: seq<map<string, string>>)
    requires ValidDate(today)
    ensures |attrs| == |EditableFields|
  {
    seq(|EditableFields|, i requires 0 <= i < |EditableFields| =>
      (if i == 0 then InitialAttrs(EditableFields[i])["max" := IsoFormat(today)] else InitialAttrs(EditableFields[i]))
        ["class" := WidgetClass(DefaultWidget(EditableFields[i]))])
  }

  /**
   * After __init__: the date widget is a date picker capped at today's ISO
   * date; every widget has a class, "form-check-input" exactly for the one
   * checkbox (had_migraine) and the input class for the rest; the notes keep
   * rows=3.
   */
  lemma FormAttrsShape(today: Date, i: nat)
    requires ValidDate(today) && i < |EditableFields|
    ensures FormAttrs(today)[0]["type"] == "date" && FormAttrs(today)[0]["max"] == IsoFormat(today)
    ensures FormAttrs(today)[9]["rows"] == "3"
    ensures "class" in FormAttrs(today)[i]
    ensures FormAttrs(today)[i]["class"] == CheckboxClass <==> EditableFields[i] == "had_migraine"
    ensures FormAttrs(today)[i]["class"] == InputClass <==> EditableFields[i] != "had_migraine"
  {
    var a := FormAttrs(today);
    var f := EditableFields[i];
    assert a[i] == (if i == 0 then InitialAttrs(f)["max" := IsoFormat(today)] else InitialAttrs(f))["class" := WidgetClass(DefaultWidget(f))];
    assert a[i]["class"] == WidgetClass(DefaultWidget(f));
    assert CheckboxClass != InputClass by { assert CheckboxClass[6] != InputClass[6]; }
    WidgetOfField(i);
  }

  /** Only had_migraine, the sixth editable field, gets a checkbox. */
  lemma WidgetOfField(i: nat)
    requires i < |EditableFields|
    ensures DefaultWidget(EditableFields[i]) == CheckboxInput <==> i == 5
    ensures EditableFields[i] == "had_migraine" <==> i == 5
  {
  }

  /** The form instance: its fields in order, their widgets, and each widget's attrs, which __init__ edits in place. */
  class DailyLogForm {
    var names: seq<string>
    var kinds: seq<WidgetKind>
    var attrs: seq<map<string, string>>

    predicate Valid()
      reads this
    {
      |kinds| == |names| && |attrs| == |names|
    }

    /**
     * DailyLogForm(): build the fields, cap the date at today, then style
     * every widget; `attrs` holds the attrs Meta.widgets and __init__ set.
     */
    constructor (today: Date)
      requires ValidDate(today)
      ensures Valid()
      ensures names == EditableFields
      ensures kinds == FormWidgets()
      ensures attrs == FormAttrs(today)
    {
      names := EditableFields;
      kinds := FormWidgets();
      attrs := seq(|EditableFields|, i requires 0 <= i < |EditableFields| => InitialAttrs(EditableFields[i]));
      new;
      attrs := attrs[0 := attrs[0]["max" := IsoFormat(today)]];
      ghost var capped := attrs;
      assert forall i :: 0 <= i < |capped| ==>
        capped[i] == if i == 0 then InitialAttrs(EditableFields[i])["max" := IsoFormat(today)] else InitialAttrs(EditableFields[i]);
      StyleWidgets();
      forall i | 0 <= i < |attrs| ensures attrs[i] == capped[i]["class" := WidgetClass(DefaultWidget(EditableFields[i]))] {
        assert kinds[i] == DefaultWidget(EditableFields[i]);
      }
    }

    /** The loop of __init__: each widget's attrs gain the class for its kind, and nothing else changes. */
    method StyleWidgets()
      requires Valid()
      modifies this
      ensures Valid()
      ensures names == old(names) && kinds == old(kinds)
      ensures |attrs| == |old(attrs)|
      ensures forall i :: 0 <= i < |attrs| ==> attrs[i] == old(attrs)[i]["class" := WidgetClass(kinds[i])]
    {
      for i := 0 to |names|
        invariant Valid() && names == old(names) && kinds == old(kinds) && |attrs| == |old(attrs)|
        invariant forall j :: 0 <= j < i ==> attrs[j] == old(attrs)[j]["class" := WidgetClass(kinds[j])]
        invariant forall j :: i <= j < |attrs| ==> attrs[j] == old(attrs)[j]
      {
        attrs := attrs[i := attrs[i]["class" := WidgetClass(kinds[i])]];
      }
    }
  }
}

=== FILE: frames.dfy ===
/**
 * The DataFrame that tracker/ml/features.py builds and extends: column names
 * (the literal ones and the f-string ones the builder derives), a frame value
 * whose key columns are user, date and meds_taken and whose other columns are
 * numeric cells, column assignment with pandas' append-or-overwrite rule, and a
 * mutable DataFrame object for the code that assigns columns in place.
 */
module Frames {
  import opened Wrappers
  import opened Config
  import opened Text
  import opened Models
  import opened Series

  // ---------------------------------------------------------------- column names

  /** A column name, kept structured so that derived names can be told apart by construction. */
  datatype ColName =
    | Col(name: string)                     // a column named by a literal
    | Lag1(base: string)                    // f"{col}_lag1"
    | Delta1(base: string)                  // f"{col}_delta1"
    | RollMean(base: string, window: Window) // f"{col}_roll_mean_{w}"
    | RollSum(window: Window)               // f"migraine_roll_sum_{w}"

  /** The column's name as pandas sees it. */
  function Render(c: ColName): string {
    match c
    case Col(n) => n
    case Lag1(b) => b + "_lag1"
    case Delta1(b) => b + "_delta1"
    case RollMean(b, w) => b + "_roll_mean_" + NatToString(w)
    case RollSum(w) => "migraine_roll_sum_" + NatToString(w)
  }

  const RawNumericCols: seq<string> := [
    "sleep_hours", "physical_activity_minutes", "physical_activity_difficulty", "stress_level",
    "caffeine_mg", "heavy_meals", "hydration_liters", "alcohol_consumption",
    "weather_temp_c", "weather_humidity", "weather_pressure_hpa"]
  const RawBoolCols: seq<string> := ["menstruation"]
  const TargetOcc: string := "had_migraine"
  const TargetInt: string := "migraine_intensity"
  const TargetDur: string := "migraine_duration_hours"

  /** The numeric columns the log query selects, in selection order (user_id, date and meds_taken are the frame's key columns). */
  const QueryNames: seq<string> := RawNumericCols + RawBoolCols + [TargetOcc, TargetInt, TargetDur]

  // ---------------------------------------------------------------- frames

  /**
   * A DataFrame with one row per log. `cols` is the column order of the
   * numeric columns and `data` their contents; users, dates and meds are the
   * user_id, date and meds_taken columns.
   */
  datatype Frame = Frame(users: seq<int>, dates: seq<Date>, meds: seq<string>, cols: seq<ColName>, data: map<ColName, seq<Cell>>)

  /** Every numeric column has one cell per row, and `cols` lists each stored column once. */
  ghost predicate WellFormed(f: Frame) {
    && |f.dates| == |f.users| && |f.meds| == |f.users|
    && (forall c :: c in f.data <==> c in f.cols)
    && (forall c :: c in f.data ==> |f.data[c]| == |f.users|)
    && (forall j, k :: 0 <= j < k < |f.cols| ==> f.cols[j] != f.cols[k])
  }

  /** df[c], read as a column of the frame's length (a column the frame does not hold reads as all missing). */
  function Get(f: Frame, c: ColName): (r: seq<Cell>)
    ensures |r| == |f.users|
  {
    if c in f.data && |f.data[c]| == |f.users| then f.data[c] else seq(|f.users|, _ => None)
  }

  /** df[c] = v: a new column is appended after the existing ones, an existing column keeps its place and is overwritten. */
  function Set(f: Frame, c: ColName, v: seq<Cell>): (r: Frame)
    requires |v| == |f.users|
    ensures r.users == f.users && r.dates == f.dates && r.meds == f.meds
    ensures Get(r, c) == v
    ensures forall d {:trigger Get(r, d)} :: d != c ==> Get(r, d) == Get(f, d)
    ensures c in f.cols ==> r.cols == f.cols
    ensures c !in f.cols ==> r.cols == f.cols + [c]
  {
    Frame(f.users, f.dates, f.meds, if c in f.cols then f.cols else f.cols + [c], f.data[c := v])
  }

  /** In a well-formed frame, df[c] reads the stored column. */
  lemma GetStored(f: Frame, c: ColName)
    requires WellFormed(f) && c in f.data
    ensures Get(f, c) == f.data[c]
  {
  }

  /** Assignment keeps a frame well formed: one cell per row, and each column listed once. */
  lemma {:induction false} SetWellFormed(f: Frame, c: ColName, v: seq<Cell>)
    requires |v| == |f.users| && WellFormed(f)
    ensures WellFormed(Set(f, c, v))
  {
    var r := Set(f, c, v);
    if c !in f.cols {
      forall j, k | 0 <= j < k < |r.cols| ensures r.cols[j] != r.cols[k] {
        if k == |f.cols| {
          assert r.cols[j] == f.cols[j];
        }
      }
    }
  }

  /** The mutable frame the builder assigns columns into. */
  class DataFrame {
    var users: seq<int>
    var dates: seq<Date>
    var meds: seq<string>
    var cols: seq<ColName>
    var data: map<ColName, seq<Cell>>

    function Value(): Frame
      reads this
    {
      Frame(users, dates, meds, cols, data)
    }

    constructor FromFrame(f: Frame)
      ensures Value() == f
    {
      users, dates, meds, cols, data := f.users, f.dates, f.meds, f.cols, f.data;
    }

    function Column(c: ColName): (r: seq<Cell>)
      reads this
      ensures |r| == |users|
    {
      Get(Value(), c)
    }

    /** df[c] = v, in place. */
    method SetColumn(c: ColName, v: seq<Cell>)
      requires |v| == |users|
      modifies this
      ensures Value() == Set(old(Value()), c, v)
    {
      if c !in cols {
        cols := cols + [c];
      }
      data := data[c := v];
    }
  }
}

=== FILE: models.dfy ===
/**
 * The DailyLog table of tracker/models.py: calendar dates as Python's
 * datetime.date sees them, one stored row as a value (what the ML query reads),
 * the mutable model instance with its field validators and clean(), and the
 * unique (user, date) constraint.
 */
module Models {
  import opened Wrappers

  // ---------------------------------------------------------------- dates

  datatype Date = Date(year: int, month: int, day: int)

  function DaysInMonth(year: int, month: int): int
    requires 1 <= month <= 12
  {
    if month == 2 then (if IsLeap(year) then 29 else 28)
    else if month in {4, 6, 9, 11} then 30
    else 31
  }

  predicate IsLeap(year: int) {
    year % 4 == 0 && (year % 100 != 0 || year % 400 == 0)
  }

  /** datetime.date accepts years 1..9999 and real calendar days only. */
  predicate ValidDate(d: Date) {
    1 <= d.year <= 9999 && 1 <= d.month <= 12 && 1 <= d.day <= DaysInMonth(d.year, d.month)
  }

  /** Dates compare as (year, month, day) tuples. */
  predicate DateLe(a: Date, b: Date) {
    a.year < b.year || (a.year == b.year && (a.month < b.month || (a.month == b.month && a.day <= b.day)))
  }

  function DaysBeforeMonth(year: int, month: int): int
    requires 1 <= month <= 12
  {
    [0, 31, 59, 90, 120, 151, 181, 212, 243, 273, 304, 334][month - 1]
      + (if month > 2 && IsLeap(year) then 1 else 0)
  }

  /** date.toordinal(): day 1 is 0001-01-01. */
  function Ordinal(d: Date): int
    requires ValidDate(d)
  {
    var y := d.year - 1;
    y * 365 + y / 4 - y / 100 + y / 400 + DaysBeforeMonth(d.year, d.month) + d.day
  }

  /** date.weekday(): Monday is 0 and Sunday is 6. */
  function Weekday(d: Date): (w: int)
    requires ValidDate(d)
    ensures 0 <= w < 7
  {
    (Ordinal(d) + 6) % 7
  }

  /** The first of January 2024 was a Monday. */
  lemma WeekdayOfKnownMonday()
    ensures Weekday(Date(2024, 1, 1)) == 0
  {
    assert Ordinal(Date(2024, 1, 1)) == 738886;
  }

  /** Consecutive calendar days have consecutive weekdays, wrapping Sunday to Monday. */
  lemma {:induction false} NextDayWeekday(d: Date)
    requires ValidDate(d) && d.day < DaysInMonth(d.year, d.month)
    ensures ValidDate(Date(d.year, d.month, d.day + 1))
    ensures Weekday(Date(d.year, d.month, d.day + 1)) == (Weekday(d) + 1) % 7
  {
    var e := Date(d.year, d.month, d.day + 1);
    var o := Ordinal(d);
    assert Ordinal(e) == o + 1;
    WeekdayStep(o);
  }

  lemma WeekdayStep(o: int)
    ensures (o + 1 + 6) % 7 == ((o + 6) % 7 + 1) % 7
  {
  }

  // ---------------------------------------------------------------- stored rows

  /** The columns of one DailyLog row that the ML query selects (weather fields may be NULL). */
  datatype LogRecord = LogRecord(
    user: int,
    date: Date,
    sleepHours: real,
    activityMinutes: int,
    activityDifficulty: int,
    stressLevel: int,
    caffeineMg: int,
    heavyMeals: int,
    hydrationLiters: real,
    alcohol: int,
    tempC: Option<real>,
    humidity: Option<int>,
    pressureHpa: Option<int>,
    menstruation: bool,
    medsTaken: string,
    hadMigraine: bool,
    intensity: Option<int>,
    durationHours: Option<real>)

  predicate SameKey(a: LogRecord, b: LogRecord) {
    a.user == b.user && a.date == b.date
  }

  /** The UniqueConstraint uniq_log_per_user_per_date: at most one row per (user, date). */
  predicate UniquePerUserDate(table: seq<LogRecord>) {
    forall i, j :: 0 <= i < j < |table| ==> !SameKey(table[i], table[j])
  }

  /** Inserting a row: the database refuses (IntegrityError, here None) a second row for the same (user, date). */
  function InsertLog(table: seq<LogRecord>, r: LogRecord): (res: Option<seq<LogRecord>>)
    ensures res.Some? <==> forall i :: 0 <= i < |table| ==> !SameKey(table[i], r)
    ensures res.Some? ==> res.value == table + [r]
    ensures UniquePerUserDate(table) && res.Some? ==> UniquePerUserDate(res.value)
  {
    if exists i :: 0 <= i < |table| && SameKey(table[i], r) then None else Some(table + [r])
  }

  // ---------------------------------------------------------------- clean()

  /** The four fields clean() reads or rewrites. */
  datatype MigraineFields = MigraineFields(hadMigraine: bool, intensity: Option<int>, duration: Option<real>, meds: string)

  /** The shape clean() leaves behind: a migraine day carries intensity and duration, any other day carries none of the migraine-only fields. */
  predicate Consistent(f: MigraineFields) {
    if f.hadMigraine then f.intensity.Some? && f.duration.Some?
    else f.intensity.None? && f.duration.None? && f.meds == ""
  }

  datatype CleanOutcome = Cleaned(fields: MigraineFields) | Invalid(field: string, message: string)

  /** What DailyLog.clean does to the migraine fields, as a function of their values before the call. */
  function CleanFields(f: MigraineFields): (r: CleanOutcome)
    ensures r.Invalid? <==> f.hadMigraine && (f.intensity.None? || f.duration.None?)
    ensures r.Invalid? ==> r.field == (if f.intensity.None? then "migraine_intensity" else "migraine_duration_hours")
    ensures r.Cleaned? ==> Consistent(r.fields) && r.fields.hadMigraine == f.hadMigraine
    ensures r.Cleaned? && f.hadMigraine ==> r.fields == f
    ensures Consistent(f) ==> r == Cleaned(f)
  {
    if !f.hadMigraine then
      Cleaned(MigraineFields(false, None, None, ""))
    else if f.intensity.None? then
      Invalid("migraine_intensity", "Required when 'Had migraine' is checked.")
    else if f.duration.None? then
      Invalid("migraine_duration_hours", "Required when 'Had migraine' is checked.")
    else
      Cleaned(f)
  }

  /** clean() is idempotent: cleaning an already cleaned record changes nothing and raises nothing. */
  lemma {:induction false} CleanIdempotent(f: MigraineFields)
    requires CleanFields(f).Cleaned?
    ensures CleanFields(CleanFields(f).fields) == CleanFields(f)
  {
    var g := CleanFields(f).fields;
    assert Consistent(g);
  }

  /** Helper of ValidatorErrors: one validator's contribution to the error list, given whether its bound holds. */
  function Failing(ok: bool, field: string): (errors: seq<string>)
    ensures errors == [] <==> ok
  {
    if ok then [] else [field]
  }

  /** A DailyLog model instance. */
  class DailyLog {
    var user: int
    var date: Date
    var sleepHours: real
    var physicalActivityMinutes: int
    var stressLevel: int
    var caffeineMg: int
    var physicalActivityDifficulty: int
    var heavyMeals: int
    var hydrationLiters: real
    var alcoholConsumption: int
    var menstruation: bool
    var hadMigraine: bool
    var migraineIntensity: Option<int>
    var migraineDurationHours: Option<real>
    var medsTaken: string
    var notes: string
    var weatherTempC: Option<real>
    var weatherHumidity: Option<int>
    var weatherPressureHpa: Option<int>

    /**
     * A new row. The owner, the date, sleep_hours, physical_activity_minutes,
     * stress_level and caffeine_mg have no default and are parameters; every
     * other field takes its declared default (difficulty, meals, alcohol 0;
     * hydration 0.0; flags false; text blank; intensity, duration and weather
     * NULL).
     */
    constructor (user: int, date: Date, sleepHours: real, activityMinutes: int, stressLevel: int, caffeineMg: int)
      ensures this.user == user && this.date == date && this.sleepHours == sleepHours
      ensures physicalActivityMinutes == activityMinutes && this.stressLevel == stressLevel && this.caffeineMg == caffeineMg
      ensures physicalActivityDifficulty == 0 && heavyMeals == 0 && hydrationLiters == 0.0 && alcoholConsumption == 0
      ensures !menstruation && !hadMigraine && migraineIntensity.None? && migraineDurationHours.None?
      ensures medsTaken == "" && notes == ""
      ensures weatherTempC.None? && weatherHumidity.None? && weatherPressureHpa.None?
    {
      this.user := user;
      this.date := date;
      this.sleepHours := sleepHours;
      physicalActivityMinutes := activityMinutes;
      this.stressLevel := stressLevel;
      this.caffeineMg := caffeineMg;
      physicalActivityDifficulty := 0;
      heavyMeals := 0;
      hydrationLiters := 0.0;
      alcoholConsumption := 0;
      menstruation := false;
      hadMigraine := false;
      migraineIntensity := None;
      migraineDurationHours := None;
      medsTaken := "";
      notes := "";
      weatherTempC := None;
      weatherHumidity := None;
      weatherPressureHpa := None;
    }

    function Fields(): MigraineFields
      reads this
    {
      MigraineFields(hadMigraine, migraineIntensity, migraineDurationHours, medsTaken)
    }

    /**
     * The names of the fields whose Min/MaxValueValidator fails, in declaration
     * order; NULL intensity and duration are not validated.
     */
    function ValidatorErrors(): (errors: seq<string>)
      reads this
      ensures errors == [] <==>
        && 0.0 <= sleepHours <= 24.0
        && 0 <= physicalActivityMinutes <= 1440
        && 1 <= stressLevel <= 5
        && 0 <= caffeineMg <= 3000
        && 0 <= physicalActivityDifficulty <= 5
        && 0 <= heavyMeals <= 5
        && 0.0 <= hydrationLiters <= 20.0
        && 0 <= alcoholConsumption <= 5
        && (migraineIntensity.Some? ==> 0 <= migraineIntensity.value <= 10)
        && (migraineDurationHours.Some? ==> 0.0 <= migraineDurationHours.value <= 72.0)
    {
      Failing(0.0 <= sleepHours <= 24.0, "sleep_hours")
      + Failing(0 <= physicalActivityMinutes <= 1440, "physical_activity_minutes")
      + Failing(1 <= stressLevel <= 5, "stress_level")
      + Failing(0 <= caffeineMg <= 3000, "caffeine_mg")
      + Failing(0 <= physicalActivityDifficulty <= 5, "physical_activity_difficulty")
      + Failing(0 <= heavyMeals <= 5, "heavy_meals")
      + Failing(0.0 <= hydrationLiters <= 20.0, "hydration_liters")
      + Failing(0 <= alcoholConsumption <= 5, "alcohol_consumption")
      + Failing(migraineIntensity.None? || 0 <= migraineIntensity.value <= 10, "migraine_intensity")
      + Failing(migraineDurationHours.None? || 0.0 <= migraineDurationHours.value <= 72.0, "migraine_duration_hours")
    }

    /**
     * DailyLog.clean(): on a day without a migraine, wipe intensity, duration
     * and medication; on a migraine day demand intensity, then duration.
     * A raised ValidationError is returned as Some(field) and leaves the row as it was.
     */
    method Clean() returns (error: Option<string>)
      modifies this`migraineIntensity, this`migraineDurationHours, this`medsTaken
      ensures CleanFields(old(Fields())).Invalid? ==>
        error == Some(CleanFields(old(Fields())).field) && Fields() == old(Fields())
      ensures CleanFields(old(Fields())).Cleaned? ==>
        error.None? && Fields() == CleanFields(old(Fields())).fields
      ensures error.None? ==> Consistent(Fields())
    {
      if !hadMigraine {
        migraineIntensity := None;
        migraineDurationHours := None;
        medsTaken := "";
        error := None;
      } else if migraineIntensity.None? {
        error := Some("migraine_intensity");
      } else if migraineDurationHours.None? {
        error := Some("migraine_duration_hours");
      } else {
        error := None;
      }
    }

    /** The row as the ML query reads it with .values(...). */
    function Record(): (r: LogRecord)
      reads this
      ensures r.user == user && r.date == date && r.hadMigraine == hadMigraine
      ensures r.intensity == migraineIntensity && r.durationHours == migraineDurationHours
    {
      LogRecord(user, date, sleepHours, physicalActivityMinutes, physicalActivityDifficulty, stressLevel,
                caffeineMg, heavyMeals, hydrationLiters, alcoholConsumption, weatherTempC, weatherHumidity,
                weatherPressureHpa, menstruation, medsTaken, hadMigraine, migraineIntensity, migraineDurationHours)
    }
  }
}

=== FILE: predict.dfy ===
/**
 * tracker/ml/predict.py: next-day risk from the user's latest feature row,
 * scored by the global model and, when the user has one, blended with the
 * personal model by a weight that grows with the user's history.
 */
module Predict {
  import opened Wrappers
  import opened Config
  import opened Features
  import opened Dataset
  import opened Estimators
  import opened Storage
  import opened Explain
  import TrainGlobal

  // ---------------------------------------------------------------- blend weight

  /** blend_weight(n, cfg): n / (n + N0) clamped into [0, 1]; a zero denominator raises. */
  function BlendWeight(n: int, cfg: MLConfig): (r: Outcome<real>)
    ensures r.Raised? <==> n + cfg.blendN0 == 0
    ensures r.Returned? ==> 0.0 <= r.value <= 1.0
  {
    if n + cfg.blendN0 == 0 then Raised("division by zero")
    else
      var w := n as real / (n + cfg.blendN0) as real;
      Returned(if w < 0.0 then 0.0 else if w > 1.0 then 1.0 else w)
  }

  lemma MulLe(a: real, b: real, c: real)
    requires a <= b && 0.0 <= c
    ensures a * c <= b * c
  {
  }

  lemma MulLt(x: real, p: real, q: real)
    requires 0.0 < x && p < q
    ensures x * p < x * q && p * x < q * x
  {
  }

  lemma MulCancel(x: real, y: real, c: real)
    requires 0.0 < c && y * c < x * c
    ensures y < x
  {
  }

  /** Within the clamp, the weight is the share n / (n + N0) of user days, below 1. */
  lemma {:induction false} BlendWeightShare(n: nat, cfg: MLConfig)
    requires cfg.blendN0 > 0
    ensures BlendWeight(n, cfg).Returned?
    ensures BlendWeight(n, cfg).value * (n + cfg.blendN0) as real == n as real
    ensures BlendWeight(n, cfg).value < 1.0
  {
    var d := (n + cfg.blendN0) as real;
    var w := n as real / d;
    assert w * d == n as real;
    assert 0.0 <= w;
    MulCancel(1.0, w, d);
  }

  /** With no user days the personal model gets no weight; with N0 of them it gets half. */
  lemma {:induction false} BlendWeightAnchors(cfg: MLConfig)
    requires cfg.blendN0 > 0
    ensures BlendWeight(0, cfg) == Returned(0.0)
    ensures BlendWeight(cfg.blendN0, cfg) == Returned(0.5)
  {
    var n0 := cfg.blendN0 as real;
    assert n0 / (n0 + n0) == 0.5;
  }

  /** More user days strictly increase the weight (for N0 > 0). */
  lemma {:induction false} BlendWeightIncreasing(n: nat, m: nat, cfg: MLConfig)
    requires cfg.blendN0 > 0 && n < m
    ensures BlendWeight(n, cfg).Returned? && BlendWeight(m, cfg).Returned?
    ensures BlendWeight(n, cfg).value < BlendWeight(m, cfg).value
  {
    BlendWeightShare(n, cfg);
    BlendWeightShare(m, cfg);
    var k := cfg.blendN0 as real;
    var dn := n as real + k;
    var dm := m as real + k;
    // 1 - w(n) = k / (n + k) shrinks as the denominator grows
    var x := 1.0 - BlendWeight(n, cfg).value;
    var y := 1.0 - BlendWeight(m, cfg).value;
    assert x * dn == k;
    assert y * dm == k;
    ShareShrinks(x, y, dn, dm, k);
  }

  /** k / dn > k / dm when 0 < dn < dm. */
  lemma ShareShrinks(x: real, y: real, dn: real, dm: real, k: real)
    requires 0.0 < k && 0.0 < dn < dm && x * dn == k && y * dm == k
    ensures y < x
  {
    MulCancel(x, 0.0, dn);
    MulLt(x, dn, dm);
    MulCancel(x, y, dm);
  }

  /** With the default configuration, 120 days of history weigh the two models equally. */
  lemma DefaultHalfWeight()
    ensures BlendWeight(120, DefaultConfig()) == Returned(0.5)
  {
    BlendWeightAnchors(DefaultConfig());
  }

  // ---------------------------------------------------------------- clipping

  const ClipLow: real := 0.0001
  const ClipHigh: real := 0.9999

  /** np.clip(p, 1e-4, 1 - 1e-4) */
  function Clip(p: real): (r: real)
    ensures ClipLow <= r <= ClipHigh
    ensures ClipLow <= p <= ClipHigh ==> r == p
    ensures p < ClipLow ==> r == ClipLow
    ensures p > ClipHigh ==> r == ClipHigh
  {
    if p < ClipLow then ClipLow else if p > ClipHigh then ClipHigh else p
  }

  // ---------------------------------------------------------------- loaders

  /** _load_global_occurrence(): the saved global bundle, None when absent; raises when the setting is unset. */
  function LoadGlobalOccurrence(modelsDir: Option<Path>, store: Store): (r: Outcome<Option<Bundle>>)
    ensures r.Raised? <==> modelsDir.None?
    ensures r.Raised? ==> r.message == UnsetMessage
    ensures r.Returned? ==> (r.value.Some? <==> ModelPaths(modelsDir.value).GlobalOccurrence() in store)
    ensures r.Returned? && r.value.Some? ==> r.value.value == store[ModelPaths(modelsDir.value).GlobalOccurrence()]
  {
    match GetModelPaths(modelsDir)
    case Raised(m) => Raised(m)
    case Returned(paths) =>
      if !ModelExists(store, paths.GlobalOccurrence()) then Returned(None)
      else
        match LoadModel(store, paths.GlobalOccurrence())
        case Raised(m) => Raised(m)
        case Returned(obj) => Returned(Some(obj))
  }

  /** _load_user_occurrence(user_id): the user's saved bundle, None when absent; raises when the setting is unset. */
  function LoadUserOccurrence(userId: int, modelsDir: Option<Path>, store: Store): (r: Outcome<Option<Bundle>>)
    ensures r.Raised? <==> modelsDir.None?
    ensures r.Raised? ==> r.message == UnsetMessage
    ensures r.Returned? ==> (r.value.Some? <==> ModelPaths(modelsDir.value).UserOccurrence(userId) in store)
    ensures r.Returned? && r.value.Some? ==> r.value.value == store[ModelPaths(modelsDir.value).UserOccurrence(userId)]
  {
    match GetModelPaths(modelsDir)
    case Raised(m) => Raised(m)
    case Returned(paths) =>
      var p := paths.UserOccurrence(userId);
      if !ModelExists(store, p) then Returned(None)
      else
        match LoadModel(store, p)
        case Raised(m) => Raised(m)
        case Returned(obj) => Returned(Some(obj))
  }

  /** A training run that saved a bundle makes the matching loader find exactly that bundle. */
  lemma SavedModelIsLoaded(modelsDir: Option<Path>, store: Store, obj: Bundle, userId: int)
    requires modelsDir.Some?
    ensures var saved := SaveModel(store, modelsDir, obj, ModelPaths(modelsDir.value).GlobalOccurrence()).value;
      LoadGlobalOccurrence(modelsDir, saved) == Returned(Some(obj))
    ensures var saved := SaveModel(store, modelsDir, obj, ModelPaths(modelsDir.value).UserOccurrence(userId)).value;
      LoadUserOccurrence(userId, modelsDir, saved) == Returned(Some(obj))
  {
    SaveThenLoad(store, modelsDir, obj, ModelPaths(modelsDir.value).GlobalOccurrence(), []);
    SaveThenLoad(store, modelsDir, obj, ModelPaths(modelsDir.value).UserOccurrence(userId), []);
  }

  // ---------------------------------------------------------------- predict_next_day_risk

  const GlobalMissing: string := "Global model not trained yet"
  const NoLogs: string := "No logs for user"
  const GlobalOnly: string := "global_only"
  const Blended: string := "blended"

  /** top_k used when predict asks for an explanation. */
  const DefaultTopK: nat := 5

  /** The response dictionary: ok = False with a reason, or the scored prediction. */
  datatype Prediction =
    | NotOk(reason: string)
    | Ok(pGlobal: real, pUser: Option<real>, pFinal: real, blendWeight: real, explain: Option<Explanation>, used: string)

  /** explain_linear_prediction(pipe, X_last) when asked for, else None. */
  function MaybeExplain(pipe: Fitted, row: Row, withExplain: bool): (r: Outcome<Option<Explanation>>)
    ensures !withExplain ==> r == Returned(None)
    ensures withExplain ==> (r.Raised? <==> ExplainLinearPrediction(pipe, row, DefaultTopK).Raised?)
    ensures withExplain && r.Returned? ==> r.value == Some(ExplainLinearPrediction(pipe, row, DefaultTopK).value)
  {
    if !withExplain then Returned(None)
    else
      match ExplainLinearPrediction(pipe, row, DefaultTopK)
      case Raised(m) => Raised(m)
      case Returned(e) => Returned(Some(e))
  }

  /** w * p_user + (1 - w) * p_global lies between the two probabilities. */
  function Mix(w: real, pUser: real, pGlobal: real): (p: real)
    requires 0.0 <= w <= 1.0
    ensures pUser <= pGlobal ==> pUser <= p <= pGlobal
    ensures pGlobal <= pUser ==> pGlobal <= p <= pUser
  {
    var d := pUser - pGlobal;
    var p := w * pUser + (1.0 - w) * pGlobal;
    assert p == pGlobal + w * d;
    if d >= 0.0 then
      MulLe(0.0, w, d);
      MulLe(w, 1.0, d);
      assert 0.0 <= w * d <= d;
      p
    else
      MulLe(0.0, w, -d);
      MulLe(w, 1.0, -d);
      assert 0.0 <= w * -d <= -d;
      assert d <= w * d <= 0.0;
      p
  }

  /**
   * X.tail(1): the last labelled row. Labels look LABEL_SHIFT_DAYS logs ahead,
   * so this is the user's log that many places before the latest one
   * (Dataset.UserLastRow), not the latest log.
   */
  function LastRow(data: BuiltDataset): (r: Row)
    requires |data.x| > 0
    ensures data.x == data.x[..|data.x| - 1] + [r]
  {
    data.x[|data.x| - 1]
  }

  /**
   * predict_next_day_risk once the global bundle is loaded: `row` is the
   * feature row to score (None when there is none, which answers "No logs
   * for user"), `n` is len(X) for the blend weight.
   */
  function ScoreRow(userId: int, globalObj: Bundle, row: Option<Row>, n: int, cfg: MLConfig, modelsDir: Option<Path>, store: Store, withExplain: bool): (r: Outcome<Prediction>)
    ensures row.None? ==> r == Returned(NotOk(NoLogs))
    ensures row.Some? && r.Returned? ==> r.value.Ok? && r.value.pGlobal == Clip(globalObj.pipeline.proba(row.value))
  {
    match row
    case None => Returned(NotOk(NoLogs))
    case Some(xLast) =>
      var globalPipe := globalObj.pipeline;
      var pGlobal := Clip(globalPipe.proba(xLast));
      match LoadUserOccurrence(userId, modelsDir, store)
      case Raised(m) => Raised(m)
      case Returned(None) =>
        (match MaybeExplain(globalPipe, xLast, withExplain)
         case Raised(m) => Raised(m)
         case Returned(expl) => Returned(Ok(pGlobal, None, pGlobal, 0.0, expl, GlobalOnly)))
      case Returned(Some(userObj)) =>
        var userPipe := userObj.pipeline;
        var pUser := Clip(userPipe.proba(xLast));
        match BlendWeight(n, cfg)
        case Raised(m) => Raised(m)
        case Returned(w) =>
          var pFinal := Mix(w, pUser, pGlobal);
          match MaybeExplain(userPipe, xLast, withExplain)
          case Raised(m) => Raised(m)
          case Returned(expl) => Returned(Ok(pGlobal, Some(pUser), pFinal, w, expl, Blended))
  }

  /**
   * predict_next_day_risk over the user's built dataset: the global model
   * must exist, the dataset must be non-empty, the last row of X is scored,
   * and the user model is blended in only when it exists.
   */
  function PredictFrom(userId: int, data: BuiltDataset, cfg: MLConfig, modelsDir: Option<Path>, store: Store, withExplain: bool): (r: Outcome<Prediction>)
    ensures modelsDir.None? ==> r == Raised(UnsetMessage)
    ensures modelsDir.Some? && ModelPaths(modelsDir.value).GlobalOccurrence() !in store ==> r == Returned(NotOk(GlobalMissing))
    ensures modelsDir.Some? && ModelPaths(modelsDir.value).GlobalOccurrence() in store && data.XEmpty() ==> r == Returned(NotOk(NoLogs))
    ensures r.Returned? && r.value.NotOk? ==> r.value.reason in {GlobalMissing, NoLogs}
  {
    match LoadGlobalOccurrence(modelsDir, store)
    case Raised(m) => Raised(m)
    case Returned(None) => Returned(NotOk(GlobalMissing))
    case Returned(Some(globalObj)) =>
      ScoreRow(userId, globalObj, if data.XEmpty() then None else Some(LastRow(data)), |data.x|, cfg, modelsDir, store, withExplain)
  }

  /**
   * Any scored response: the global model exists and the dataset has a row;
   * p_global is the clipped global probability for the last row; the weight
   * lies in [0, 1]; an explanation is present exactly when asked for; and the
   * response is "global_only" exactly when the user has no saved model.
   */
  lemma ScoredPrediction(userId: int, data: BuiltDataset, cfg: MLConfig, modelsDir: Option<Path>, store: Store, withExplain: bool)
    requires PredictFrom(userId, data, cfg, modelsDir, store, withExplain).Returned?
    requires PredictFrom(userId, data, cfg, modelsDir, store, withExplain).value.Ok?
    ensures modelsDir.Some? && ModelPaths(modelsDir.value).GlobalOccurrence() in store && !data.XEmpty()
    ensures var o := PredictFrom(userId, data, cfg, modelsDir, store, withExplain).value;
      var paths := ModelPaths(modelsDir.value);
      && o.pGlobal == Clip(store[paths.GlobalOccurrence()].pipeline.proba(LastRow(data)))
      && ClipLow <= o.pGlobal <= ClipHigh
      && 0.0 <= o.blendWeight <= 1.0
      && (o.explain.Some? <==> withExplain)
      && (o.used == GlobalOnly <==> paths.UserOccurrence(userId) !in store)
      && (o.used == GlobalOnly || o.used == Blended)
  {
  }

  /**
   * Without a user model the answer is the global one: no user probability,
   * p_final = p_global, weight 0, and the global pipeline explains.
   */
  lemma GlobalOnlyPrediction(userId: int, data: BuiltDataset, cfg: MLConfig, modelsDir: Option<Path>, store: Store, withExplain: bool)
    requires modelsDir.Some? && ModelPaths(modelsDir.value).UserOccurrence(userId) !in store
    requires PredictFrom(userId, data, cfg, modelsDir, store, withExplain).Returned?
    requires PredictFrom(userId, data, cfg, modelsDir, store, withExplain).value.Ok?
    ensures !data.XEmpty() && ModelPaths(modelsDir.value).GlobalOccurrence() in store
    ensures var o := PredictFrom(userId, data, cfg, modelsDir, store, withExplain).value;
      var globalPipe := store[ModelPaths(modelsDir.value).GlobalOccurrence()].pipeline;
      && o.used == GlobalOnly && o.pUser.None? && o.pFinal == o.pGlobal && o.blendWeight == 0.0
      && (withExplain ==> ExplainLinearPrediction(globalPipe, LastRow(data), DefaultTopK).Returned?
                          && o.explain == Some(ExplainLinearPrediction(globalPipe, LastRow(data), DefaultTopK).value))
  {
  }

  /**
   * With a user model the answer is blended: p_user is the clipped user
   * probability, the weight is blend_weight(len(X)), p_final is
   * w * p_user + (1 - w) * p_global and so lies between p_global and p_user,
   * and the user pipeline explains.
   */
  lemma BlendedPrediction(userId: int, data: BuiltDataset, cfg: MLConfig, modelsDir: Option<Path>, store: Store, withExplain: bool)
    requires modelsDir.Some? && ModelPaths(modelsDir.value).UserOccurrence(userId) in store
    requires PredictFrom(userId, data, cfg, modelsDir, store, withExplain).Returned?
    requires PredictFrom(userId, data, cfg, modelsDir, store, withExplain).value.Ok?
    ensures !data.XEmpty()
    ensures var o := PredictFrom(userId, data, cfg, modelsDir, store, withExplain).value;
      var userPipe := store[ModelPaths(modelsDir.value).UserOccurrence(userId)].pipeline;
      && o.used == Blended
      && o.pUser == Some(Clip(userPipe.proba(LastRow(data))))
      && BlendWeight(|data.x|, cfg) == Returned(o.blendWeight)
      && o.pFinal == o.blendWeight * o.pUser.value + (1.0 - o.blendWeight) * o.pGlobal
      && (o.pGlobal <= o.pUser.value ==> o.pGlobal <= o.pFinal <= o.pUser.value)
      && (o.pUser.value <= o.pGlobal ==> o.pUser.value <= o.pFinal <= o.pGlobal)
      && (withExplain ==> ExplainLinearPrediction(userPipe, LastRow(data), DefaultTopK).Returned?
                          && o.explain == Some(ExplainLinearPrediction(userPipe, LastRow(data), DefaultTopK).value))
  {
  }

  /** predict_next_day_risk(user_id, cfg, with_explain): cfg defaults to MLConfig(); the dataset is the user's logs. */
  function PredictNextDayRisk(userId: int, table: TrainGlobal.LogTable, cfg: Option<MLConfig>, modelsDir: Option<Path>, store: Store, withExplain: bool): (r: Outcome<Prediction>)
    ensures modelsDir.None? ==> r == Raised(UnsetMessage)
    ensures modelsDir.Some? && ModelPaths(modelsDir.value).GlobalOccurrence() !in store ==> r == Returned(NotOk(GlobalMissing))
    ensures modelsDir.Some? && ModelPaths(modelsDir.value).GlobalOccurrence() in store && QueryLogs(table, Some(userId)) == [] ==>
      r == Returned(NotOk(NoLogs))
    ensures r.Returned? && r.value.NotOk? ==> r.value.reason in {GlobalMissing, NoLogs}
    ensures r.Returned? && r.value.Ok? ==>
      && modelsDir.Some? && ModelPaths(modelsDir.value).GlobalOccurrence() in store
      && ClipLow <= r.value.pGlobal <= ClipHigh
      && (r.value.explain.Some? <==> withExplain)
  {
    var c := cfg.GetOr(DefaultConfig());
    var data := DatasetOf(table, Some(userId), c);
    EmptyFeaturesIff(table, Some(userId), c);
    var r := PredictFrom(userId, data, c, modelsDir, store, withExplain);
    if r.Returned? && r.value.Ok? then
      ScoredPrediction(userId, data, c, modelsDir, store, withExplain);
      r
    else r
  }

  /**
   * What the default configuration scores: for a user with two or more logs,
   * the feature row of the second-latest log (the latest one is dropped for
   * want of a label); a user with exactly one log gets "No logs for user"
   * even though a log exists.
   */
  lemma {:induction false} ScoresSecondLatestLog(userId: int, table: TrainGlobal.LogTable, modelsDir: Option<Path>, store: Store, withExplain: bool)
    ensures AllValidDates(QueryLogs(table, Some(userId)))
    ensures var logs := QueryLogs(table, Some(userId));
      |logs| == 1 && modelsDir.Some? && ModelPaths(modelsDir.value).GlobalOccurrence() in store ==>
        PredictNextDayRisk(userId, table, None, modelsDir, store, withExplain) == Returned(NotOk(NoLogs))
    ensures var logs := QueryLogs(table, Some(userId)); var ds := DatasetOf(table, Some(userId), DefaultConfig());
      |logs| >= 2 ==> |ds.x| == |logs| - 1 && LastRow(ds) == FeatureRow(LabelledFrame(logs, DefaultConfig()), |logs| - 2)
  {
    var cfg := DefaultConfig();
    var logs := QueryLogs(table, Some(userId));
    var ds := DatasetOf(table, Some(userId), cfg);
    assert cfg.labelShiftDays == 1;
    UserLastRow(table, userId, cfg);
    if |logs| == 1 {
      assert ds.XEmpty();
      assert PredictNextDayRisk(userId, table, None, modelsDir, store, withExplain) == PredictFrom(userId, ds, cfg, modelsDir, store, withExplain);
    }
  }

  /**
   * The evidently intended predict_next_day_risk: the same answer built from
   * the feature row of the user's latest log, which exists for every user
   * with at least one log.
   */
  function PredictLatest(userId: int, table: TrainGlobal.LogTable, cfg: Option<MLConfig>, modelsDir: Option<Path>, store: Store, withExplain: bool): Outcome<Prediction>
  {
    var c := cfg.GetOr(DefaultConfig());
    match LoadGlobalOccurrence(modelsDir, store)
    case Raised(m) => Raised(m)
    case Returned(None) => Returned(NotOk(GlobalMissing))
    case Returned(Some(globalObj)) =>
      ScoreRow(userId, globalObj, LatestFeatureRow(table, userId, c), |DatasetOf(table, Some(userId), c).x|, c, modelsDir, store, withExplain)
  }

  /**
   * The intended prediction scores the latest log: once the global model
   * exists, a user with any log is never told "No logs for user", and every
   * answer's p_global is the clipped global probability of the feature row
   * of the user's latest-dated log.
   */
  lemma {:induction false} LatestScoresLatestLog(userId: int, table: TrainGlobal.LogTable, modelsDir: Option<Path>, store: Store, withExplain: bool)
    requires modelsDir.Some? && ModelPaths(modelsDir.value).GlobalOccurrence() in store
    requires QueryLogs(table, Some(userId)) != []
    ensures var r := PredictLatest(userId, table, None, modelsDir, store, withExplain);
      var latest := LatestFeatureRow(table, userId, DefaultConfig());
      && latest.Some?
      && (r.Returned? ==> r.value.Ok?)
      && (r.Returned? ==> r.value.pGlobal == Clip(store[ModelPaths(modelsDir.value).GlobalOccurrence()].pipeline.proba(latest.value)))
  {
    var c := DefaultConfig();
    var latest := LatestFeatureRow(table, userId, c);
    var g := store[ModelPaths(modelsDir.value).GlobalOccurrence()];
    assert LoadGlobalOccurrence(modelsDir, store) == Returned(Some(g));
    var n := |DatasetOf(table, Some(userId), c).x|;
    assert PredictLatest(userId, table, None, modelsDir, store, withExplain) == ScoreRow(userId, g, latest, n, c, modelsDir, store, withExplain);
  }

  /**
   * With the trust constant positive, the personal model's say grows with the
   * user's history: two blended predictions for the same last feature row,
   * from datasets of different length, report the same p_global and p_user,
   * and the longer dataset's p_final lies strictly closer to p_user.
   */
  lemma {:induction false} LongerHistoryLeansToUser(userId: int, d1: BuiltDataset, d2: BuiltDataset, cfg: MLConfig, modelsDir: Option<Path>, store: Store, withExplain: bool)
    requires cfg.blendN0 > 0
    requires modelsDir.Some? && ModelPaths(modelsDir.value).UserOccurrence(userId) in store
    requires PredictFrom(userId, d1, cfg, modelsDir, store, withExplain).Returned?
    requires PredictFrom(userId, d1, cfg, modelsDir, store, withExplain).value.Ok?
    requires PredictFrom(userId, d2, cfg, modelsDir, store, withExplain).Returned?
    requires PredictFrom(userId, d2, cfg, modelsDir, store, withExplain).value.Ok?
    requires |d1.x| < |d2.x| && d1.x != [] && LastRow(d1) == LastRow(d2)
    ensures var o1 := PredictFrom(userId, d1, cfg, modelsDir, store, withExplain).value;
      var o2 := PredictFrom(userId, d2, cfg, modelsDir, store, withExplain).value;
      && o1.pUser.Some? && o1.pGlobal == o2.pGlobal && o1.pUser == o2.pUser
      && (o1.pGlobal < o1.pUser.value ==> o1.pFinal < o2.pFinal)
      && (o1.pUser.value < o1.pGlobal ==> o2.pFinal < o1.pFinal)
  {
    BlendedPrediction(userId, d1, cfg, modelsDir, store, withExplain);
    BlendedPrediction(userId, d2, cfg, modelsDir, store, withExplain);
    var o1 := PredictFrom(userId, d1, cfg, modelsDir, store, withExplain).value;
    var o2 := PredictFrom(userId, d2, cfg, modelsDir, store, withExplain).value;
    BlendWeightIncreasing(|d1.x|, |d2.x|, cfg);
    MixMoves(o1.blendWeight, o2.blendWeight, o1.pUser.value, o1.pGlobal);
  }

  /** g + w d grows with w when d > 0 and shrinks when d < 0. */
  lemma SlopeSign(wn: real, wm: real, d: real, g: real, a: real, b: real)
    requires wn < wm && a == g + wn * d && b == g + wm * d
    ensures d > 0.0 ==> a < b
    ensures d < 0.0 ==> b < a
  {
    if d > 0.0 {
      MulLt(d, wn, wm);
    } else if d < 0.0 {
      MulLt(-d, wn, wm);
    }
  }

  /** Mix as p_global moved the share w of the way to p_user (a helper for MixMoves). */
  lemma MixForm(w: real, pUser: real, pGlobal: real)
    requires 0.0 <= w <= 1.0
    ensures Mix(w, pUser, pGlobal) == pGlobal + w * (pUser - pGlobal)
  {
  }

  /** A larger weight moves the mix strictly toward p_user. */
  lemma MixMoves(wn: real, wm: real, pUser: real, pGlobal: real)
    requires 0.0 <= wn < wm <= 1.0
    ensures pGlobal < pUser ==> Mix(wn, pUser, pGlobal) < Mix(wm, pUser, pGlobal)
    ensures pUser < pGlobal ==> Mix(wm, pUser, pGlobal) < Mix(wn, pUser, pGlobal)
  {
    MixForm(wn, pUser, pGlobal);
    MixForm(wm, pUser, pGlobal);
    SlopeSign(wn, wm, pUser - pGlobal, pGlobal, Mix(wn, pUser, pGlobal), Mix(wm, pUser, pGlobal));
  }
}

=== FILE: preprocess.dfy ===
/**
 * make_preprocess of tracker/ml/preprocess.py: the split of the feature
 * columns into categorical (weekday, month) and numeric ones, and the layout
 * of the ColumnTransformer built over that split. The imputers, the scaler and
 * the encoder are named here, not computed.
 */
module Preprocess {

  /** The discrete calendar features that are one-hot encoded. */
  predicate IsCategorical(c: string) {
    c == "weekday" || c == "month"
  }

  /** [c for c in feature_columns if c in ("weekday", "month")] */
  function Categorical(cols: seq<string>): (cat: seq<string>)
    ensures forall c :: c in cat <==> c in cols && IsCategorical(c)
  {
    if cols == [] then []
    else (if IsCategorical(cols[0]) then [cols[0]] else []) + Categorical(cols[1..])
  }

  /** [c for c in cols if c not in excluded] */
  function NotIn(cols: seq<string>, excluded: seq<string>): (r: seq<string>)
    ensures forall c :: c in r <==> c in cols && c !in excluded
  {
    if cols == [] then []
    else (if cols[0] !in excluded then [cols[0]] else []) + NotIn(cols[1..], excluded)
  }

  /** The numeric columns as the code selects them: the input columns not in the categorical list. */
  function Numeric(cols: seq<string>): (num: seq<string>)
    ensures forall c :: c in num <==> c in cols && !IsCategorical(c)
  {
    NotIn(cols, Categorical(cols))
  }

  /** The reference selection: the input columns that are not categorical, in input order. */
  function NonCategorical(cols: seq<string>): (r: seq<string>)
    ensures forall c :: c in r ==> c in cols && !IsCategorical(c)
  {
    if cols == [] then []
    else (if !IsCategorical(cols[0]) then [cols[0]] else []) + NonCategorical(cols[1..])
  }

  /** Filtering by "not in the categorical list" drops exactly the categorical columns of any suffix. */
  lemma {:induction false} NotInCategorical(cols: seq<string>, excluded: seq<string>)
    requires forall c :: c in cols ==> (c in excluded <==> IsCategorical(c))
    ensures NotIn(cols, excluded) == NonCategorical(cols)
  {
    if cols != [] {
      NotInCategorical(cols[1..], excluded);
    }
  }

  /** The numeric list is the non-categorical columns in input order, duplicates included. */
  lemma NumericIsNonCategorical(cols: seq<string>)
    ensures Numeric(cols) == NonCategorical(cols)
  {
    NotInCategorical(cols, Categorical(cols));
  }

  /**
   * `s` is an order-preserving merge of `a` and `b`: every element of `s` comes
   * from exactly one of them, and each keeps its relative order.
   */
  ghost predicate Interleaves(s: seq<string>, a: seq<string>, b: seq<string>)
    decreases |s|
  {
    if s == [] then a == [] && b == []
    else
      || (a != [] && a[0] == s[0] && Interleaves(s[1..], a[1..], b))
      || (b != [] && b[0] == s[0] && Interleaves(s[1..], a, b[1..]))
  }

  lemma {:induction false} InterleavesCounts(s: seq<string>, a: seq<string>, b: seq<string>)
    requires Interleaves(s, a, b)
    ensures |a| + |b| == |s|
    ensures multiset(a) + multiset(b) == multiset(s)
    decreases |s|
  {
    if s != [] {
      if a != [] && a[0] == s[0] && Interleaves(s[1..], a[1..], b) {
        InterleavesCounts(s[1..], a[1..], b);
        assert a == [a[0]] + a[1..];
      } else {
        InterleavesCounts(s[1..], a, b[1..]);
        assert b == [b[0]] + b[1..];
      }
      assert s == [s[0]] + s[1..];
    }
  }

  /** The input is an order-preserving merge of the categorical and the non-categorical columns. */
  lemma {:induction false} SplitInterleaves(cols: seq<string>)
    ensures Interleaves(cols, Categorical(cols), NonCategorical(cols))
  {
    if cols != [] {
      SplitInterleaves(cols[1..]);
      if IsCategorical(cols[0]) {
        assert Categorical(cols) == [cols[0]] + Categorical(cols[1..]);
        assert NonCategorical(cols) == NonCategorical(cols[1..]);
      } else {
        assert Categorical(cols) == Categorical(cols[1..]);
        assert NonCategorical(cols) == [cols[0]] + NonCategorical(cols[1..]);
      }
    }
  }

  /**
   * The two lists partition the input: no column is in both, every column
   * is in one, the order of each follows the input, and together they hold
   * each column as often as the input does.
   */
  lemma Partition(cols: seq<string>)
    ensures forall c :: !(c in Categorical(cols) && c in Numeric(cols))
    ensures forall c :: c in cols <==> c in Categorical(cols) || c in Numeric(cols)
    ensures Interleaves(cols, Categorical(cols), Numeric(cols))
    ensures multiset(Categorical(cols)) + multiset(Numeric(cols)) == multiset(cols)
  {
    NumericIsNonCategorical(cols);
    SplitInterleaves(cols);
    InterleavesCounts(cols, Categorical(cols), Numeric(cols));
  }

  // ---------------------------------------------------------------- transformer layout

  datatype Strategy = Median | MostFrequent

  /** The preprocessing steps the pipelines chain, named as sklearn names them. */
  datatype Step =
    | SimpleImputer(strategy: Strategy)
    | StandardScaler
    | OneHotEncoder(ignoreUnknown: bool)

  /** One (name, Pipeline(steps), columns) entry of a ColumnTransformer. */
  datatype Branch = Branch(name: string, steps: seq<(string, Step)>, columns: seq<string>)

  datatype ColumnTransformer = ColumnTransformer(
    transformers: seq<Branch>,
    remainderDropped: bool,     // remainder="drop"
    verboseNames: bool)         // verbose_feature_names_out

  /**
   * make_preprocess(feature_columns): "num" (median imputation, then scaling)
   * over the numeric columns, followed by "cat" (most-frequent imputation, then
   * one-hot encoding that ignores unseen categories) over the categorical ones.
   */
  function MakePreprocess(featureColumns: seq<string>): (t: ColumnTransformer)
    ensures |t.transformers| == 2
    ensures t.transformers[0].name == "num" && t.transformers[1].name == "cat"
    ensures t.transformers[0].steps == [("imputer", SimpleImputer(Median)), ("scaler", StandardScaler)]
    ensures t.transformers[1].steps == [("imputer", SimpleImputer(MostFrequent)), ("onehot", OneHotEncoder(true))]
    ensures t.remainderDropped && !t.verboseNames
    ensures forall c :: c in t.transformers[0].columns <==> c in featureColumns && !IsCategorical(c)
    ensures forall c :: c in t.transformers[1].columns <==> c in featureColumns && IsCategorical(c)
  {
    ColumnTransformer(
      [ Branch("num", [("imputer", SimpleImputer(Median)), ("scaler", StandardScaler)], Numeric(featureColumns)),
        Branch("cat", [("imputer", SimpleImputer(MostFrequent)), ("onehot", OneHotEncoder(true))], Categorical(featureColumns))],
      true, false)
  }

  /** The names of the branches whose column list holds `c`, in transformer order. */
  function BranchesOf(branches: seq<Branch>, c: string): (names: seq<string>)
    ensures |names| <= |branches|
  {
    if branches == [] then []
    else (if c in branches[0].columns then [branches[0].name] else []) + BranchesOf(branches[1..], c)
  }

  /**
   * Every input column is routed to exactly one branch, so remainder="drop"
   * drops none of them; each branch keeps the input's column order.
   */
  lemma EveryColumnOnce(featureColumns: seq<string>, c: string)
    requires c in featureColumns
    ensures IsCategorical(c) ==> BranchesOf(MakePreprocess(featureColumns).transformers, c) == ["cat"]
    ensures !IsCategorical(c) ==> BranchesOf(MakePreprocess(featureColumns).transformers, c) == ["num"]
  {
    var b := MakePreprocess(featureColumns).transformers;
    assert b[1..][1..] == [];
    assert BranchesOf(b[1..][1..], c) == [];
  }
}

=== FILE: series.dfy ===
/**
 * Column-level semantics of the pandas operations in tracker/ml/features.py,
 * over one column of a frame whose rows are sorted by user: grouped shifts,
 * element-wise differences, rolling aggregates with min_periods=1, and row
 * selection by a boolean mask. A missing cell (NaN/None) is None.
 */
module Series {
  import opened Wrappers
  import opened Config

  type Cell = Option<real>

  /** Group keys are non-decreasing, so every group is one contiguous block of rows. */
  predicate SortedGroups(groups: seq<int>) {
    forall i, j :: 0 <= i <= j < |groups| ==> groups[i] <= groups[j]
  }

  // ---------------------------------------------------------------- shifts

  /** groupby(...).shift(1) on rows sorted by group: the previous row's value when it belongs to the same group. */
  function Lag(groups: seq<int>, col: seq<Cell>): (r: seq<Cell>)
    requires |col| == |groups|
    ensures |r| == |col|
  {
    seq(|col|, i requires 0 <= i < |col| => if 0 < i && groups[i - 1] == groups[i] then col[i - 1] else None)
  }

  /** groupby(...).shift(-s) on rows sorted by group: the value s rows later when that row belongs to the same group. */
  function Lead(groups: seq<int>, col: seq<Cell>, s: nat): (r: seq<Cell>)
    requires |col| == |groups|
    ensures |r| == |col|
  {
    seq(|col|, i requires 0 <= i < |col| => if i + s < |col| && groups[i + s] == groups[i] then col[i + s] else None)
  }

  /** The nearest row below j in the same group as row i: what a grouped shift(1) reads, whatever the row order. */
  function PrevInGroup(groups: seq<int>, i: nat, j: nat): (r: Option<nat>)
    requires i < |groups| && j <= i
    ensures r.Some? ==> r.value < j && groups[r.value] == groups[i]
    ensures r.Some? ==> forall k :: r.value < k < j ==> groups[k] != groups[i]
    ensures r.None? ==> forall k :: 0 <= k < j ==> groups[k] != groups[i]
  {
    if j == 0 then None
    else if groups[j - 1] == groups[i] then Some(j - 1)
    else PrevInGroup(groups, i, j - 1)
  }

  /** On rows sorted by group, Lag reads exactly the nearest earlier row of the same group, and nothing for a group's first row. */
  lemma {:induction false} LagIsGroupedShift(groups: seq<int>, col: seq<Cell>, i: nat)
    requires SortedGroups(groups) && |col| == |groups| && i < |col|
    ensures Lag(groups, col)[i] == (match PrevInGroup(groups, i, i) case Some(j) => col[j] case None => None)
  {
    if 0 < i && groups[i - 1] != groups[i] {
      assert groups[i - 1] < groups[i];
      forall k | 0 <= k < i ensures groups[k] != groups[i] {
        assert groups[k] <= groups[i - 1];
      }
      assert PrevInGroup(groups, i, i).None?;
    }
  }

  /** One past the last row of row i's group block (or the row count). */
  function GroupEnd(groups: seq<int>, i: nat, j: nat): (r: nat)
    requires i < j <= |groups|
    requires forall k :: i < k < j ==> groups[k] == groups[i]
    ensures j <= r <= |groups|
    ensures forall k :: i < k < r ==> groups[k] == groups[i]
    ensures r < |groups| ==> groups[r] != groups[i]
    decreases |groups| - j
  {
    if j == |groups| || groups[j] != groups[i] then j else GroupEnd(groups, i, j + 1)
  }

  /**
   * On rows sorted by group, the value s rows later is in the same group exactly
   * when the group has at least s more rows after row i; otherwise the grouped
   * shift(-s) leaves the cell missing.
   */
  lemma {:induction false} LeadPresentIff(groups: seq<int>, i: nat, s: nat)
    requires SortedGroups(groups) && i < |groups|
    ensures (i + s < |groups| && groups[i + s] == groups[i]) <==> i + s < GroupEnd(groups, i, i + 1)
  {
    var e := GroupEnd(groups, i, i + 1);
    forall k | e <= k < |groups| ensures groups[k] != groups[i] {
      assert groups[i] <= groups[e] <= groups[k];
    }
  }

  // ---------------------------------------------------------------- deltas

  /** a - b element-wise; missing whenever either side is missing. */
  function Delta(a: seq<Cell>, b: seq<Cell>): (r: seq<Cell>)
    requires |a| == |b|
    ensures |r| == |a|
  {
    seq(|a|, i requires 0 <= i < |a| => if a[i].Some? && b[i].Some? then Some(a[i].value - b[i].value) else None)
  }

  // ---------------------------------------------------------------- rolling

  /** First row of the trailing window of length w that ends at row i. */
  function WindowStart(i: nat, w: Window): nat {
    if i + 1 >= w then i + 1 - w else 0
  }

  /** The non-missing values of a column slice, in order. */
  function Present(s: seq<Cell>): (p: seq<real>)
    ensures |p| <= |s|
  {
    if s == [] then [] else (if s[0].Some? then [s[0].value] else []) + Present(s[1..])
  }

  function Sum(xs: seq<real>): real {
    if xs == [] then 0.0 else xs[0] + Sum(xs[1..])
  }

  /** rolling(w, min_periods=1).sum(): the sum of the non-missing values in the window, missing if there are none. */
  function RollingSum(s: seq<Cell>, w: Window): (r: seq<Cell>)
    ensures |r| == |s|
  {
    seq(|s|, i requires 0 <= i < |s| =>
      var p := Present(s[WindowStart(i, w)..i + 1]);
      if p == [] then None else Some(Sum(p)))
  }

  /** rolling(w, min_periods=1).mean(): the mean of the non-missing values in the window, missing if there are none. */
  function RollingMean(s: seq<Cell>, w: Window): (r: seq<Cell>)
    ensures |r| == |s|
  {
    seq(|s|, i requires 0 <= i < |s| =>
      var p := Present(s[WindowStart(i, w)..i + 1]);
      if p == [] then None else Some(Sum(p) / (|p| as real)))
  }

  predicate AllWithin(xs: seq<real>, lo: real, hi: real) {
    forall k :: 0 <= k < |xs| ==> lo <= xs[k] <= hi
  }

  predicate CellsWithin(s: seq<Cell>, lo: real, hi: real) {
    forall k :: 0 <= k < |s| && s[k].Some? ==> lo <= s[k].value <= hi
  }

  lemma {:induction false} PresentWithin(s: seq<Cell>, lo: real, hi: real)
    requires CellsWithin(s, lo, hi)
    ensures AllWithin(Present(s), lo, hi)
  {
    if s != [] {
      PresentWithin(s[1..], lo, hi);
      var head: seq<real> := if s[0].Some? then [s[0].value] else [];
      assert Present(s) == head + Present(s[1..]);
    }
  }

  lemma {:induction false} SumWithin(xs: seq<real>, lo: real, hi: real)
    requires AllWithin(xs, lo, hi)
    ensures lo * (|xs| as real) <= Sum(xs) <= hi * (|xs| as real)
  {
    if xs != [] {
      SumWithin(xs[1..], lo, hi);
    }
  }

  lemma {:induction false} MeanWithin(xs: seq<real>, lo: real, hi: real)
    requires AllWithin(xs, lo, hi) && xs != []
    ensures lo <= Sum(xs) / (|xs| as real) <= hi
  {
    SumWithin(xs, lo, hi);
    var n := |xs| as real;
    var q := Sum(xs) / n;
    assert q * n == Sum(xs);
    assert (q - lo) * n >= 0.0;
    assert (hi - q) * n >= 0.0;
  }

  /** A rolling mean stays within any bounds that hold for every value of the column. */
  lemma {:induction false} RollingMeanWithin(s: seq<Cell>, w: Window, lo: real, hi: real, i: nat)
    requires CellsWithin(s, lo, hi) && i < |s|
    ensures RollingMean(s, w)[i].Some? ==> lo <= RollingMean(s, w)[i].value <= hi
  {
    var win := s[WindowStart(i, w)..i + 1];
    var p := Present(win);
    assert CellsWithin(win, lo, hi);
    PresentWithin(win, lo, hi);
    if p != [] {
      MeanWithin(p, lo, hi);
    }
  }

  /** A rolling sum of 0/1 flags counts at most w flags. */
  lemma {:induction false} RollingSumOfFlags(s: seq<Cell>, w: Window, i: nat)
    requires CellsWithin(s, 0.0, 1.0) && i < |s|
    ensures RollingSum(s, w)[i].Some? ==> 0.0 <= RollingSum(s, w)[i].value <= w as real
  {
    var win := s[WindowStart(i, w)..i + 1];
    var p := Present(win);
    assert CellsWithin(win, 0.0, 1.0);
    PresentWithin(win, 0.0, 1.0);
    SumWithin(p, 0.0, 1.0);
    assert |win| <= w;
  }

  // ---------------------------------------------------------------- locality

  /** A lag at rows 0..i only reads cells strictly above row i. */
  lemma {:induction false} LagLocal(g1: seq<int>, c1: seq<Cell>, g2: seq<int>, c2: seq<Cell>, i: nat)
    requires |c1| == |g1| && |c2| == |g2| && i < |c1| && i < |c2|
    requires g1[..i + 1] == g2[..i + 1] && c1[..i] == c2[..i]
    ensures Lag(g1, c1)[..i + 1] == Lag(g2, c2)[..i + 1]
  {
    forall j | 0 <= j <= i ensures Lag(g1, c1)[j] == Lag(g2, c2)[j] {
      assert g1[j] == g1[..i + 1][j];
      if 0 < j {
        assert g1[j - 1] == g1[..i + 1][j - 1];
        assert c1[j - 1] == c1[..i][j - 1];
      }
    }
  }

  lemma {:induction false} DeltaLocal(a1: seq<Cell>, b1: seq<Cell>, a2: seq<Cell>, b2: seq<Cell>, i: nat)
    requires |a1| == |b1| && |a2| == |b2| && i < |a1| && i < |a2|
    requires a1[..i + 1] == a2[..i + 1] && b1[..i + 1] == b2[..i + 1]
    ensures Delta(a1, b1)[..i + 1] == Delta(a2, b2)[..i + 1]
  {
    forall j | 0 <= j <= i ensures Delta(a1, b1)[j] == Delta(a2, b2)[j] {
      assert a1[j] == a1[..i + 1][j] && b1[j] == b1[..i + 1][j];
    }
  }

  /** Rolling windows end at their own row, so rows 0..i of the result only read rows 0..i. */
  lemma {:induction false} RollingLocal(s1: seq<Cell>, s2: seq<Cell>, w: Window, i: nat)
    requires i < |s1| && i < |s2| && s1[..i + 1] == s2[..i + 1]
    ensures RollingSum(s1, w)[..i + 1] == RollingSum(s2, w)[..i + 1]
    ensures RollingMean(s1, w)[..i + 1] == RollingMean(s2, w)[..i + 1]
  {
    forall j | 0 <= j <= i
      ensures RollingSum(s1, w)[j] == RollingSum(s2, w)[j]
      ensures RollingMean(s1, w)[j] == RollingMean(s2, w)[j]
    {
      assert s1[WindowStart(j, w)..j + 1] == s1[..i + 1][WindowStart(j, w)..j + 1];
      assert s2[WindowStart(j, w)..j + 1] == s2[..i + 1][WindowStart(j, w)..j + 1];
    }
  }

  // ---------------------------------------------------------------- row selection

  /** The positions of the true entries of a mask, ascending: the rows a boolean .loc / dropna keeps. */
  function Where(keep: seq<bool>): (idx: seq<nat>)
    ensures |idx| <= |keep|
    ensures forall k :: 0 <= k < |idx| ==> idx[k] < |keep| && keep[idx[k]]
    ensures forall k, l :: 0 <= k < l < |idx| ==> idx[k] < idx[l]
    ensures forall i {:trigger i in idx} :: 0 <= i < |keep| && keep[i] ==> i in idx
  {
    if keep == [] then []
    else
      var n := |keep| - 1;
      var front := Where(keep[..n]);
      assert forall k :: 0 <= k < |front| ==> front[k] < n && keep[front[k]];
      front + (if keep[n] then [n] else [])
  }

  /** A mask that holds on exactly the first m rows keeps exactly rows 0..m-1. */
  lemma {:induction false} WherePrefix(keep: seq<bool>, m: nat)
    requires m <= |keep|
    requires forall i :: 0 <= i < |keep| ==> (keep[i] <==> i < m)
    ensures |Where(keep)| == m
    ensures forall k :: 0 <= k < m ==> Where(keep)[k] == k
  {
    if keep != [] {
      var n := |keep| - 1;
      var front := keep[..n];
      if m == |keep| {
        WherePrefix(front, n);
      } else {
        WherePrefix(front, m);
      }
    }
  }

  /** The rows of s at the given positions, in the given order (iloc / .loc with a mask). */
  function Select<T>(s: seq<T>, idx: seq<nat>): (r: seq<T>)
    requires forall k :: 0 <= k < |idx| ==> idx[k] < |s|
    ensures |r| == |idx|
  {
    seq(|idx|, k requires 0 <= k < |idx| => s[idx[k]])
  }
}

=== FILE: storage.dfy ===
/**
 * tracker/ml/storage.py: where the model bundles live (a base directory from
 * the settings, then a fixed layout per scope) and the save/exists/load calls,
 * over a store that maps paths to saved bundles.
 */
module Storage {
  import opened Wrappers
  import opened Text
  import opened Estimators

  /** A filesystem path as its components; `base / "x"` appends one. */
  type Path = seq<string>

  const FileName: string := "latest.joblib"
  const UnsetMessage: string := "ML_MODELS_DIR is not set in settings.py"

  /** ModelPaths(base): the three bundle locations under one base directory. */
  datatype ModelPaths = ModelPaths(base: Path) {

    function GlobalOccurrence(): Path {
      base + ["global", "occurrence", FileName]
    }

    function GlobalSeverity(): Path {
      base + ["global", "severity", FileName]
    }

    function UserOccurrence(userId: int): Path {
      base + ["users", IntToString(userId), "occurrence", FileName]
    }
  }

  /** Every path lies under the base directory and ends in latest.joblib. */
  lemma PathsUnderBase(paths: ModelPaths, userId: int)
    ensures paths.GlobalOccurrence()[..|paths.base|] == paths.base
    ensures paths.GlobalSeverity()[..|paths.base|] == paths.base
    ensures paths.UserOccurrence(userId)[..|paths.base|] == paths.base
    ensures Last(paths.GlobalOccurrence()) == Last(paths.GlobalSeverity()) == Last(paths.UserOccurrence(userId)) == FileName
  {
  }

  function Last(p: Path): string
    requires |p| > 0
  {
    p[|p| - 1]
  }

  /** Distinct users get distinct bundle paths. */
  lemma {:induction false} UserPathInjective(paths: ModelPaths, a: int, b: int)
    requires paths.UserOccurrence(a) == paths.UserOccurrence(b)
    ensures a == b
  {
    assert paths.UserOccurrence(a)[|paths.base| + 1] == IntToString(a);
    assert paths.UserOccurrence(b)[|paths.base| + 1] == IntToString(b);
    IntToStringInjective(a, b);
  }

  /** The global occurrence, global severity and per-user paths never coincide. */
  lemma {:induction false} ScopesDistinct(paths: ModelPaths, userId: int)
    ensures paths.GlobalOccurrence() != paths.GlobalSeverity()
    ensures paths.GlobalOccurrence() != paths.UserOccurrence(userId)
    ensures paths.GlobalSeverity() != paths.UserOccurrence(userId)
  {
    assert paths.GlobalOccurrence()[|paths.base| + 1] == "occurrence";
    assert paths.GlobalSeverity()[|paths.base| + 1] == "severity";
    assert |paths.UserOccurrence(userId)| == |paths.base| + 4;
  }

  /** get_model_paths(): the ML_MODELS_DIR setting, or a RuntimeError when it is unset. */
  function GetModelPaths(modelsDir: Option<Path>): (r: Outcome<ModelPaths>)
    ensures r.Raised? <==> modelsDir.None?
    ensures r.Raised? ==> r.message == UnsetMessage
    ensures r.Returned? ==> r.value.base == modelsDir.value
  {
    match modelsDir
    case None => Raised(UnsetMessage)
    case Some(base) => Returned(ModelPaths(base))
  }

  /** The saved bundles, by path. */
  type Store = map<Path, Bundle>

  /** save_model(obj, path): fails before writing when the setting is unset, else writes obj at path. */
  function SaveModel(store: Store, modelsDir: Option<Path>, obj: Bundle, path: Path): (r: Outcome<Store>)
    ensures r.Raised? <==> modelsDir.None?
    ensures r.Raised? ==> r.message == UnsetMessage
    ensures r.Returned? ==> r.value.Keys == store.Keys + {path}
    ensures r.Returned? ==> forall q :: q in store && q != path ==> r.value[q] == store[q]
  {
    match GetModelPaths(modelsDir)
    case Raised(m) => Raised(m)
    case Returned(_) => Returned(store[path := obj])
  }

  /** model_exists(path) */
  function ModelExists(store: Store, path: Path): bool {
    path in store
  }

  /** load_model(path): the bundle stored there, or the error joblib raises for a missing file. */
  function LoadModel(store: Store, path: Path): (r: Outcome<Bundle>)
    ensures r.Returned? <==> ModelExists(store, path)
  {
    if path in store then Returned(store[path]) else Raised("No such file or directory")
  }

  /** After a successful save, the path exists and loads back the saved bundle; other paths load as before. */
  lemma SaveThenLoad(store: Store, modelsDir: Option<Path>, obj: Bundle, path: Path, other: Path)
    requires modelsDir.Some?
    ensures SaveModel(store, modelsDir, obj, path).Returned?
    ensures ModelExists(SaveModel(store, modelsDir, obj, path).value, path)
    ensures LoadModel(SaveModel(store, modelsDir, obj, path).value, path) == Returned(obj)
    ensures other != path ==> LoadModel(SaveModel(store, modelsDir, obj, path).value, other) == LoadModel(store, other)
  {
  }
}

=== FILE: text.dfy ===
/**
 * String helpers shared by the model: decimal rendering of integers (Python's
 * str(int) and the numbers in f-string column names), zero padding (ISO dates)
 * and JavaScript's String.prototype.split on a one-character separator.
 */
module Text {

  predicate IsDigit(c: char) {
    '0' <= c <= '9'
  }

  function DigitChar(d: nat): (c: char)
    requires d < 10
    ensures IsDigit(c)
  {
    "0123456789"[d]
  }

  lemma {:induction false} DigitCharInjective(a: nat, b: nat)
    requires a < 10 && b < 10
    ensures DigitChar(a) == DigitChar(b) ==> a == b
  {
  }

  /** Decimal digits of n, most significant first, without leading zeros. */
  function NatToString(n: nat): (s: string)
    ensures 1 <= |s|
    ensures forall i :: 0 <= i < |s| ==> IsDigit(s[i])
    ensures n < 10 <==> |s| == 1
  {
    if n < 10 then [DigitChar(n)] else NatToString(n / 10) + [DigitChar(n % 10)]
  }

  lemma {:induction false} NatToStringInjective(a: nat, b: nat)
    requires NatToString(a) == NatToString(b)
    ensures a == b
    decreases a
  {
    var s := NatToString(a);
    if a < 10 {
      assert b < 10;
      DigitCharInjective(a, b);
    } else {
      assert b >= 10;
      assert s == NatToString(a / 10) + [DigitChar(a % 10)];
      assert s == NatToString(b / 10) + [DigitChar(b % 10)];
      assert s[..|s| - 1] == NatToString(a / 10) == NatToString(b / 10);
      assert s[|s| - 1] == DigitChar(a % 10) == DigitChar(b % 10);
      NatToStringInjective(a / 10, b / 10);
      DigitCharInjective(a % 10, b % 10);
    }
  }

  /** Python's str(i) for an int: a leading '-' for negatives. */
  function IntToString(i: int): (s: string)
    ensures 1 <= |s|
    ensures (s[0] == '-') <==> i < 0
  {
    if i < 0 then "-" + NatToString(-i) else NatToString(i)
  }

  lemma {:induction false} IntToStringInjective(a: int, b: int)
    requires IntToString(a) == IntToString(b)
    ensures a == b
  {
    if a < 0 {
      assert b < 0;
      assert IntToString(a)[1..] == NatToString(-a);
      assert IntToString(b)[1..] == NatToString(-b);
      NatToStringInjective(-a, -b);
    } else {
      assert b >= 0;
      NatToStringInjective(a, b);
    }
  }

  /** Decimal rendering of n left-padded with '0' to at least `width` characters ("%0*d"). */
  function ZeroPad(n: nat, width: nat): (s: string)
    ensures |s| == if width <= |NatToString(n)| then |NatToString(n)| else width
    ensures s[|s| - |NatToString(n)|..] == NatToString(n)
    ensures forall i :: 0 <= i < |s| - |NatToString(n)| ==> s[i] == '0'
    ensures forall i :: 0 <= i < |s| ==> IsDigit(s[i])
  {
    var digits := NatToString(n);
    if |digits| >= width then digits else seq(width - |digits|, _ => '0') + digits
  }

  /** JavaScript's s.split(sep) for a one-character separator (never empty: "".split gives [""]). */
  function Split(s: string, sep: char): (parts: seq<string>)
    ensures 1 <= |parts|
    ensures forall k :: 0 <= k < |parts| ==> sep !in parts[k]
  {
    if s == [] then [""]
    else
      var rest := Split(s[1..], sep);
      if s[0] == sep then [""] + rest
      else [[s[0]] + rest[0]] + rest[1..]
  }

  /** parts.join(sep), the inverse of Split. */
  function Join(parts: seq<string>, sep: char): string
    requires 1 <= |parts|
  {
    if |parts| == 1 then parts[0] else parts[0] + [sep] + Join(parts[1..], sep)
  }

  function Count(s: string, c: char): nat {
    if s == [] then 0 else (if s[0] == c then 1 else 0) + Count(s[1..], c)
  }

  /** Split cuts at every separator: one more part than separators. */
  lemma {:induction false} SplitLength(s: string, sep: char)
    ensures |Split(s, sep)| == Count(s, sep) + 1
  {
    if s != [] {
      SplitLength(s[1..], sep);
    }
  }

  /** Rejoining the parts gives back the original string. */
  lemma {:induction false} JoinSplit(s: string, sep: char)
    ensures Join(Split(s, sep), sep) == s
  {
    if s != [] {
      var rest := Split(s[1..], sep);
      JoinSplit(s[1..], sep);
      if s[0] == sep {
        assert Split(s, sep) == [""] + rest;
        assert ([""] + rest)[1..] == rest;
      } else {
        var parts := Split(s, sep);
        assert parts == [[s[0]] + rest[0]] + rest[1..];
        if |rest| == 1 {
          assert Join(parts, sep) == [s[0]] + rest[0];
          assert s == [s[0]] + s[1..];
        } else {
          assert parts[1..] == rest[1..];
          assert Join(rest, sep) == rest[0] + [sep] + Join(rest[1..], sep);
          assert s == [s[0]] + s[1..];
        }
      }
    }
  }

  lemma {:induction false} SplitPrefix(p: string, rest: string, sep: char)
    requires sep !in p
    ensures Split(p + rest, sep) == [p + Split(rest, sep)[0]] + Split(rest, sep)[1..]
  {
    if p != [] {
      var r := Split(rest, sep);
      var big := Split(p[1..] + rest, sep);
      assert big[0] == p[1..] + r[0] && big[1..] == r[1..] by {
        SplitPrefix(p[1..], rest, sep);
      }
      assert Split(p + rest, sep) == [[p[0]] + big[0]] + big[1..] by {
        assert (p + rest)[1..] == p[1..] + rest;
        assert (p + rest)[0] == p[0] && p[0] != sep;
      }
      assert [p[0]] + (p[1..] + r[0]) == p + r[0];
    } else {
      var r := Split(rest, sep);
      assert p + rest == rest;
      assert p + r[0] == r[0];
      assert r == [r[0]] + r[1..];
    }
  }

  /** Splitting a join of separator-free parts gives back the parts. */
  lemma {:induction false} SplitJoin(parts: seq<string>, sep: char)
    requires 1 <= |parts|
    requires forall k :: 0 <= k < |parts| ==> sep !in parts[k]
    ensures Split(Join(parts, sep), sep) == parts
  {
    if |parts| == 1 {
      SplitPrefix(parts[0], "", sep);
      assert parts[0] + "" == parts[0];
    } else {
      var tail := Join(parts[1..], sep);
      SplitJoin(parts[1..], sep);
      SplitPrefix(parts[0], [sep] + tail, sep);
      assert Join(parts, sep) == parts[0] + ([sep] + tail);
      var r := Split([sep] + tail, sep);
      assert r == [""] + parts[1..] by {
        assert ([sep] + tail)[1..] == tail;
        assert ([sep] + tail)[0] == sep;
      }
      assert r[0] == "" && r[1..] == parts[1..];
      assert parts[0] + "" == parts[0];
      assert parts == [parts[0]] + parts[1..];
    }
  }
}

=== FILE: train_global.dfy ===
/**
 * tracker/ml/train_global.py: the chronological train/test split and the
 * control flow of the population-wide trainers (occurrence and severity):
 * which outcome each returns, the shape of its metrics record and what it
 * saves. Fitting and scoring are the given library routines.
 */
module TrainGlobal {
  import opened Wrappers
  import opened Config
  import opened Series
  import opened Models
  import opened Features
  import opened Dataset
  import opened Preprocess
  import opened Estimators
  import opened Storage

  // ---------------------------------------------------------------- positional slicing

  /** s.iloc[:k]: the first k elements, or all of them when k exceeds the length. */
  function Head<T>(s: seq<T>, k: nat): (r: seq<T>)
    ensures |r| == if k <= |s| then k else |s|
    ensures r == s[..|r|]
  {
    if k <= |s| then s[..k] else s
  }

  /** s.iloc[k:]: what follows the first k elements. */
  function Tail<T>(s: seq<T>, k: nat): (r: seq<T>)
    ensures Head(s, k) + r == s
  {
    if k <= |s| then s[k..] else []
  }

  // ---------------------------------------------------------------- truncated float products

  /**
   * int(n * 0.7) and int(n * 0.8) as binary64 arithmetic computes them. The
   * products are rounded before truncation (90 * 0.7 evaluates to
   * 62.99999999999999), so they are given here rather than computed.
   */
  datatype Binary64 = Binary64(times07: nat -> int, times08: nat -> int)

  /** `f(n)` is the floor of n * tenths / 10, or one below it. */
  ghost predicate Truncates(f: nat -> int, tenths: nat) {
    forall n: nat :: n * tenths / 10 - 1 <= f(n) <= n * tenths / 10
  }

  /** How far binary64 rounding can move the two products at row counts below 2^50. */
  ghost predicate Sound(b: Binary64) {
    Truncates(b.times07, 7) && Truncates(b.times08, 8)
  }

  /** The products of a binary64 unit, within one of the exact floor. */
  type FloatUnit = b: Binary64 | Sound(b) witness Binary64((n: nat) => n * 7 / 10, (n: nat) => n * 8 / 10)

  /** The DailyLog table: a DateField holds valid calendar dates only. */
  type LogTable = t: seq<LogRecord> | AllValidDates(t) witness []

  // ---------------------------------------------------------------- _time_split

  datatype Split<X, Y> = Split(xTrain: seq<X>, xTest: seq<X>, yTrain: seq<Y>, yTest: seq<Y>)

  /** The cut of a split of n >= 5 rows: max(1, int(n * 0.7)), pulled back to n - 1 when it reaches n. */
  function SplitCut(n: nat, b: Binary64): (cut: nat)
    requires n >= 5
    ensures 1 <= cut <= n - 1
  {
    var c := if b.times07(n) < 1 then 1 else b.times07(n);
    if c >= n then n - 1 else c
  }

  /**
   * _time_split(X, y): fewer than five rows are used whole for both training
   * and testing; otherwise the first `cut` rows train and the rest test.
   */
  function TimeSplit<X, Y>(x: seq<X>, y: seq<Y>, b: Binary64): (s: Split<X, Y>)
    ensures |x| < 5 ==> s.xTrain == x && s.xTest == x && s.yTrain == y && s.yTest == y
    ensures |x| >= 5 ==> s.xTrain + s.xTest == x && 1 <= |s.xTrain| <= |x| - 1
    ensures |x| >= 5 && |y| == |x| ==> s.yTrain + s.yTest == y && |s.yTrain| == |s.xTrain|
  {
    if |x| < 5 then Split(x, x, y, y)
    else
      var cut := SplitCut(|x|, b);
      Split(Head(x, cut), Tail(x, cut), Head(y, cut), Tail(y, cut))
  }

  /** Neither side of a split of non-empty data is empty, and the split keeps labels beside their rows. */
  lemma {:induction false} SplitSidesNonEmpty<X, Y>(x: seq<X>, y: seq<Y>, b: Binary64)
    requires |x| > 0 && |y| == |x|
    ensures var s := TimeSplit(x, y, b);
      && |s.xTrain| > 0 && |s.xTest| > 0
      && |s.yTrain| == |s.xTrain| && |s.yTest| == |s.xTest|
  {
    var s := TimeSplit(x, y, b);
    if |x| >= 5 {
      assert |s.xTrain| + |s.xTest| == |x| by { assert s.xTrain + s.xTest == x; }
      assert |s.yTrain| + |s.yTest| == |y| by { assert s.yTrain + s.yTest == y; }
    }
  }

  // ---------------------------------------------------------------- metrics helpers

  /** The sum of a label column. */
  function Total(ys: seq<int>): int {
    if ys == [] then 0 else Total(ys[..|ys| - 1]) + ys[|ys| - 1]
  }

  /** y.mean() of a non-empty 0/1 label column: the positive rate. */
  function Mean(ys: seq<int>): real
    requires |ys| > 0
  {
    Total(ys) as real / |ys| as real
  }

  // ---------------------------------------------------------------- trainers

  /** A trainer's returned dictionary. */
  datatype TrainResult =
    | Trained(metrics: Metrics, path: Path)                        // {"ok": True, "metrics", "path"}
    | NotTrained(reason: string)                                   // {"ok": False, "reason"}
    | Declined(reason: string, nDays: int, nPositives: int)        // {"ok": False, "reason", "n_days", "n_positives"}

  /** How a trainer call ends (returned or raised), and the store after it. */
  datatype Run = Run(outcome: Outcome<TrainResult>, store: Store)

  const NoData: string := "No data"
  const NoSeverityData: string := "No migraine-day severity data"

  /** The occurrence metrics of a fitted global model, evaluated on the test side of the split. */
  function OccurrenceReport(data: BuiltDataset, s: Split<Row, int>, pipe: Fitted, lib: Library, cfg: MLConfig): (m: Metrics)
    requires |s.yTrain| > 0 && |s.yTest| > 0
    ensures m.OccurrenceMetrics?
    ensures m.nSamples == |data.x| && m.nTrain == |s.xTrain| && m.nTest == |s.xTest|
    ensures m.auc.Some? <==> BothClasses(s.yTest)
    ensures m.auprc.Some? <==> BothClasses(s.yTest)
    ensures m.featureSchemaVersion == cfg.featureSchemaVersion && m.labelShiftDays == cfg.labelShiftDays
  {
    var pTest := Probabilities(pipe, s.xTest);
    OccurrenceMetrics(
      |data.x|, |s.xTrain|, |s.xTest|,
      Mean(s.yTrain), Mean(s.yTest),
      if BothClasses(s.yTest) then Some(lib.rocAuc(s.yTest, pTest)) else None,
      if BothClasses(s.yTest) then Some(lib.averagePrecision(s.yTest, pTest)) else None,
      lib.brier(s.yTest, pTest), lib.logLoss(s.yTest, pTest),
      cfg.featureSchemaVersion, cfg.labelShiftDays)
  }

  /**
   * The two fits of train_global_occurrence, in order: the SGDClassifier
   * pipeline, whose fitted object is then discarded, and the calibrated
   * classifier, which is kept. The first one that raises ends the call.
   */
  function CalibratedFit(lib: Library, pre: ColumnTransformer, x: seq<Row>, y: seq<int>): (r: Outcome<Fitted>)
    ensures lib.fitGlobalPipeline(pre, x, y).Raised? ==> r == Raised(lib.fitGlobalPipeline(pre, x, y).message)
    ensures lib.fitGlobalPipeline(pre, x, y).Returned? ==> r == lib.calibrateGlobal(pre, x, y)
  {
    match lib.fitGlobalPipeline(pre, x, y)
    case Raised(msg) => Raised(msg)
    case Returned(_) => lib.calibrateGlobal(pre, x, y)
  }

  /**
   * train_global_occurrence once build_dataset has returned `data`: "No data"
   * and nothing saved when X is empty; otherwise the fits run on the training
   * side of the split, and an exception from either ends the call before the
   * models directory is read; after them, an unset directory raises, and a
   * set one receives the calibrated classifier at the global occurrence path.
   */
  function OccurrenceTraining(data: BuiltDataset, cfg: MLConfig, lib: Library, b: Binary64, modelsDir: Option<Path>, store: Store): (run: Run)
    requires |data.x| == |data.yOcc|
    ensures data.XEmpty() ==> run == Run(Returned(NotTrained(NoData)), store)
    ensures !(run.outcome.Returned? && run.outcome.value.Trained?) ==> run.store == store
    ensures !data.XEmpty() ==>
      var s := TimeSplit(data.x, data.yOcc, b);
      var fit := CalibratedFit(lib, MakePreprocess(data.featureColumns), s.xTrain, s.yTrain);
      && (fit.Raised? ==> run == Run(Raised(fit.message), store))
      && (fit.Returned? && modelsDir.None? ==> run == Run(Raised(UnsetMessage), store))
      && (fit.Returned? && modelsDir.Some? ==> run.outcome.Returned? && run.outcome.value.Trained?)
    ensures run.outcome.Returned? && run.outcome.value.Trained? ==>
      var m := run.outcome.value.metrics;
      var s := TimeSplit(data.x, data.yOcc, b);
      var fit := CalibratedFit(lib, MakePreprocess(data.featureColumns), s.xTrain, s.yTrain);
      && modelsDir.Some? && fit.Returned?
      && run.outcome.value.path == ModelPaths(modelsDir.value).GlobalOccurrence()
      && run.store.Keys == store.Keys + {run.outcome.value.path}
      && run.store[run.outcome.value.path] == Bundle(fit.value, m, data.featureColumns)
      && (forall q :: q in store && q != run.outcome.value.path ==> run.store[q] == store[q])
      && m.OccurrenceMetrics?
      && m.nSamples == |data.x| > 0
      && (m.nSamples < 5 ==> m.nTrain == m.nTest == m.nSamples)
      && (m.nSamples >= 5 ==> m.nTrain + m.nTest == m.nSamples && m.nTrain >= 1 && m.nTest >= 1)
      && (m.auc.Some? <==> BothClasses(s.yTest))
      && (m.auprc.Some? <==> BothClasses(s.yTest))
      && m.featureSchemaVersion == cfg.featureSchemaVersion && m.labelShiftDays == cfg.labelShiftDays
  {
    if data.XEmpty() then Run(Returned(NotTrained(NoData)), store)
    else
      var s := TimeSplit(data.x, data.yOcc, b);
      SplitSidesNonEmpty(data.x, data.yOcc, b);
      assert |data.x| >= 5 ==> |s.xTrain| + |s.xTest| == |data.x| by {
        if |data.x| >= 5 { assert s.xTrain + s.xTest == data.x; }
      }
      match CalibratedFit(lib, MakePreprocess(data.featureColumns), s.xTrain, s.yTrain)
      case Raised(msg) => Run(Raised(msg), store)
      case Returned(calibrated) =>
        var metrics := OccurrenceReport(data, s, calibrated, lib, cfg);
        match GetModelPaths(modelsDir)
        case Raised(msg) => Run(Raised(msg), store)
        case Returned(paths) =>
          var path := paths.GlobalOccurrence();
          match SaveModel(store, modelsDir, Bundle(calibrated, metrics, data.featureColumns), path)
          case Raised(msg) => Run(Raised(msg), store)
          case Returned(saved) => Run(Returned(Trained(metrics, path)), saved)
  }

  /**
   * A population whose training side holds a single class never gets a model:
   * with a classifier fit that rejects such labels, the call raises the fit's
   * exception and saves nothing, whether or not the models directory is set.
   */
  lemma OneClassTrainingRaises(data: BuiltDataset, cfg: MLConfig, lib: Library, b: Binary64, modelsDir: Option<Path>, store: Store)
    requires |data.x| == |data.yOcc| && !data.XEmpty()
    requires RejectsOneClass(lib.fitGlobalPipeline)
    requires !BothClasses(TimeSplit(data.x, data.yOcc, b).yTrain)
    ensures OccurrenceTraining(data, cfg, lib, b, modelsDir, store).outcome.Raised?
    ensures OccurrenceTraining(data, cfg, lib, b, modelsDir, store).store == store
  {
    var s := TimeSplit(data.x, data.yOcc, b);
    assert lib.fitGlobalPipeline(MakePreprocess(data.featureColumns), s.xTrain, s.yTrain).Raised?;
  }

  /**
   * A class seen only once on the training side ends the call too: with a
   * two-fold calibration that rejects it, the call raises (from whichever of
   * the two fits raises first) and saves nothing.
   */
  lemma RareClassTrainingRaises(data: BuiltDataset, cfg: MLConfig, lib: Library, b: Binary64, modelsDir: Option<Path>, store: Store, i: nat)
    requires |data.x| == |data.yOcc| && !data.XEmpty()
    requires RejectsRareClass(lib.calibrateGlobal)
    requires var y := TimeSplit(data.x, data.yOcc, b).yTrain; i < |y| && multiset(y)[y[i]] == 1
    ensures OccurrenceTraining(data, cfg, lib, b, modelsDir, store).outcome.Raised?
    ensures OccurrenceTraining(data, cfg, lib, b, modelsDir, store).store == store
  {
    var s := TimeSplit(data.x, data.yOcc, b);
    assert lib.calibrateGlobal(MakePreprocess(data.featureColumns), s.xTrain, s.yTrain).Raised?;
  }

  /** train_global_occurrence(cfg): the population dataset, then the training above. */
  function TrainGlobalOccurrence(table: LogTable, cfg: MLConfig, lib: Library, b: Binary64, modelsDir: Option<Path>, store: Store): (run: Run)
    ensures table == [] ==> run == Run(Returned(NotTrained(NoData)), store)
    ensures !(run.outcome.Returned? && run.outcome.value.Trained?) ==> run.store == store
    ensures run.outcome.Returned? && run.outcome.value.Trained? ==>
      && modelsDir.Some? && run.outcome.value.path == ModelPaths(modelsDir.value).GlobalOccurrence()
      && run.store.Keys == store.Keys + {run.outcome.value.path}
      && (forall q :: q in store && q != run.outcome.value.path ==> run.store[q] == store[q])
  {
    EmptyFeaturesIff(table, None, cfg);
    OccurrenceTraining(DatasetOf(table, None, cfg), cfg, lib, b, modelsDir, store)
  }

  /** The severity metrics of a fitted global regressor, evaluated on the test side of the split. */
  function SeverityReport(data: BuiltDataset, s: Split<Row, real>, pipe: Fitted, lib: Library, cfg: MLConfig): (m: Metrics)
    ensures m.SeverityMetrics?
    ensures m.nSamples == |data.xMigraineDays|
    ensures m.featureSchemaVersion == cfg.featureSchemaVersion && m.labelShiftDays == cfg.labelShiftDays
  {
    SeverityMetrics(
      |data.xMigraineDays|, lib.meanAbsoluteError(s.yTest, Predictions(pipe, s.xTest)),
      cfg.featureSchemaVersion, cfg.labelShiftDays)
  }

  /**
   * train_global_severity once build_dataset has returned `data`: "No
   * migraine-day severity data" and nothing saved when the severity rows are
   * empty; otherwise the regressor is fitted on the training side of the split
   * of the severity rows against their intensities only, an exception from
   * the fit ends the call, an unset directory raises after it, and a set one
   * receives the regressor at the global severity path.
   */
  function SeverityTraining(data: BuiltDataset, cfg: MLConfig, lib: Library, b: Binary64, modelsDir: Option<Path>, store: Store): (run: Run)
    ensures data.SeverityEmpty() ==> run == Run(Returned(NotTrained(NoSeverityData)), store)
    ensures !(run.outcome.Returned? && run.outcome.value.Trained?) ==> run.store == store
    ensures !data.SeverityEmpty() ==>
      var s := TimeSplit(data.xMigraineDays, data.yIntensity, b);
      var fit := lib.fitGlobalSeverity(MakePreprocess(data.featureColumns), s.xTrain, s.yTrain);
      && (fit.Raised? ==> run == Run(Raised(fit.message), store))
      && (fit.Returned? && modelsDir.None? ==> run == Run(Raised(UnsetMessage), store))
      && (fit.Returned? && modelsDir.Some? ==> run.outcome.Returned? && run.outcome.value.Trained?)
    ensures run.outcome.Returned? && run.outcome.value.Trained? ==>
      var s := TimeSplit(data.xMigraineDays, data.yIntensity, b);
      var fit := lib.fitGlobalSeverity(MakePreprocess(data.featureColumns), s.xTrain, s.yTrain);
      && modelsDir.Some? && fit.Returned?
      && run.outcome.value.path == ModelPaths(modelsDir.value).GlobalSeverity()
      && run.outcome.value.metrics.SeverityMetrics?
      && run.outcome.value.metrics.nSamples == |data.xMigraineDays|
      && run.store.Keys == store.Keys + {run.outcome.value.path}
      && run.store[run.outcome.value.path] == Bundle(fit.value, run.outcome.value.metrics, data.featureColumns)
      && (forall q :: q in store && q != run.outcome.value.path ==> run.store[q] == store[q])
  {
    if data.SeverityEmpty() then Run(Returned(NotTrained(NoSeverityData)), store)
    else
      var s := TimeSplit(data.xMigraineDays, data.yIntensity, b);
      match lib.fitGlobalSeverity(MakePreprocess(data.featureColumns), s.xTrain, s.yTrain)
      case Raised(msg) => Run(Raised(msg), store)
      case Returned(pipe) =>
        var metrics := SeverityReport(data, s, pipe, lib, cfg);
        match GetModelPaths(modelsDir)
        case Raised(msg) => Run(Raised(msg), store)
        case Returned(paths) =>
          var path := paths.GlobalSeverity();
          match SaveModel(store, modelsDir, Bundle(pipe, metrics, data.featureColumns), path)
          case Raised(msg) => Run(Raised(msg), store)
          case Returned(saved) => Run(Returned(Trained(metrics, path)), saved)
  }

  /** train_global_severity(cfg): the population dataset, then the training above. */
  function TrainGlobalSeverity(table: LogTable, cfg: MLConfig, lib: Library, b: Binary64, modelsDir: Option<Path>, store: Store): (run: Run)
    ensures table == [] ==> run == Run(Returned(NotTrained(NoSeverityData)), store)
    ensures !(run.outcome.Returned? && run.outcome.value.Trained?) ==> run.store == store
    ensures run.outcome.Returned? && run.outcome.value.Trained? ==>
      && modelsDir.Some? && run.outcome.value.path == ModelPaths(modelsDir.value).GlobalSeverity()
      && run.store.Keys == store.Keys + {run.outcome.value.path}
      && (forall q :: q in store && q != run.outcome.value.path ==> run.store[q] == store[q])
  {
    EmptyFeaturesIff(table, None, cfg);
    SeverityTraining(DatasetOf(table, None, cfg), cfg, lib, b, modelsDir, store)
  }
}

=== FILE: train_user.dfy ===
/**
 * tracker/ml/train_user.py: the eligibility gate for a personal model, the
 * per-user trainer's outcomes, split and metrics record, and the batch loop
 * over all users. Fitting and scoring are the given library routines.
 */
module TrainUser {
  import opened Wrappers
  import opened Config
  import opened Models
  import opened Features
  import opened Dataset
  import opened Preprocess
  import opened Estimators
  import opened Storage
  import opened TrainGlobal

  /** Every label is a 0/1 flag. */
  predicate Flags(ys: seq<int>) {
    forall i :: 0 <= i < |ys| ==> ys[i] == 0 || ys[i] == 1
  }

  /** y_occ.sum() of 0/1 labels counts the positive days. */
  lemma {:induction false} TotalCountsPositives(ys: seq<int>)
    requires Flags(ys)
    ensures Total(ys) == multiset(ys)[1]
  {
    if ys != [] {
      var front := ys[..|ys| - 1];
      TotalCountsPositives(front);
      assert ys == front + [ys[|ys| - 1]];
      assert multiset(ys) == multiset(front) + multiset{ys[|ys| - 1]};
    }
  }

  /**
   * should_train_user_model(y_occ, cfg): over 0/1 labels, a model is trained
   * exactly when there are at least USER_MIN_DAYS labelled days and at least
   * USER_MIN_POSITIVES of them are migraine days.
   */
  function ShouldTrainUserModel(yOcc: seq<int>, cfg: MLConfig): (ok: bool)
    ensures Flags(yOcc) ==> (ok <==> |yOcc| >= cfg.userMinDays && multiset(yOcc)[1] >= cfg.userMinPositives)
  {
    assert Flags(yOcc) ==> Total(yOcc) == multiset(yOcc)[1] by {
      if Flags(yOcc) { TotalCountsPositives(yOcc); }
    }
    |yOcc| >= cfg.userMinDays && Total(yOcc) >= cfg.userMinPositives
  }

  /**
   * On the labels build_dataset returns for a user, the gate opens exactly
   * when the user has at least USER_MIN_DAYS labelled days, at least
   * USER_MIN_POSITIVES of them migraine days.
   */
  lemma UserGate(userId: int, table: LogTable, cfg: MLConfig)
    ensures var y := DatasetOf(table, Some(userId), cfg).yOcc;
      ShouldTrainUserModel(y, cfg) <==> |y| >= cfg.userMinDays && multiset(y)[1] >= cfg.userMinPositives
  {
    LabelsAreFlags(table, Some(userId), cfg);
  }

  /** Appending one label adds it to the positive count. */
  lemma {:induction false} TotalAppend(ys: seq<int>, v: int)
    ensures Total(ys + [v]) == Total(ys) + v
  {
    assert (ys + [v])[..|ys|] == ys;
  }

  /** A user who qualifies keeps qualifying as further non-negative labels are logged. */
  lemma {:induction false} GateMonotone(yOcc: seq<int>, v: int, cfg: MLConfig)
    requires v >= 0
    ensures ShouldTrainUserModel(yOcc, cfg) ==> ShouldTrainUserModel(yOcc + [v], cfg)
  {
    TotalAppend(yOcc, v);
  }

  /** Under the default thresholds: 29 rows with 6 positives decline, 31 with 4 decline, 31 with 5 and 30 with 5 train. */
  lemma {:induction false} DefaultGate(yOcc: seq<int>)
    ensures |yOcc| == 29 && Total(yOcc) == 6 ==> !ShouldTrainUserModel(yOcc, DefaultConfig())
    ensures |yOcc| == 31 && Total(yOcc) == 4 ==> !ShouldTrainUserModel(yOcc, DefaultConfig())
    ensures |yOcc| == 31 && Total(yOcc) == 5 ==> ShouldTrainUserModel(yOcc, DefaultConfig())
    ensures |yOcc| == 30 && Total(yOcc) == 5 ==> ShouldTrainUserModel(yOcc, DefaultConfig())
  {
    var cfg := DefaultConfig();
    assert cfg.userMinDays == 30 && cfg.userMinPositives == 5;
  }

  /** cut = int(n * 0.8) if n >= 50 else max(1, int(n * 0.7)), for the n >= 1 rows of a non-empty X. */
  function UserCut(n: nat, b: FloatUnit): (cut: nat)
    requires n >= 1
    ensures 1 <= cut <= n
    ensures n >= 2 ==> cut <= n - 1
  {
    if n >= 50 then
      assert n * 8 / 10 - 1 <= b.times08(n) <= n * 8 / 10;
      b.times08(n)
    else
      assert n * 7 / 10 - 1 <= b.times07(n) <= n * 7 / 10;
      if b.times07(n) < 1 then 1 else b.times07(n)
  }

  const NoUserData: string := "No data for user"
  const NotEnoughData: string := "Not enough data to train user model"

  /** The user metrics: pos_rate_test, brier and logloss are null exactly when the test side is empty. */
  function UserReport(userId: int, n: nat, s: Split<Row, int>, pipe: Fitted, lib: Library, cfg: MLConfig): (m: Metrics)
    requires |s.yTrain| > 0
    ensures m.UserMetrics? && m.userId == userId && m.nSamples == n
    ensures m.nTrain == |s.xTrain| && m.nTest == |s.xTest|
    ensures m.testPosRate.None? <==> |s.yTest| == 0
    ensures m.testBrier.None? <==> |s.yTest| == 0
    ensures m.testLogloss.None? <==> |s.yTest| == 0
    ensures m.featureSchemaVersion == cfg.featureSchemaVersion && m.labelShiftDays == cfg.labelShiftDays
  {
    var pTest := Probabilities(pipe, s.xTest);
    UserMetrics(
      userId, n, |s.xTrain|, |s.xTest|,
      Mean(s.yTrain),
      if |s.yTest| > 0 then Some(Mean(s.yTest)) else None,
      if |s.yTest| > 0 then Some(lib.brier(s.yTest, pTest)) else None,
      if |s.yTest| > 0 then Some(lib.logLoss(s.yTest, pTest)) else None,
      cfg.featureSchemaVersion, cfg.labelShiftDays)
  }

  /** The user's fit on the training prefix of the rows. */
  function UserFit(data: BuiltDataset, lib: Library, b: FloatUnit): Outcome<Fitted>
    requires |data.x| > 0
  {
    var cut := UserCut(|data.x|, b);
    lib.fitUserOccurrence(MakePreprocess(data.featureColumns), Head(data.x, cut), Head(data.yOcc, cut))
  }

  /**
   * train_user_occurrence once build_dataset has returned the user's `data`:
   * "No data for user" when X is empty, before the gate is looked at; a
   * decline carrying the row and positive counts when the gate refuses;
   * otherwise a fit on the prefix of the rows, whose exception ends the call
   * before the models directory is read; after it, an unset directory raises
   * and a set one receives the model at the user's path.
   */
  function UserTraining(userId: int, data: BuiltDataset, cfg: MLConfig, lib: Library, b: FloatUnit, modelsDir: Option<Path>, store: Store): (run: Run)
    requires |data.x| == |data.yOcc|
    ensures data.XEmpty() ==> run == Run(Returned(NotTrained(NoUserData)), store)
    ensures !(run.outcome.Returned? && run.outcome.value.Trained?) ==> run.store == store
    ensures !data.XEmpty() && !ShouldTrainUserModel(data.yOcc, cfg) ==>
      run == Run(Returned(Declined(NotEnoughData, |data.yOcc|, Total(data.yOcc))), store)
    ensures !data.XEmpty() && ShouldTrainUserModel(data.yOcc, cfg) ==>
      var fit := UserFit(data, lib, b);
      && (fit.Raised? ==> run == Run(Raised(fit.message), store))
      && (fit.Returned? && modelsDir.None? ==> run == Run(Raised(UnsetMessage), store))
      && (fit.Returned? && modelsDir.Some? ==> run.outcome.Returned? && run.outcome.value.Trained?)
    ensures run.outcome.Returned? && run.outcome.value.Trained? ==>
      var m := run.outcome.value.metrics;
      && modelsDir.Some? && |data.x| > 0 && UserFit(data, lib, b).Returned?
      && run.outcome.value.path == ModelPaths(modelsDir.value).UserOccurrence(userId)
      && run.store.Keys == store.Keys + {run.outcome.value.path}
      && run.store[run.outcome.value.path] == Bundle(UserFit(data, lib, b).value, m, data.featureColumns)
      && (forall q :: q in store && q != run.outcome.value.path ==> run.store[q] == store[q])
      && m.UserMetrics? && m.userId == userId
      && m.nSamples == |data.x| == m.nTrain + m.nTest
      && m.nTrain == UserCut(|data.x|, b)
      && (m.nSamples >= 2 ==> m.nTest >= 1)
      && (m.testPosRate.None? <==> m.nTest == 0)
  {
    if data.XEmpty() then Run(Returned(NotTrained(NoUserData)), store)
    else if !ShouldTrainUserModel(data.yOcc, cfg) then
      Run(Returned(Declined(NotEnoughData, |data.yOcc|, Total(data.yOcc))), store)
    else
      var n := |data.x|;
      var cut := UserCut(n, b);
      var s := Split(Head(data.x, cut), Tail(data.x, cut), Head(data.yOcc, cut), Tail(data.yOcc, cut));
      assert |s.xTrain| + |s.xTest| == n by { assert s.xTrain + s.xTest == data.x; }
      assert |s.yTest| == |s.xTest| by { assert s.yTrain + s.yTest == data.yOcc; }
      match UserFit(data, lib, b)
      case Raised(msg) => Run(Raised(msg), store)
      case Returned(pipe) =>
        var metrics := UserReport(userId, n, s, pipe, lib, cfg);
        match GetModelPaths(modelsDir)
        case Raised(msg) => Run(Raised(msg), store)
        case Returned(paths) =>
          var path := paths.UserOccurrence(userId);
          match SaveModel(store, modelsDir, Bundle(pipe, metrics, data.featureColumns), path)
          case Raised(msg) => Run(Raised(msg), store)
          case Returned(saved) => Run(Returned(Trained(metrics, path)), saved)
  }

  /**
   * A user who passes the gate but whose training prefix holds no migraine
   * day (all positives fall in the test side) is not declined: the fit
   * rejects the single class and the call raises, saving nothing.
   */
  lemma {:induction false} NoTrainingPositivesRaises(userId: int, data: BuiltDataset, cfg: MLConfig, lib: Library, b: FloatUnit, modelsDir: Option<Path>, store: Store)
    requires |data.x| == |data.yOcc| && !data.XEmpty() && ShouldTrainUserModel(data.yOcc, cfg)
    requires RejectsOneClass(lib.fitUserOccurrence)
    requires forall i :: 0 <= i < UserCut(|data.x|, b) ==> data.yOcc[i] == 0
    ensures UserTraining(userId, data, cfg, lib, b, modelsDir, store).outcome.Raised?
    ensures UserTraining(userId, data, cfg, lib, b, modelsDir, store).store == store
  {
    var cut := UserCut(|data.x|, b);
    var y := Head(data.yOcc, cut);
    assert !BothClasses(y) by {
      forall i, j | 0 <= i < |y| && 0 <= j < |y| ensures y[i] == y[j] {
        assert y[i] == data.yOcc[i] && y[j] == data.yOcc[j];
      }
    }
    assert UserFit(data, lib, b).Raised?;
  }

  /** Under the default gate a trained user model always has a non-empty test side, so its test metrics are present. */
  lemma DefaultGateLeavesTestRows(userId: int, data: BuiltDataset, lib: Library, b: FloatUnit, modelsDir: Option<Path>, store: Store)
    requires |data.x| == |data.yOcc|
    requires UserTraining(userId, data, DefaultConfig(), lib, b, modelsDir, store).outcome.Returned?
    requires UserTraining(userId, data, DefaultConfig(), lib, b, modelsDir, store).outcome.value.Trained?
    ensures var m := UserTraining(userId, data, DefaultConfig(), lib, b, modelsDir, store).outcome.value.metrics;
      m.UserMetrics? && m.nSamples >= 30 && m.nTest >= 1 && m.testPosRate.Some?
  {
    assert DefaultConfig().userMinDays == 30;
    assert ShouldTrainUserModel(data.yOcc, DefaultConfig());
  }

  /** train_user_occurrence(user_id, cfg): the user's dataset, then the training above. */
  function TrainUserOccurrence(userId: int, table: LogTable, cfg: MLConfig, lib: Library, b: FloatUnit, modelsDir: Option<Path>, store: Store): (run: Run)
    ensures QueryLogs(table, Some(userId)) == [] ==> run == Run(Returned(NotTrained(NoUserData)), store)
    ensures !(run.outcome.Returned? && run.outcome.value.Trained?) ==> run.store == store
    ensures run.outcome.Returned? && run.outcome.value.Trained? ==>
      && modelsDir.Some? && run.outcome.value.path == ModelPaths(modelsDir.value).UserOccurrence(userId)
      && run.outcome.value.metrics.UserMetrics? && run.outcome.value.metrics.userId == userId
      && run.store.Keys == store.Keys + {run.outcome.value.path}
      && (forall q :: q in store && q != run.outcome.value.path ==> run.store[q] == store[q])
  {
    var data := DatasetOf(table, Some(userId), cfg);
    EmptyFeaturesIff(table, Some(userId), cfg);
    assert QueryLogs(table, Some(userId)) == [] ==> data.XEmpty();
    UserTraining(userId, data, cfg, lib, b, modelsDir, store)
  }

  /** What a user's training returns (or raises) does not depend on the bundles already saved. */
  lemma UserOutcomeIgnoresStore(userId: int, data: BuiltDataset, cfg: MLConfig, lib: Library, b: FloatUnit, modelsDir: Option<Path>, s1: Store, s2: Store)
    requires |data.x| == |data.yOcc|
    ensures UserTraining(userId, data, cfg, lib, b, modelsDir, s1).outcome
         == UserTraining(userId, data, cfg, lib, b, modelsDir, s2).outcome
  {
  }

  // ---------------------------------------------------------------- train_all_users

  /** A per-user trainer: the run of training one user, given the bundles saved so far. */
  type Trainer = (int, Store) -> Run

  /** What the trainer returns or raises for a user does not depend on the store it is given. */
  ghost predicate StoreBlind(train: Trainer) {
    forall u, s1, s2 :: train(u, s1).outcome == train(u, s2).outcome
  }

  /** train_user_occurrence with the settings of one batch fixed. */
  function UserTrainer(table: LogTable, cfg: MLConfig, lib: Library, b: FloatUnit, modelsDir: Option<Path>): (train: Trainer)
    ensures StoreBlind(train)
  {
    var train := (u: int, s: Store) => TrainUserOccurrence(u, table, cfg, lib, b, modelsDir, s);
    assert StoreBlind(train) by {
      forall u, s1, s2 ensures train(u, s1).outcome == train(u, s2).outcome {
        UserOutcomeIgnoresStore(u, DatasetOf(table, Some(u), cfg), cfg, lib, b, modelsDir, s1, s2);
      }
    }
    train
  }

  /** How the batch ends: the returned per-user results, or the first exception, and the store after it. */
  datatype BatchRun = BatchRun(outcome: Outcome<seq<TrainResult>>, store: Store)

  /**
   * One turn of the batch loop: nothing more happens once an exception has
   * ended the batch; otherwise the user is trained, and its result appended
   * or its exception ends the batch.
   */
  function Step(prev: BatchRun, userId: int, train: Trainer): (next: BatchRun)
    ensures prev.outcome.Raised? ==> next == prev
    ensures prev.outcome.Returned? && next.outcome.Returned? ==> |next.outcome.value| == |prev.outcome.value| + 1
  {
    if prev.outcome.Raised? then prev
    else
      var run := train(userId, prev.store);
      match run.outcome
      case Raised(msg) => BatchRun(Raised(msg), run.store)
      case Returned(r) => BatchRun(Returned(prev.outcome.value + [r]), run.store)
  }

  /**
   * The batch over `users` in iteration order: each user's result is appended
   * and its bundle saved; the first user whose training raises ends the whole
   * batch with that exception, since nothing catches it.
   */
  function TrainUsers(users: seq<int>, train: Trainer, store: Store): (batch: BatchRun)
    ensures batch.outcome.Returned? ==> |batch.outcome.value| == |users|
    decreases |users|
  {
    if users == [] then BatchRun(Returned([]), store)
    else Step(TrainUsers(users[..|users| - 1], train, store), users[|users| - 1], train)
  }

  /** Once a prefix of the batch has raised, the rest of the users are never reached. */
  lemma {:induction false} RaisedPrefixEndsBatch(users: seq<int>, k: nat, train: Trainer, store: Store)
    requires k <= |users|
    requires TrainUsers(users[..k], train, store).outcome.Raised?
    ensures TrainUsers(users, train, store) == TrainUsers(users[..k], train, store)
    decreases |users| - k
  {
    if k < |users| {
      assert users[..|users| - 1][..k] == users[..k];
      RaisedPrefixEndsBatch(users[..|users| - 1], k, train, store);
    } else {
      assert users[..k] == users;
    }
  }

  /**
   * A batch that returns holds exactly one result per user, in iteration
   * order, each the one that user's own training returns.
   */
  lemma {:induction false} OneResultPerUser(users: seq<int>, train: Trainer, store: Store, i: nat)
    requires StoreBlind(train)
    requires TrainUsers(users, train, store).outcome.Returned?
    requires i < |users|
    ensures train(users[i], store).outcome.Returned?
    ensures TrainUsers(users, train, store).outcome.value[i] == train(users[i], store).outcome.value
    decreases |users|
  {
    var front := users[..|users| - 1];
    var prev := TrainUsers(front, train, store);
    var last := users[|users| - 1];
    assert prev.outcome.Returned?;
    assert train(last, prev.store).outcome == train(last, store).outcome;
    if i < |users| - 1 {
      OneResultPerUser(front, train, store, i);
      assert front[i] == users[i];
    }
  }

  /** A batch raises exactly when some user's training raises. */
  lemma {:induction false} BatchRaisesIffSomeUserRaises(users: seq<int>, train: Trainer, store: Store)
    requires StoreBlind(train)
    ensures TrainUsers(users, train, store).outcome.Raised?
        <==> exists i :: 0 <= i < |users| && train(users[i], store).outcome.Raised?
    decreases |users|
  {
    if users != [] {
      var front := users[..|users| - 1];
      var prev := TrainUsers(front, train, store);
      var last := users[|users| - 1];
      BatchRaisesIffSomeUserRaises(front, train, store);
      assert train(last, prev.store).outcome == train(last, store).outcome;
      if exists i :: 0 <= i < |front| && train(front[i], store).outcome.Raised? {
        var i :| 0 <= i < |front| && train(front[i], store).outcome.Raised?;
        assert users[i] == front[i];
      }
      if exists i :: 0 <= i < |users| && train(users[i], store).outcome.Raised? {
        var i :| 0 <= i < |users| && train(users[i], store).outcome.Raised?;
        if i < |front| {
          assert front[i] == users[i];
        }
      }
    }
  }

  /**
   * train_all_users: trains every user in turn and appends each result; the
   * returned dictionary's "ok" is always True, and an exception from any user
   * ends the loop.
   */
  method TrainAllUsers(users: seq<int>, table: LogTable, cfg: MLConfig, lib: Library, b: FloatUnit, modelsDir: Option<Path>, store0: Store)
    returns (outcome: Outcome<seq<TrainResult>>, store: Store)
    ensures BatchRun(outcome, store) == TrainUsers(users, UserTrainer(table, cfg, lib, b, modelsDir), store0)
  {
    var train := UserTrainer(table, cfg, lib, b, modelsDir);
    var results: seq<TrainResult> := [];
    store := store0;
    for i := 0 to |users|
      invariant BatchRun(Returned(results), store) == TrainUsers(users[..i], train, store0)
    {
      assert users[..i + 1][..i] == users[..i];
      var run := train(users[i], store);
      store := run.store;
      if run.outcome.Raised? {
        outcome := Raised(run.outcome.message);
        RaisedPrefixEndsBatch(users, i + 1, train, store0);
        return;
      }
      results := results + [run.outcome.value];
    }
    assert users[..|users|] == users;
    outcome := Returned(results);
  }
}

=== FILE: wrappers.dfy ===
/**
 * Option, the value-or-nothing wrapper used for missing cells, absent models
 * and null metrics, and Outcome, a returned value or a raised exception.
 */
module Wrappers {

  datatype Option<+T> = None | Some(value: T) {

    function GetOr(default: T): T {
      match this
      case Some(v) => v
      case None => default
    }
  }

  /** What a Python call ends with: a returned value, or an exception carrying its message. */
  datatype Outcome<+T> = Returned(value: T) | Raised(message: string)
}
